=== FILE: README.md ===
# app-ts core, modelled in Dafny

This project models the core of the `app-ts` front-end library. The central
part is `Component` (`src/component.ts`). It holds a global registry of
component classes; each entry carries compiled html/css, an ancestor chain and
a reference-counted `<style>` element in `document.head`. A component is built
from its registered html: placeholders whose tag names a registered class
become child components, `ref` attributes fill the element-ref table,
`on...="{{name}}"` attributes become bound event listeners, and the ancestors'
class names and styles are applied. A component can later be given new inner
html, gain child components and lose them, and be destroyed.

Around it sit the library's smaller utilities:
- the sorted-array helpers of `src/sort.ts`;
- the free-list id allocator of `src/unique_ids.ts`;
- the query-string router of `src/router.ts`;
- the form readers and writers of `src/form.ts` and `src/form-helper.ts`;
- cookie get/set (`src/cookies.ts`);
- hex random strings (`src/random_string.ts`).

Modules, one per source file, plus three shared ones:
- `Wrappers`: `Option` and `Result`.
- `Strings`: trim, split, join, ASCII lower-casing and decimal formatting.
- `Dom`: the element tree the component code works on.

How the model is built:
- **The DOM is a value.** `Dom.Node` has `Element(tag, attrs, classes, children, listeners)`, `Text`, `Comment` and `Mount`. A nested component's root appears in its parent's tree as `Mount(c)`, so each tree has one owner.
- **Element refs are paths** from the component's root.
- **Components and registry entries are classes** whose fields the methods update in place.
- **The global registry, the head's style elements and the log of destroyed components** are fields of a `Page` object shared by all components.
- **Construction is a static factory, `Component.Create`.** It returns `Result<Component>` because a constructor cannot fail; the error strings are the source's messages.
- **`Create` and the walks it starts take a `fuel` bound.** The bound stands for the JavaScript call stack: a template that contains its own tag recurses until the stack overflows.
- **`key in this` becomes a member table.** `src/is_in.ts` is modelled as membership in a per-class table: methods, plus fields once the instance's own field initialisers have run.

Behaviour that the model keeps as the code is written:
- **`unsetComponents` deletes nothing for any node below the root.** Its test does not depend on the component it loops over, so it deletes the first component only when the node is the root or contains it (`UnsetComponents`). `__setHtml` only passes children of an element, so old child components stay listed and keyed (`SetHtml` keeps `Kept`).
- **The child-node loop of `setComponents` moves only every other node** (`MoveChildNodesAsWritten`): `Substitute` passes the nodes at even positions to the new component and leaves the rest in the placeholder.
- **The content step re-walks the content element** (`FillContent`): unless that element has class `Component` (only the root does by then), the walk clashes on its own `ref="content"` and construction fails; for the root it records nothing.
- **The two ref keys differ.** `__insertComponent` keys component refs by `params.ref`, while `__deleteComponent` removes the instance's own `ref`, which comes from the `ref` attribute.
- **`__destroy` destroys every child but does not empty `_components`.**
- **`Sort.getIndex` returns `array.length` when every element is less**, despite its doc comment's "last index".
- **`FormHelper.getValues` records a checked radio as `true`, not as its value.**

## Model

| member | source | states |
|---|---|---|
| Components.BaseKey | src/component.ts:451 | the base class registers under the lower-cased key "component" |
| Components.Lookup | src/component.ts:285-286 | `key in this` finds nothing exactly when the name is no initialised subclass field, no `Component` field, no method up the chain and not `root`; a `Component` field not shadowed by a subclass field is found |
| Components.BaseMethodsInherited | src/component.ts:285 | every class has all of `Component`'s prototype methods |
| Components.BaseMembersFound | src/component.ts:285-286 | `Component`'s own methods, fields and `root` are found on every instance, ready or not, and its methods resolve to methods unless a subclass field shadows them |
| Components.CompileHtml | src/component.ts:445 | compiled html holds no tab or newline and starts and ends with non-whitespace |
| Components.TrimKeeps | src/component.ts:445 | trimming never brings back a character the regex removed |
| Components.CompileCss | src/component.ts:446 | compiled css is trimmed and no longer than the source css |
| Components.StyleElement.constructor | src/component.ts:94-96 | a style element carries the class name as id and the entry's css |
| Components.RegistryEntry.constructor | src/component.ts:443-448 | a new entry holds the class, the compiled html/css, no style element and a zero count |
| Components.RegistryEntry.Ancestors | src/component.ts:390-401 | `ancestors` starts with the entry itself, followed by the inherited entries |
| Components.RegisteredAncestors | src/component.ts:398-402 | every inherited entry is a registered entry; where the chain ends is stated by `RegisteredAncestorsEndAtBase` |
| Components.RegisteredAncestorsEndAtBase | src/component.ts:393-404 | once `Component` is registered, a subclass's inherited list is non-empty and its last entry is `Component`'s |
| Components.ClimbIsRegisteredAncestors | src/component.ts:393-404 | the prototype-chain loop appends exactly the registered ancestors, nearest first |
| Components.UsesCount | src/component.ts:88-89 | the number of times the loop meets an entry in its first `i` steps is that entry's multiplicity in the first `i` ancestors |
| Components.InsertBefore | src/component.ts:97 | `insertBefore` adds the element once, right before the reference element or at the end when there is none |
| Components.InsertBeforeOrder | src/component.ts:97 | the inserted element comes before its reference, or after every old element when there is none, and old elements keep their relative order |
| Components.IndexOfElem | src/component.ts:97 | the first position of an element in the head |
| Components.RemoveElem | src/component.ts:132 | `removeChild` drops that element and keeps every other one |
| Components.Discard | src/component.ts:126-136 | the head without a set of elements keeps exactly the other elements |
| Components.DiscardNone | src/component.ts:126-136 | discarding nothing leaves the head as it is |
| Components.DiscardAppend | src/component.ts:126-136 | discarding distributes over concatenation, so the remaining elements keep their order |
| Components.RemoveElemDiscard | src/component.ts:132 | removing one more element after discarding a set is discarding the set with it |
| Components.DiscardAbsent | src/component.ts:132 | discarding an element the head does not hold changes nothing |
| Components.DiscardInserted | src/component.ts:97 | an inserted element that is later discarded leaves the rest of the head as it was |
| Components.DiscardSplice | src/component.ts:97 | splicing an element into the head and discarding it gives back the discarded head |
| Components.DiscardTwice | src/component.ts:126-136 | discarding two sets in turn is discarding their union |
| Components.ReleasesAppend | src/component.ts:119-137 | the releases of two runs of destroyed components add up |
| Components.ShedNone | src/component.ts:119-137 | releasing nothing changes no count and leaves the head as it is |
| Components.ShedOf | src/component.ts:126-136 | the release loop of one component, with the entries outside its ancestors untouched, is a `Shed` of its ancestors over every entry |
| Components.ShedTrans | src/component.ts:119-137 | two rounds of releases in turn are one round of both: counts, held elements and the head compose |
| Components.SnapshotsKept | src/component.ts:119-137 | entries whose fields did not change have the same count and element snapshots |
| Components.LastCss | src/component.ts:87-101 | `lastStyleElem` at step `k` belongs to the last entry with css before `k`, or is null when there is none |
| Components.MadeAt | src/component.ts:93-98 | one step of the style loop makes at most one new element |
| Components.AcquiredCountsStep | src/component.ts:92-101 | one step keeps each count equal to its old value plus the css-bearing occurrences met so far, and keeps the elements held before |
| Components.MadeIffCreated | src/component.ts:93-98 | a step makes an element exactly when its entry has css, had no element, and is met for the first time |
| Components.AcquiredHeadStep | src/component.ts:93-100 | one step keeps the head equal to the old head plus the elements made, and keeps `lastStyleElem` the element of the previous entry with css |
| Components.AcquiredOrderStep | src/component.ts:97 | one step keeps every element made so far before its reference element, and after every old element when it had none |
| Components.OrderPairStep | src/component.ts:97 | an element made before a step stays before its reference element after that step |
| Components.OrderFirstStep | src/component.ts:97 | an element made with a null reference stays after every old element |
| Components.BeforeKept | src/component.ts:97 | a step that inserts an element keeps every earlier ordering of the head |
| Components.AcquiredStep | src/component.ts:88-101 | one pass of the style loop keeps the whole loop invariant (counts, head and order) |
| Components.DestroyOrderAllSnoc | src/component.ts:121-123 | destroying children in order appends each child's whole destroy order in turn |
| Components.Page.constructor | src/component.ts:451 | the registry starts with only the base class's entry: empty ancestor tail, empty head, nothing built |
| Components.Page.Register | src/component.ts:383-407 | an already-registered lower-cased name gives the source's error and changes nothing; otherwise exactly one entry is added under that name, holding the compiled html/css and the registered ancestors |
| Components.Page.InheritedEntries | src/component.ts:393-404 | the loop up the prototype chain collects exactly `RegisteredAncestors` |
| Components.Page.AddEntry | src/component.ts:406 | the registry gains exactly the new key; the head, components and logs are unchanged |
| Components.Page.AcquireStyle | src/component.ts:91-101 | a css-bearing entry's count rises by one and `lastStyleElem` becomes its element; the element is created (class name as id, the css) and inserted right before the previous `lastStyleElem` only when the count was 0; an empty-css entry changes nothing |
| Components.Page.AcquireStep | src/component.ts:88-101 | one pass of the loop keeps the loop invariant and never lowers a count |
| Components.Page.AcquireAll | src/component.ts:87-102 | the loop ends with the invariant over all ancestors, against the head and counts before it |
| Components.Page.AcquireCounts | src/component.ts:87-102 | the counts, the kept elements and the new head read back from the entries after the loop |
| Components.Page.AcquireStyles | src/component.ts:87-102 | each ancestor's count rises by its number of css-bearing occurrences; old elements stay, in their order, and the head gains exactly the new elements, each of an entry that had none; a new element sits right before the element of the previous ancestor with css, or after every old element when there is none |
| Components.Page.ReleaseStyle | src/component.ts:127-135 | an entry holding an element has its count lowered by one, and its element leaves the head exactly when the count reaches zero; an entry with no element is untouched |
| Components.Page.ReleaseStep | src/component.ts:126-136 | one pass of the loop keeps the loop invariant and never raises a count |
| Components.Page.ReleaseAll | src/component.ts:126-136 | the loop removes from the head exactly the elements of the entries whose count reaches 0, keeping the others in order |
| Components.Page.ReleaseStyles | src/component.ts:126-136 | each ancestor's count falls by its number of occurrences, stopping at 0; an element leaves the head exactly when its entry's count reaches 0, the remaining elements keep their order, and the entries still counted keep their element |
| Components.Page.ReleaseShed | src/component.ts:126-136 | the same loop seen over every entry of the page: a `Shed` of the ancestors' occurrences, the other entries untouched |
| Components.SentinelName | src/component.ts:283-284 | a value names a member exactly when it is `{{name}}`, and the stripped text is that name |
| Components.SentinelLength | src/component.ts:283-284 | a value that starts with `{{` and ends with `}}` has at least four characters, so the stripping is defined |
| Components.SentinelRoundTrip | src/component.ts:283-284 | stripping `{{name}}` gives `name` back |
| Components.Resolve | src/component.ts:281-291 | `{{name}}` becomes the member, bound to the instance when callable; every other value, `{{unknown}}` included, passes through as the string |
| Components.ParamAttrs | src/component.ts:280-293 | every attribute name on the element is a key of `params.attributes` |
| Components.ParamAttrsLastWins | src/component.ts:280-293 | each attribute name maps to the resolution of its last occurrence |
| Components.ParamAttrsAbsent | src/component.ts:280-293 | a name with no attribute is absent from the params |
| Components.RefAttr | src/component.ts:274-278 | `params.ref` is the `ref` attribute's value when there is one, and '' otherwise |
| Components.IntendedParams | src/component.ts:272-298 | the intended params: the `ref` attribute, the resolved attributes, and all child nodes in order, leaving the element empty |
| Components.EvensOddsSnoc | src/component.ts:295-298 | one more node goes to the moved half at an even position and to the left-behind half at an odd one |
| Components.EvensOddsLength | src/component.ts:295-298 | the moved and left-behind halves have ceil(n/2) and floor(n/2) nodes |
| Components.EvensOddsAt | src/component.ts:295-298 | the moved half's node `i` is node `2i`, and the left-behind half's node `i` is node `2i+1` |
| Components.MountsEvensOdds | src/component.ts:295-298 | neither half mounts a component the child nodes did not |
| Components.MoveChildNodesAsWritten | src/component.ts:295-298 | the loop as written moves the nodes at even positions and leaves those at odd ones |
| Components.MoveChildNodesLosesSecond | src/component.ts:295-298 | with two or more child nodes, the second is left behind and fewer than all reach the component |
| Components.ScanEvents | src/component.ts:324-350 | each `on...` attribute naming a function yields a listener for the lower-cased event after `on`; the scan fails exactly when some such attribute names a non-function; on success every handler attribute is marked |
| Components.RemoveNames | src/component.ts:351-353 | exactly the marked attributes are removed, and all others stay |
| Components.BoundHandlersRemoved | src/component.ts:323-353 | after a successful scan no handler attribute is left, and every attribute not starting with `on` stays |
| Components.InsertNode | src/component.ts:200-205 | `insertBefore`/`appendChild`: the new node sits before the given child or at the end, and the other children keep their order |
| Components.Unmount | src/component.ts:226-228 | detaching a component's root removes that component from the tree and nothing else |
| Components.UnmountAll | src/component.ts:226-228 | detaching over a child list removes exactly that component |
| Components.Without | src/component.ts:223 | `_components.delete` keeps every other component |
| Components.PlacedUnreached | src/component.ts:269-309 | a node the walk did not reach is a valid outcome of a stopped walk |
| Components.PlacedStopped | src/component.ts:269-309 | every outcome of a complete walk is also a valid outcome of a stopped one |
| Components.PlacedStoppedAt | src/component.ts:305-307 | after a failure at child `i`, the children before it are walked and those after it untouched |
| Components.InputContribution | src/component.ts:364-375 | only named input/select/textarea elements contribute; a checkbox gives its `checked`, everything else its `value` |
| Components.GetFormInputs | src/component.ts:361-380 | a key is in the result exactly when some descendant contributes it, and maps to the last such contribution in pre-order |
| Components.GetFormInputsSpec | src/component.ts:361-380 | a key is in the result exactly when some descendant writes it, and its value is the last such write in pre-order |
| Components.NoRadioSameAsForm | src/component.ts:361-380 | without radios, `getFormInputs` equals `Form.getInputs` |
| Components.ContentRefsAsWritten | src/component.ts:105-111 | the content step as written re-walks the element registered as `content`, and for any element without class `Component` that walk clashes on "content" |
| Components.Template | src/component.ts:44-70 | the three root-cardinality errors, with their messages; otherwise the root is the single parsed element, with `ref` and `style` from the params and all other attributes from the template |
| Components.Component.constructor | src/component.ts:9-25 | a new instance has no components, element refs or component refs |
| Components.Component.Create | src/component.ts:36-114 | an unregistered class and each of the template's errors give the source's message; otherwise `setComponents` leaves the root as `Placed` says, a ref clash in the placed root gives the source's "already been used" error, and then a handler attribute of the root naming no function gives the handler error (bound before the subclass's fields exist); a built component has its class's entry, the `ref` param, exactly the placed root's classes plus the ancestors' class names, one style count per css-bearing ancestor occurrence, and, without a `content` ref, exactly the refs `setRefs` records on the placed root, its tree shape and no handler attribute left |
| Components.Component.Spawn | src/component.ts:194 | `new ComponentType(params)` from `setComponents`: on success a fresh component of that class on the page |
| Components.Component.Instantiate | src/component.ts:57-114 | the steps after the template checks, run as written: the root is placed as `Placed` says, a ref clash and then a root handler error give the source's messages, and on success the instance carries the ref, exactly the placed root's classes plus the ancestors' class names, the style counts and, without a `content` ref, exactly the refs `setRefs` records, the placed shape and no handler attribute |
| Components.Component.Build | src/component.ts:72-113 | the constructor's steps in the source's order: the root is placed as `Placed` says; a ref clash (root and refs then as recorded) and then a handler error give their messages; a failed placement records no ref; on success the root's classes are the placed root's plus the ancestors' class names, the styles are counted and, without a `content` ref, the refs are exactly what `setRefs` records, the shape is the placed shape and no handler attribute is left |
| Components.Component.Complete | src/component.ts:75-113 | after `setComponents`: a ref clash leaves the root as it was with the refs recorded so far and gives the source's message, then a handler error gives its message; without a `content` ref the refs are exactly what `setRefs` records; on success the classes are the root's plus the ancestors' class names, the style counts rise, and without a `content` ref the shape is kept and no handler attribute is left |
| Components.Component.Furnish | src/component.ts:86-113 | the style step counts every css-bearing ancestor occurrence; without a `content` ref nothing else changes; with one, the ref table becomes what the as-written content walk records, its clash is the error returned, and otherwise the content element becomes what `setComponents` made of it with the params' children; the root keeps its classes |
| Components.Component.Decorate | src/component.ts:75-84 | the ref table is exactly what the `setRefs` walk records, and a clash gives the source's message; on success the tree shape is unchanged, no handler attribute is left, and the root gains the ancestors' class names |
| Components.Component.Wire | src/component.ts:75-79 | refs are recorded as `setRefs` would and earlier refs are kept; a clash leaves the node as it was and gives the source's error; then a handler attribute naming no function gives the handler error; on success no handler attribute is left below the node, and the node itself keeps its classes, loses exactly its bound `on...` attributes and gains one listener per bound attribute |
| Components.Component.FillContent | src/component.ts:104-113 | as written: the content element's old children lose their refs, the params' children replace them, and `setRefs` re-walks the content element itself; the new ref table is that walk's result, it records nothing when the element has class `Component`, a clash gives the source's "already been used" error, and otherwise the content element becomes what `setComponents` made of it (`Placed`), with success exactly when that walk succeeded |
| Components.Component.FillContentIntended | src/component.ts:104-113 | as intended: every ref among the new children is recorded at its new path |
| Components.Component.PlaceComponents | src/component.ts:269-309 | the element at the path is replaced by what the walk made of it, as `Placed` says; a placeholder is reported exactly when its lower-cased tag is registered, and it keeps the child nodes at odd positions |
| Components.Component.Adopt | src/component.ts:197 | `_components.add`: adding a member twice keeps one copy |
| Components.Component.SetComponents | src/component.ts:269-309 | the walk's result is as `Placed` says: a registered element in a parent becomes the mount of a new listed component, elsewhere it keeps only its odd-position child nodes; other elements keep tag, attributes and classes and have each child placed; new mounts are listed components |
| Components.Component.Descend | src/component.ts:304-308 | an unregistered element keeps tag, attributes and classes, and each of its children is placed in turn |
| Components.Component.Substitute | src/component.ts:271-303 | the element keeps its odd-position child nodes (the even ones go into the params); without a parent nothing is made; otherwise, on success, exactly one fresh component of the registered class is appended to `_components`, keyed by the `ref` attribute when non-empty, and in a parent its mount takes the element's place; a failure changes neither table |
| Components.Component.Enlist | src/component.ts:299-301 | `__insertComponent` from `setComponents`: on success one fresh component is appended and keyed by `params.ref` when non-empty, and in a parent its mount replaces the element; a failure changes nothing |
| Components.Component.Own | src/component.ts:197-210 | the child is added to `_components`, and to `_componentRefs` under the given ref when that is non-empty |
| Components.Component.SetComponentsChildren | src/component.ts:305-307 | each child is replaced by what the walk made of it, as `Placed` says, stopping at the first failure; new mounts are listed components |
| Components.Component.BindEvents | src/component.ts:323-357 | listeners are added as `ScanEvents` says; a failed scan keeps the attributes and stops; otherwise the bound attributes are removed and the children are visited |
| Components.Component.SetHtml | src/component.ts:174-188 | the element keeps tag, attributes, classes and listeners; its children are the parsed html without tabs and newlines, each element child placed as `Placed` says and, when it stays an element, wired (its handler attributes bound and removed, no handler attribute left below it); no component is unlisted and no component ref dropped; refs outside the old children survive; the tree outside the element is unchanged |
| Components.Component.Refill | src/component.ts:180-187 | after `innerHTML` is set: the element keeps everything but its children, which are the parsed nodes; each element child is placed as `Placed` says and, when it stays an element, wired as `Wire` states; no existing ref is lost; the tree outside the element is unchanged |
| Components.Component.ClearChildren | src/component.ts:176-179 | the first loop of `__setHtml` deletes exactly the refs `unsetRefs` visits in the old children and deletes no component |
| Components.Component.ClearChild | src/component.ts:177-178 | one turn of that loop: that child's refs are deleted, and `unsetComponents` on a node below the root deletes nothing |
| Components.Component.UnsetComponents | src/component.ts:312-319 | when the node is the root or contains it, the first component is deleted (its `ref` key gone, its mount detached, it and its subtree destroyed in order); otherwise nothing changes |
| Components.Component.SetChildren | src/component.ts:181-187 | the second loop of `__setHtml`: non-element children stay, each element child is placed as `Placed` says and, when it stays an element, wired as `Wire` states; existing refs survive; the tree outside the element is unchanged |
| Components.Component.SetChild | src/component.ts:182-186 | only child `i` changes: it becomes what the walk made of it; a failed walk is the error and records no ref; otherwise the ref table becomes what `setRefs` records on it, or on the detached placeholder when a component replaced it, a clash gives the source's error, then a handler error gives its message; an element child that stayed one is wired as `Wire` states; the tree outside child `i` is unchanged |
| Components.Component.Attach | src/component.ts:184-185 | the ref table becomes exactly what `setRefs` records on the placed node (or the detached placeholder), a clash gives the source's error and then a handler error its message, only child `i` changes, keeping its shape, and when it was not replaced it is wired as `Wire` states; the tree outside child `i` is unchanged |
| Components.Component.InsertComponent | src/component.ts:192-212 | an unregistered class gives the source's error; otherwise the new component joins `_components`, its mount is inserted before the given child or at the end, and it is keyed by `params.ref` when non-empty; a non-element parent or an unknown child fails |
| Components.Component.Insert | src/component.ts:196-211 | the HierarchyRequestError and NotFoundError cases of `insertBefore`, and the insertion and ref update otherwise |
| Components.Component.DeleteComponent | src/component.ts:215-232 | a non-member changes nothing, the head included; otherwise the component is removed from the set, its own `ref` key is removed, its root is detached, and it and its subtree are destroyed in order, with their style releases as `Shed` states |
| Components.Component.Remove | src/component.ts:218-231 | a member is removed from the set, the `ref` table and the tree, then destroyed: the log gains its destroy order and the head and counts change exactly as `Shed` states for the releases of that subtree |
| Components.Component.Disown | src/component.ts:220-228 | the set entry and the `ref` key are removed and the root is detached |
| Components.Component.Destroy | src/component.ts:119-137 | children are destroyed first, each once, in order; over every entry of the page, each count falls by exactly its occurrences among the ancestors of the destroyed components, stopping at 0, and the head loses exactly the elements whose count reached 0, the rest keeping their order (`Shed`) |
| Components.Component.ReleaseOwn | src/component.ts:126-136 | the component's own style loop after its children's: the two rounds of releases together are one `Shed` of both |
| Components.Component.Record | src/component.ts:119-137 | the log of destroyed components gains this one |
| Components.Component.DestroyChildren | src/component.ts:121-123 | the destroy log grows by each child's destroy order in turn, `_components` is unchanged, and the head and counts change as `Shed` states for the releases of all those subtrees |
| Components.Component.DestroyChild | src/component.ts:121-123 | one turn of the children loop appends that child's destroy order and extends the `Shed` of the turns before by that child's releases |
| Components.Component.HasElement | src/component.ts:145-147 | `__hasElement` holds exactly when the ref is in the element-ref table |
| Components.Component.HasComponent | src/component.ts:159-161 | `__hasComponent` holds exactly when the ref is in the component-ref table |
| Components.Component.GetElement | src/component.ts:150-156 | `__element` succeeds exactly when `__hasElement` holds, and otherwise throws ReferenceError |
| Components.Component.GetComponent | src/component.ts:164-170 | `__component` succeeds exactly when `__hasComponent` holds, and otherwise throws ReferenceError |
| Dom.GetAttr | src/component.ts:237 | `getNamedItem` finds an attribute with that name, and finds none exactly when no attribute has it |
| Dom.SetAttr | src/component.ts:63-69 | `setAttribute` sets that name and leaves every other name as it was |
| Dom.RemoveAttr | src/component.ts:352-354 | `removeAttribute` drops that name only |
| Dom.Replace | src/component.ts:176-181 | replacing the node at a path puts the new node at that path |
| Dom.MountsReplace | src/component.ts:199-205 | a replacement brings in no component beyond those of the new node |
| Dom.AtReplaceChild | src/component.ts:182-186 | replacing child `i` changes only that child of its parent |
| Dom.SkeletonMounts | src/component.ts:75-79 | walks that keep the tree's shape keep its mounted components |
| Dom.ToNodes | src/component.ts:180 | parsed html holds no components and keeps each node's tag, attributes and classes |
| Dom.SetRefsIsRecord | src/component.ts:235-251 | the `setRefs` walk records its targets in pre-order, stopping at class `Component` |
| Dom.RecordSpec | src/component.ts:240-244 | recording fails exactly when a ref repeats or is already present; earlier refs stay; on success each target maps to its element |
| Dom.UnsetRefsSpec | src/component.ts:254-265 | `unsetRefs` deletes exactly the refs the `setRefs` walk would visit |
| Dom.UnsetUndoesSet | src/component.ts:235-265 | unsetting after a successful set restores the previous table |
| Dom.SetRefsInto | src/component.ts:235-251 | every recorded ref points at an element of the tree |
| Dom.SetRefs | src/component.ts:235-251 | `setRefs` keeps every ref already in the table, and a reported clash names a ref in it |
| Dom.UnsetRefs | src/component.ts:254-265 | `unsetRefs` only deletes: every ref left was in the table with the same element |
| Forms.Apply | src/form.ts:14-26 | a contribution overwrites its key, and no contribution changes nothing |
| Forms.LastForSpec | src/form.ts:6-30 | the last write for a key exists exactly when some write does |
| Forms.FoldLastWins | src/form.ts:6-30 | a key is in the fold exactly when some contribution writes it, and maps to the last one |
| Forms.FoldAppend | src/form.ts:30 | merging a child's subtree result after the child is folding the concatenation |
| Forms.CollectChildrenIsFold | src/form.ts:6-30 | the recursive collection is a left fold over the descendants in pre-order |
| Forms.CollectLastWins | src/form.ts:4-33 | `getInputs` maps a key to its last write in pre-order; the passed element itself is not inspected |
| Forms.CollectLastWinsAll | src/form.ts:4-33 | for every key at once: in the result exactly when some descendant writes it, mapping to the last write in pre-order |
| Forms.GetInputs | src/form.ts:4-33 | `getInputs` has a key exactly when some descendant writes it, and maps it to the last such write in pre-order |
| Forms.FormContribution | src/form.ts:7-28 | only named input/select/textarea elements contribute; a checkbox gives `checked`, a checked radio its value, an unchecked radio nothing, and the others their value |
| Forms.UncheckedRadioKeepsEarlier | src/form.ts:16-20 | an unchecked radio leaves any earlier value for its name in place |
| FormHelperModel.InputContribution | src/form-helper.ts:7-17 | a checkbox gives `checked`, a checked radio `true`, an unchecked radio nothing, and other inputs their value |
| FormHelperModel.SelectContribution | src/form-helper.ts:21 | a select gives its value |
| FormHelperModel.GetValues | src/form-helper.ts:3-24 | the loops compute the fold over inputs, then over selects |
| FormHelperModel.SelectWins | src/form-helper.ts:19-22 | a select overrides a same-named input, and a later select an earlier one |
| FormHelperModel.InputsWithoutSelect | src/form-helper.ts:5-18 | a name no select carries maps to the last input that writes it, and is absent when none does |
| FormHelperModel.InputElement.constructor | src/form-helper.ts:5 | an input element with the given name, type, value and checked state |
| FormHelperModel.SelectElement.constructor | src/form-helper.ts:53 | a select element with the given name and value |
| FormHelperModel.NewChecked | src/form-helper.ts:30-46 | no entry leaves `checked`; a checkbox takes only a boolean; a radio is checked for its own value, unchecked for another string, and unchanged for a boolean |
| FormHelperModel.NewInputValue | src/form-helper.ts:47-51 | a text-like input's value changes only to a string entry |
| FormHelperModel.NewSelectValue | src/form-helper.ts:55-61 | a select's value changes only to a string entry |
| FormHelperModel.Get | src/form-helper.ts:30 | `values.get` finds exactly the keys in the map |
| FormHelperModel.SetValues | src/form-helper.ts:27-63 | every input and select gets its new state from its map entry, and elements without an entry are untouched |
| FormHelperModel.SetAfterGetKeepsInput | src/form-helper.ts:3-63 | writing back what `getValues` read leaves an input with a unique name as it was |
| CookiesModel.FindEntry | src/cookies.ts:6 | `find` returns the first entry that, trimmed, starts with `name=` |
| CookiesModel.Decoded | src/cookies.ts:8 | a decode failure is an error, otherwise the decoded text |
| CookiesModel.MatchHasValuePiece | src/cookies.ts:8 | a matching entry splits on '=' into at least two pieces |
| CookiesModel.GetMissing | src/cookies.ts:5-10 | `get` returns undefined exactly when no entry matches |
| CookiesModel.GetFirstMatch | src/cookies.ts:5-9 | the first matching entry wins, and its text between the first and second '=' is decoded |
| CookiesModel.Put | src/cookies.ts:18 | the browser's cookie jar replaces the same-named cookie and keeps the rest |
| CookiesModel.SameNameBeforeEquals | src/cookies.ts:6 | only a name followed directly by '=' matches, so `ab=1` does not match `a` |
| CookiesModel.MatchIff | src/cookies.ts:6 | a jar entry matches a name exactly when it is that cookie |
| CookiesModel.ValuePiece | src/cookies.ts:8 | the piece after the first '=' of an entry is the cookie's value |
| CookiesModel.JarMatches | src/cookies.ts:5-6 | in a well-formed jar exactly one entry matches each cookie's name |
| CookiesModel.GetFromJar | src/cookies.ts:4-11 | `get` on the jar's header yields the decode of that cookie's value |
| CookiesModel.StoreSet | src/cookies.ts:17-19 | `set` writes `name=encode(content);max-age=…;path=/;secure`, which stores that one cookie |
| CookiesModel.SetThenGet | src/cookies.ts:4-19 | getting a cookie just set returns its content when decode inverts encode |
| CookiesModel.Get | src/cookies.ts:4-11 | a decode failure gives the URIError; `undefined` only when no entry of the header matches the name |
| CookiesModel.Set | src/cookies.ts:17-19 | the written string starts with `name=encode(content)` followed by `;` |
| RandomStringModel.ByteCount | src/random_string.ts:5 | ceil(length/2) bytes are requested |
| RandomStringModel.HexDigit | src/random_string.ts:9 | each digit is a lowercase hex character of the right value |
| RandomStringModel.ToHex | src/random_string.ts:9 | `toString(16)` of a byte has one or two hex digits |
| RandomStringModel.HexPair | src/random_string.ts:9 | `('0' + hex).slice(-2)` is the zero-padded two-digit form of a byte |
| RandomStringModel.HexOf | src/random_string.ts:8-10 | each byte becomes exactly its two digits, in order |
| RandomStringModel.Generate | src/random_string.ts:3-11 | the result has exactly `length` characters, all in 0-9a-f |
| RandomStringModel.GenerateDigits | src/random_string.ts:8-10 | character `i` is the high or low digit of byte `i/2`, so the result is a prefix of the hex pairs |
| RandomStringModel.ParseHexOf | src/random_string.ts:8-10 | the hex encoding of the bytes decodes back to them |
| RandomStringModel.GenerateEvenRoundTrip | src/random_string.ts:5-10 | for an even length the string decodes back to the random bytes |
| RouterModel.Lookup | src/router.ts:18-20 | a key maps to a value exactly when the query holds that entry |
| RouterModel.Pieces | src/router.ts:71-79 | at most one piece per key, each of the form `k=v` |
| RouterModel.CreateQueryString | src/router.ts:69-81 | the loop builds the non-empty pairs joined by '&' |
| RouterModel.QueryString | src/router.ts:70-79 | the string is empty exactly when there are no `k=v` pieces |
| RouterModel.QueryStringEmptyIff | src/router.ts:69-81 | the string is empty exactly when every value is empty |
| RouterModel.PiecesEmptyIff | src/router.ts:72-74 | every key with an empty value is skipped |
| RouterModel.QueryStringSplits | src/router.ts:75-78 | splitting on '&' gives back exactly the pairs, so no '&' leads, trails or doubles |
| RouterModel.Router.constructor | src/router.ts:4-9 | empty query, no callbacks, empty history |
| RouterModel.Router.GetValue | src/router.ts:18-20 | `getValue` is the stored query's value for the key |
| RouterModel.Router.AddCallback | src/router.ts:23-25 | set insertion: adding twice keeps one copy |
| RouterModel.Router.RemoveCallback | src/router.ts:28-30 | the callback is gone and the others stay in their order (the list minus that one position); removing an absent callback changes nothing |
| RouterModel.Router.CopyQuery | src/router.ts:35-38 | the stored query becomes a copy of the argument |
| RouterModel.Router.CallCallbacks | src/router.ts:84-88 | each callback is called once, in insertion order, with the stored query |
| RouterModel.Router.PushQuery | src/router.ts:33-44 | the query is replaced, `getValue` agrees with it for every key, '?' + query string is pushed, and every callback is called |
| RouterModel.Router.ReplaceQuery | src/router.ts:47-56 | the query is replaced, '?' + query string replaces the top of history, and no callback is called |
| RouterModel.Invocations | src/router.ts:85-87 | one call per callback, each with the query |
| RouterModel.InvokedOnce | src/router.ts:84-88 | every registered callback is called exactly once |
| Sort.LessPrefix | src/sort.ts:3-4 | the length of the prefix on which `isLess(·, key)` holds |
| Sort.Search | src/sort.ts:8-16 | the binary-search loop narrows to the boundary between less and not less |
| Sort.LowerBound | src/sort.ts:5-18 | the index is in [0, length], with less before it and not less at it |
| Sort.LowerBoundIsPrefixLength | src/sort.ts:3-18 | on a partitioned array the index is the less-prefix's length, which is `length` when all are less |
| Sort.SortedIsPartitioned | src/sort.ts:3-18 | a sorted array is partitioned for any key |
| Sort.GetIndex | src/sort.ts:5-18 | the loop returns the lower bound |
| Sort.Has | src/sort.ts:21-27 | `has` holds exactly when the lower bound is in range and equal to the key there |
| Sort.FoundIffPresent | src/sort.ts:21-27 | on a sorted array with equivalence as equality, `has` holds exactly when an equivalent element is present |
| Sort.InsertAt | src/sort.ts:32 | `splice(i, 0, v)` puts `v` at `i` and shifts the rest up, keeping the multiset plus `v` |
| Sort.RemoveAt | src/sort.ts:49 | `splice(i, 1)` removes exactly that element |
| Sort.Add | src/sort.ts:29-33 | the value is inserted at the lower bound |
| Sort.InsertKeepsSorted | src/sort.ts:29-33 | inserting at the lower bound keeps a sorted array sorted |
| Sort.AddIfUnique | src/sort.ts:35-43 | false and unchanged when found; otherwise true and inserted at the lower bound |
| Sort.AddIfUniqueKeepsStrict | src/sort.ts:35-43 | on a strictly sorted array the result stays strictly sorted |
| Sort.Remove | src/sort.ts:45-53 | true and exactly the element at the lower bound removed when found; otherwise false and unchanged |
| Sort.RemoveKeepsSorted | src/sort.ts:45-53 | removing an element keeps a sorted array sorted |
| Sort.Swap | src/sort.ts:64-66 | the adjacent swap exchanges two cells and keeps the multiset |
| Sort.SortAsWritten | src/sort.ts:56-71 | the loops as written give a permutation of the input, and the empty array is untouched |
| Sort.SortInPlace | src/sort.ts:56-71 | the in-place loops compute `SortAsWritten` and keep the multiset |
| Sort.SortAsWrittenDoesNotSort | src/sort.ts:63 | [3, 2, 1] ends as [2, 1, 3], which is not sorted |
| Sort.InsertionSort | src/sort.ts:55-71 | insertion sort comparing `array[m + 1]` sorts and keeps the multiset |
| Sort.SinkInto | src/sort.ts:62-68 | sinking the next element extends the sorted prefix by one |
| UniqueIdsModel.UniqueIds.constructor | src/unique_ids.ts:4-7 | no free ids and none used |
| UniqueIdsModel.UniqueIds.Get | src/unique_ids.ts:10-17 | pops the most recently released id, or returns `numUsed` when none is free; `numUsed` rises by one; the id was not outstanding |
| UniqueIdsModel.UniqueIds.Release | src/unique_ids.ts:20-23 | pushes the id and lowers `numUsed`; outstanding and free ids stay disjoint and together cover 0..numUsed+free-1 |
| UniqueIdsModel.TwoGetsDiffer | src/unique_ids.ts:10-17 | two gets in a row return different ids |
| Strings.Trim | src/component.ts:446-447 | `trim` removes whitespace from both ends only |
| Strings.RemoveAll | src/component.ts:446 | the global regex replace removes every listed character and keeps the order of the rest |
| Strings.Split | src/cookies.ts:5-8 | `split` on one character: the first piece runs up to the first separator, and no piece contains it |
| Strings.SplitJoin | src/router.ts:75-78 | splitting a join on a separator that occurs in no part gives back the parts |

## Left out

- HTML parsing (`innerHTML`, the template element) is the `parse` parameter of `Page`; the only thing assumed of it is that the empty string parses to nothing.
- `document.head` is a sequence of style elements; real DOM insertion, `classList`, `addEventListener` and listener dispatch are not modelled beyond the lists they update.
- `toLowerCase` is ASCII-only; no Unicode case mapping.
- `key in this` looks at a per-class member table: `Component`'s own methods and fields, the subclass's methods, and its fields once initialised. Members found through `Object.prototype` (such as `toString`) are not in it.
- Components.Lookup: a field of `Component` (`ref`, `_root`, ...) and the `root` getter resolve to an opaque value (`OtherField`), so `{{ref}}` passes that value, not the field's current contents.
- Components.Component.BindEvents: it stops at a nested component's root. The source walks on into the child's tree (src/component.ts:354-356), so `on...` attributes the child left unbound are bound to the parent, or make the parent throw when they name a non-function. Not modelled because each tree here has one owner: a nested component's elements are fields of that component's object, so the crossing would need the walk to update every nested component of the page, a frame the pure walk over the parent's tree does not have.
- Components.Component.SetChild: when the child was a placeholder replaced by a component, refs and handlers are set on the detached placeholder, as in the source. Their effect on that detached element is dropped.
- Components.Component.Create: the fuel bound stands for the call-stack depth. A template that contains its own tag ends with an error once the fuel runs out, where the source throws a stack overflow. With a `content` ref, the resulting refs and root and the content step's clash are stated by `Furnish` and `FillContent` and not lifted here; after a handler error the partly bound root is not stated, and neither is the message of a handler error deeper than the root (`BindEvents` states those).
- Components.Component.SetHtml: the contract states the element's shape, each element child's placement and wiring, that no component leaves the tables, and the refs that survive. It does not give the whole new ref table, nor which child failed and with what message; `SetChild` states both for each child.
- Components.Component.SetChildren: on failure it does not say which child failed or with what message, and it does not give the whole new ref table; `SetChild` states both for each child.
- Components.Component.Build: with a `content` ref, the final root and ref table and the content step's clash are stated by `Furnish` and not lifted here; nor is the root after a handler error or a failed placement, or the message of a handler error below the root.
- Components.Component.Complete: with a `content` ref, the final root and ref table are stated by `Furnish` and not lifted here; after a handler error the partly bound root is not stated, and neither is the message of a handler error below the root (`BindEvents` states those).
- Components.Component.Instantiate: as for `Complete`, the root and refs after a content fill and after a handler error are not lifted here, and only a handler error of the root itself has its message stated.
- Components.Component.InsertComponent: requires that `parent` is not a nested component's root (`Mount`). The source accepts any parent node (src/component.ts:192-211), but here a nested component's root belongs to that component's own tree, so inserting into it would change a tree this component does not own.
- Components.ParamAttrs: its own contract gives only that every attribute name is a key; which value each key holds and that no other key appears are `ParamAttrsLastWins` and `ParamAttrsAbsent`.
- Element refs are paths from the component root, not element identities; refs held by a parent are not updated when a subtree later moves.
- `Router.processURL`, the `popstate` listener, `URLSearchParams`, `location` and the browser history are not modelled. History is a log of push/replace entries, and `encodeURIComponent` is a parameter.
- RouterModel.Router.CallCallbacks: a callback is a value, and calling it is logged. A callback that changes the router while the loop runs is not modelled.
- `document.cookie` is a jar of name/value pairs rendered as a header string. Its `max-age`, `path` and `secure` handling is not modelled, and neither is expiry. `encodeURIComponent` and `decodeURIComponent` are parameters; decode may fail.
- RouterModel.Router.GetValue: only the query's own keys are found. The source reads `this.query[key]`, so a name such as `toString` gives the member inherited from `Object.prototype`, where the model gives `None`.
- FormHelperModel.SetValues: `checked` and `value` are plain fields. In the browser, checking a radio unchecks the others of its group, and setting a select's `value` to text that matches no option makes it read `""`; the model keeps the assigned state in both cases.
- CookiesModel.Set: `maxAge` is an `int`. The source takes a JavaScript number, which may be fractional, NaN or infinite and prints differently.
- `crypto.getRandomValues` is not modelled: the random bytes are an input.
- RandomStringModel.Generate: `length` is a `nat`. The source takes a JavaScript number: a fractional length such as 3.5 gives 3 characters from 2 bytes, and a negative one throws a RangeError from `new Uint8Array`; neither is modelled.
- UniqueIdsModel.UniqueIds.Release: requires that the id is outstanding, as its doc comment asks ("a previously gotten id"). The source checks nothing, and releasing the same id twice would later let two gets return the same id.
- `querySelectorAll` in `src/form-helper.ts` is the lists of inputs and selects in document order.
- The widget components, `src/ws.ts`, `src/show-hide.ts`, `src/window_hierarchy.ts`, `src/download.ts` and `src/full-size.ts` are not part of this model. They need network, timers, floating point or reflection.

## Findings

Construction runs both behaviours as written (`Substitute`, `FillContent`); the corrected members stand beside them.

| source | as written | input that shows it | evidently intended | confidence | as-written member | corrected member |
|---|---|---|---|---|---|---|
| src/sort.ts:63 | the inner loop compares `array[n]` with `array[m]` | [3, 2, 1] ends as [2, 1, 3] | insertion sort comparing `array[m + 1]`, which sorts | not executed | Sort.SortAsWrittenDoesNotSort | Sort.InsertionSort |
| src/component.ts:295-298 | the loop removes from the live `childNodes` list while iterating it | a placeholder with child nodes [a, b] passes only [a] | every child node moves into `params.children` | not executed | Components.MoveChildNodesLosesSecond | Components.IntendedParams |
| src/component.ts:105-111 | `setRefs` re-runs on the content element, whose `ref="content"` is still in the table | any component whose html has a non-root element with `ref="content"` | refs are set on the new children only | not executed | Components.ContentRefsAsWritten | Components.Component.FillContentIntended |

=== FILE: component.dfy ===
/**
 * `Component` and `Component.RegistryEntry` of `src/component.ts`.
 *
 * The static registry, the document head and the HTML parser are held by
 * one `Page` object; component classes are values (`ComponentClass`) with
 * their static `html`/`css` and the members the `key in obj` test sees.
 * A component's DOM is a `Dom.Node` value tree in which a nested component
 * appears as a `Mount` of that component object.
 */
module Components {
  import opened Wrappers
  import opened Strings
  import opened Dom
  import Forms

  /**
   * A member a component class declares: a prototype method, or an instance
   * field holding a string, a function, or anything else.
   */
  datatype Member = Method | StringField(s: string) | FunctionField | OtherField

  /** A component class: `Component` itself, or a subclass with its own static `html`/`css` (if it declares them). */
  datatype ComponentClass =
    | Base
    | Derived(name: string, html: Option<string>, css: Option<string>, members: map<string, Member>, parent: ComponentClass)

  function ClassName(t: ComponentClass): string {
    if t.Base? then "Component" else t.name
  }

  /** `ComponentType.html`: the nearest declaration up the class chain; `Component` declares ''. */
  function StaticHtml(t: ComponentClass): string {
    match t
    case Base => ""
    case Derived(_, html, _, _, parent) => if html.Some? then html.value else StaticHtml(parent)
  }

  /** `ComponentType.css`, looked up the same way. */
  function StaticCss(t: ComponentClass): string {
    match t
    case Base => ""
    case Derived(_, _, css, _, parent) => if css.Some? then css.value else StaticCss(parent)
  }

  /** The prototype methods `Component` declares, `constructor` included (its value is the class, a function). */
  const BaseMethods: set<string> := {
    "constructor", "__destroy", "__hasElement", "__element", "__hasComponent", "__component",
    "__setHtml", "__insertComponent", "__deleteComponent", "setRefs", "unsetRefs",
    "setComponents", "unsetComponents", "setEventHandlersFromElemAttributes"}

  /**
   * The instance fields `Component` declares. Each has an initializer or is
   * assigned by the constructor before `setComponents` runs, so they are
   * present whenever an attribute is resolved.
   */
  const BaseFields: map<string, Member> := map[
    "ref" := OtherField, "_root" := OtherField, "_components" := OtherField,
    "_elementRefs" := OtherField, "_componentRefs" := OtherField, "_registryEntry" := OtherField]

  /** The prototype methods along the class chain: present on an instance from the start of construction. */
  function Methods(t: ComponentClass): set<string> {
    match t
    case Base => BaseMethods
    case Derived(_, _, _, members, parent) => Methods(parent) + (set m | m in members && members[m].Method?)
  }

  /**
   * The instance fields along the class chain, the most derived initializer
   * winning. JavaScript initializes them only after `super()` returns, so
   * they are absent while the base constructor runs.
   */
  function Fields(t: ComponentClass): map<string, Member> {
    match t
    case Base => map[]
    case Derived(_, _, _, members, parent) => Fields(parent) + map m | m in members && !members[m].Method? :: members[m]
  }

  /**
   * What `name in this` and `this[name]` find: a subclass's own field once
   * initialized, else one of `Component`'s own fields, else a method up the
   * prototype chain, else the `root` getter.
   */
  function Lookup(t: ComponentClass, ready: bool, name: string): (r: Option<Member>)
    ensures r.None? <==> !(ready && name in Fields(t)) && name !in BaseFields && name !in Methods(t) && name != "root"
    ensures !(ready && name in Fields(t)) && name in BaseFields ==> r == Some(OtherField)
  {
    if ready && name in Fields(t) then Some(Fields(t)[name])
    else if name in BaseFields then Some(BaseFields[name])
    else if name in Methods(t) then Some(Method)
    else if name == "root" then Some(OtherField)
    else None
  }

  /** Every class inherits `Component`'s prototype methods. */
  lemma {:induction false} BaseMethodsInherited(t: ComponentClass)
    ensures BaseMethods <= Methods(t)
  {
    match t
    case Base =>
    case Derived(_, _, _, _, parent) => BaseMethodsInherited(parent);
  }

  /** `Component`'s own members are found on every instance, whatever its class and however far it is constructed. */
  lemma BaseMembersFound(t: ComponentClass, ready: bool, name: string)
    requires name in BaseMethods || name in BaseFields || name == "root"
    ensures Lookup(t, ready, name).Some?
    ensures name in BaseMethods && name !in Fields(t) ==> Lookup(t, ready, name) == Some(Method)
  {
    BaseMethodsInherited(t);
  }

  /** `value instanceof Function`. */
  predicate Callable(m: Member) {
    m.Method? || m.FunctionField?
  }

  /** The registry key of a class: its name, lower-cased. */
  function Key(t: ComponentClass): string {
    ToLower(ClassName(t))
  }

  /** The base class is registered under "component". */
  lemma BaseKey()
    ensures Key(Base) == "component"
  {
    ToLowerChars("Component");
  }

  /** The `html` a registry entry keeps: tabs and newlines removed, then trimmed. */
  function CompileHtml(html: string): (r: string)
    ensures forall i :: 0 <= i < |r| ==> r[i] != '\t' && r[i] != '\n'
    ensures r == [] || (!IsWhitespace(r[0]) && !IsWhitespace(r[|r| - 1]))
  {
    var s := RemoveAll(html, {'\t', '\n'});
    TrimKeeps(s, {'\t', '\n'});
    Trim(s)
  }

  /** Trimming keeps characters only from the input. */
  lemma TrimKeeps(s: string, drop: set<char>)
    requires forall i :: 0 <= i < |s| ==> s[i] !in drop
    ensures forall i :: 0 <= i < |Trim(s)| ==> Trim(s)[i] !in drop
  {
    var t := TrimStart(s);
    var r := Trim(s);
    TrimSlice(s);
    forall i | 0 <= i < |r| ensures r[i] !in drop {
      assert r[i] == t[i];
      assert t[i] == s[|s| - |t| + i];
    }
  }

  /** The `css` a registry entry keeps: trimmed. */
  function CompileCss(css: string): (r: string)
    ensures r == [] || (!IsWhitespace(r[0]) && !IsWhitespace(r[|r| - 1]))
    ensures |r| <= |css|
  {
    Trim(css)
  }

  /** A `<style>` element in the document head; `owner` is the registry entry that made it. */
  class StyleElement {
    const id: string
    const css: string
    ghost const owner: RegistryEntry

    constructor (id: string, css: string, ghost owner: RegistryEntry)
      ensures this.id == id && this.css == css && this.owner == owner
    {
      this.id, this.css, this.owner := id, css, owner;
    }
  }

  /**
   * `Component.RegistryEntry`. Its `ancestors` list is itself followed by
   * `inherited`, the entries of the registered classes above it; `register`
   * fills the list in right after making the entry and nothing changes it
   * afterwards, so it is kept as a constant here.
   */
  class RegistryEntry {
    const componentType: ComponentClass
    const html: string
    const css: string
    const inherited: seq<RegistryEntry>
    var styleElem: Option<StyleElement>
    var styleCount: int

    constructor (componentType: ComponentClass, inherited: seq<RegistryEntry>)
      ensures this.componentType == componentType && this.inherited == inherited
      ensures html == CompileHtml(StaticHtml(componentType)) && css == CompileCss(StaticCss(componentType))
      ensures styleElem.None? && styleCount == 0
    {
      this.componentType := componentType;
      this.inherited := inherited;
      html := CompileHtml(StaticHtml(componentType));
      css := CompileCss(StaticCss(componentType));
      styleElem := None;
      styleCount := 0;
    }

    /** `ancestors`: the entry itself, then the registered classes above it, nearest first. */
    function Ancestors(): (r: seq<RegistryEntry>)
      ensures |r| >= 1 && r[0] == this && r[1..] == inherited
    {
      [this] + inherited
    }
  }

  /** The registry entries of the classes above `t`, nearest first, skipping unregistered ones. */
  function RegisteredAncestors(t: ComponentClass, registry: map<string, RegistryEntry>): (r: seq<RegistryEntry>)
    ensures forall a :: a in r ==> a in registry.Values
  {
    if t.Base? then []
    else
      var p := t.parent;
      (if Key(p) in registry then [registry[Key(p)]] else []) + RegisteredAncestors(p, registry)
  }

  /**
   * Every subclass's chain ends at `Component`: once the base class is
   * registered, the ancestor list of any subclass is non-empty and its last
   * entry is the base class's.
   */
  lemma {:induction false} RegisteredAncestorsEndAtBase(t: ComponentClass, registry: map<string, RegistryEntry>)
    requires t.Derived? && "component" in registry
    ensures var r := RegisteredAncestors(t, registry); |r| > 0 && r[|r| - 1] == registry["component"]
    decreases t
  {
    BaseKey();
    if t.parent.Derived? {
      RegisteredAncestorsEndAtBase(t.parent, registry);
    }
  }

  /** The loop of `register` as a function: from `ancestor` up, each registered class is appended to `acc`. */
  function Climb(acc: seq<RegistryEntry>, ancestor: ComponentClass, registry: map<string, RegistryEntry>): seq<RegistryEntry>
    decreases ancestor
  {
    if ancestor.Base? then acc
    else
      var p := ancestor.parent;
      Climb(acc + (if Key(p) in registry then [registry[Key(p)]] else []), p, registry)
  }

  /** Climbing the chain collects exactly the registered ancestors, nearest first. */
  lemma {:induction false} ClimbIsRegisteredAncestors(acc: seq<RegistryEntry>, t: ComponentClass, registry: map<string, RegistryEntry>)
    ensures Climb(acc, t, registry) == acc + RegisteredAncestors(t, registry)
    decreases t
  {
    if !t.Base? {
      var p := t.parent;
      var step := if Key(p) in registry then [registry[Key(p)]] else [];
      ClimbIsRegisteredAncestors(acc + step, p, registry);
      assert acc + step + RegisteredAncestors(p, registry) == acc + (step + RegisteredAncestors(p, registry));
    }
  }

  /** How many of the first `i` entries are `e`. */
  function Uses(s: seq<RegistryEntry>, i: nat, e: RegistryEntry): nat
    requires i <= |s|
  {
    if i == 0 then 0 else Uses(s, i - 1, e) + (if s[i - 1] == e then 1 else 0)
  }

  lemma {:induction false} UsesCount(s: seq<RegistryEntry>, i: nat, e: RegistryEntry)
    requires i <= |s|
    ensures Uses(s, i, e) == multiset(s[..i])[e]
  {
    if i > 0 {
      UsesCount(s, i - 1, e);
      assert s[..i] == s[..i - 1] + [s[i - 1]];
    }
  }

  /** A use count lowered `n` times, stopping at 0. */
  function Released(count: int, n: nat): int {
    if count > n then count - n else 0
  }

  /** `head.insertBefore(x, ref)`: before `ref`, or at the end when `ref` is null. */
  function InsertBefore(head: seq<StyleElement>, x: StyleElement, ref: Option<StyleElement>): (r: seq<StyleElement>)
    requires ref.Some? ==> ref.value in head
    ensures multiset(r) == multiset(head) + multiset{x}
    ensures ref.None? ==> r == head + [x]
    ensures ref.Some? ==> exists k :: 0 <= k < |head| && head[k] == ref.value && r == head[..k] + [x] + head[k..]
  {
    if ref.None? then head + [x]
    else
      var k := IndexOfElem(head, ref.value);
      assert head == head[..k] + head[k..];
      head[..k] + [x] + head[k..]
  }

  function IndexOfElem(head: seq<StyleElement>, x: StyleElement): (k: nat)
    requires x in head
    ensures k < |head| && head[k] == x
    ensures forall i :: 0 <= i < k ==> head[i] != x
  {
    if head[0] == x then 0 else 1 + IndexOfElem(head[1..], x)
  }

  /** `head.removeChild(x)`. */
  function RemoveElem(head: seq<StyleElement>, x: StyleElement): (r: seq<StyleElement>)
    ensures forall i :: 0 <= i < |r| ==> r[i] in head && r[i] != x
    ensures forall i :: 0 <= i < |head| && head[i] != x ==> head[i] in r
  {
    if head == [] then []
    else if head[0] == x then RemoveElem(head[1..], x)
    else [head[0]] + RemoveElem(head[1..], x)
  }

  /** The head without the elements in `gone`, the rest in their order. */
  function Discard(head: seq<StyleElement>, gone: set<StyleElement>): (r: seq<StyleElement>)
    ensures forall i :: 0 <= i < |r| ==> r[i] in head && r[i] !in gone
    ensures forall i :: 0 <= i < |head| && head[i] !in gone ==> head[i] in r
  {
    if head == [] then []
    else (if head[0] in gone then [] else [head[0]]) + Discard(head[1..], gone)
  }

  lemma {:induction false} DiscardNone(head: seq<StyleElement>)
    ensures Discard(head, {}) == head
    decreases |head|
  {
    if head != [] {
      DiscardNone(head[1..]);
      assert [head[0]] + head[1..] == head;
    }
  }

  lemma {:induction false} DiscardAppend(a: seq<StyleElement>, b: seq<StyleElement>, gone: set<StyleElement>)
    ensures Discard(a + b, gone) == Discard(a, gone) + Discard(b, gone)
    decreases |a|
  {
    if a == [] {
      assert a + b == b;
    } else {
      var h := if a[0] in gone then [] else [a[0]];
      calc {
        Discard(a + b, gone);
        { assert (a + b)[0] == a[0] && (a + b)[1..] == a[1..] + b; }
        h + Discard(a[1..] + b, gone);
        { DiscardAppend(a[1..], b, gone); }
        h + (Discard(a[1..], gone) + Discard(b, gone));
        h + Discard(a[1..], gone) + Discard(b, gone);
      }
    }
  }

  /** Removing the elements one at a time is removing them all at once. */
  lemma {:induction false} RemoveElemDiscard(head: seq<StyleElement>, gone: set<StyleElement>, x: StyleElement)
    ensures RemoveElem(Discard(head, gone), x) == Discard(head, gone + {x})
    decreases |head|
  {
    if head != [] {
      RemoveElemDiscard(head[1..], gone, x);
      var w := Discard(head[1..], gone);
      var h := head[0];
      if h in gone {
        assert Discard(head, gone) == w;
        assert Discard(head, gone + {x}) == Discard(head[1..], gone + {x});
      } else {
        assert Discard(head, gone) == [h] + w;
        assert ([h] + w)[1..] == w;
        if h == x {
          assert Discard(head, gone + {x}) == Discard(head[1..], gone + {x});
        } else {
          assert Discard(head, gone + {x}) == [h] + Discard(head[1..], gone + {x});
        }
      }
    }
  }

  /** Discarding an element the head does not hold changes nothing. */
  lemma {:induction false} DiscardAbsent(head: seq<StyleElement>, gone: set<StyleElement>, x: StyleElement)
    requires x !in head
    ensures Discard(head, gone + {x}) == Discard(head, gone)
    decreases |head|
  {
    if head != [] {
      DiscardAbsent(head[1..], gone, x);
    }
  }

  /** An inserted element that is then discarded leaves the head as it was. */
  lemma DiscardInserted(head: seq<StyleElement>, x: StyleElement, ref: Option<StyleElement>, gone: set<StyleElement>)
    requires (ref.Some? ==> ref.value in head) && x in gone
    ensures Discard(InsertBefore(head, x, ref), gone) == Discard(head, gone)
  {
    var k := if ref.None? then |head| else IndexOfElem(head, ref.value);
    assert InsertBefore(head, x, ref) == head[..k] + [x] + head[k..];
    DiscardSplice(head, x, k, gone);
  }

  lemma DiscardSplice(head: seq<StyleElement>, x: StyleElement, k: nat, gone: set<StyleElement>)
    requires k <= |head| && x in gone
    ensures Discard(head[..k] + [x] + head[k..], gone) == Discard(head, gone)
  {
    var l, r := head[..k], head[k..];
    assert Discard([x], gone) == [] by {
      assert [x][1..] == [];
    }
    calc {
      Discard(l + [x] + r, gone);
      { DiscardAppend(l + [x], r, gone); }
      Discard(l + [x], gone) + Discard(r, gone);
      { DiscardAppend(l, [x], gone); }
      Discard(l, gone) + Discard(r, gone);
      { DiscardAppend(l, r, gone); assert l + r == head; }
      Discard(head, gone);
    }
  }

  /** `a` comes before `b` in the head. */
  ghost predicate Before(head: seq<StyleElement>, a: StyleElement, b: StyleElement) {
    exists p, q :: 0 <= p < q < |head| && head[p] == a && head[q] == b
  }

  /** An insertion puts the element right before its reference and keeps the order of the others. */
  lemma InsertBeforeOrder(head: seq<StyleElement>, x: StyleElement, ref: Option<StyleElement>)
    requires ref.Some? ==> ref.value in head
    ensures ref.Some? ==> Before(InsertBefore(head, x, ref), x, ref.value)
    ensures ref.None? ==> forall y :: y in head ==> Before(InsertBefore(head, x, ref), y, x)
    ensures forall a, b :: Before(head, a, b) ==> Before(InsertBefore(head, x, ref), a, b)
  {
    var r := InsertBefore(head, x, ref);
    var k :| 0 <= k <= |head| && r == head[..k] + [x] + head[k..] && (ref.Some? ==> k < |head| && head[k] == ref.value);
    assert forall i :: 0 <= i < |head| ==> r[if i < k then i else i + 1] == head[i];
    if ref.Some? {
      assert r[k] == x && r[k + 1] == ref.value;
    } else {
      forall y | y in head ensures Before(r, y, x) {
        var p :| 0 <= p < |head| && head[p] == y;
        assert r[p] == y && r[|head|] == x;
      }
    }
    forall a, b | Before(head, a, b) ensures Before(r, a, b) {
      var p, q :| 0 <= p < q < |head| && head[p] == a && head[q] == b;
      assert r[if p < k then p else p + 1] == a && r[if q < k then q else q + 1] == b;
    }
  }

  /** The index of the last entry with css before `k`, or -1: whose element `lastStyleElem` holds at step `k`. */
  function LastCss(ancestors: seq<RegistryEntry>, k: nat): (j: int)
    requires k <= |ancestors|
    ensures -1 <= j < k
    ensures j >= 0 ==> ancestors[j].css != ""
    ensures forall i :: j < i < k ==> ancestors[i].css == ""
  {
    if k == 0 then -1 else if ancestors[k - 1].css != "" then k - 1 else LastCss(ancestors, k - 1)
  }

  /**
   * The style loop of the constructor after `i` steps, in terms of the
   * counts `count` and elements `el` the entries hold now and the counts
   * `cnt` and elements `was` they held before it. Each count has risen once
   * per css-bearing occurrence so far; an element held before is kept; the
   * elements made so far (`made`) are new and belong to entries that had
   * none; `last` is the element of the previous entry with css; and each
   * element made at a step `k` was put right before that step's `last`, or
   * at the end of the head when there was none.
   */
  ghost predicate Acquired(ancestors: seq<RegistryEntry>, i: nat, h0: seq<StyleElement>,
                           was: map<RegistryEntry, Option<StyleElement>>, cnt: map<RegistryEntry, int>,
                           made: set<StyleElement>, last: Option<StyleElement>, head: seq<StyleElement>,
                           count: map<RegistryEntry, int>, el: map<RegistryEntry, Option<StyleElement>>)
    requires i <= |ancestors|
  {
    AcquiredCounts(ancestors, i, was, cnt, count, el)
    && AcquiredHead(ancestors, i, h0, was, made, last, head, el)
    && AcquiredOrder(ancestors, i, h0, was, head, el)
  }

  /** The counts and elements part of `Acquired`. */
  ghost predicate AcquiredCounts(ancestors: seq<RegistryEntry>, i: nat,
                                 was: map<RegistryEntry, Option<StyleElement>>, cnt: map<RegistryEntry, int>,
                                 count: map<RegistryEntry, int>, el: map<RegistryEntry, Option<StyleElement>>)
    requires i <= |ancestors|
  {
    (forall e :: e in ancestors ==> e in was && e in cnt && e in count && e in el && (was[e].None? <==> cnt[e] == 0))
    && (forall e :: e in ancestors ==> count[e] == cnt[e] + (if e.css != "" then Uses(ancestors, i, e) else 0))
    && (forall e :: e in ancestors && was[e].Some? ==> el[e] == was[e])
    && (forall k :: 0 <= k < i && ancestors[k].css != "" ==> el[ancestors[k]].Some?)
  }

  /** The head part of `Acquired`. */
  ghost predicate AcquiredHead(ancestors: seq<RegistryEntry>, i: nat, h0: seq<StyleElement>,
                               was: map<RegistryEntry, Option<StyleElement>>, made: set<StyleElement>,
                               last: Option<StyleElement>, head: seq<StyleElement>,
                               el: map<RegistryEntry, Option<StyleElement>>)
    requires i <= |ancestors| && forall e :: e in ancestors ==> e in was && e in el
  {
    Discard(head, made) == h0
    && (forall x :: x in head ==> x in h0 || x in made)
    && (forall x :: x in made ==> x !in h0 && x.owner in ancestors && was[x.owner].None? && el[x.owner] == Some(x))
    && last == (if LastCss(ancestors, i) < 0 then None else el[ancestors[LastCss(ancestors, i)]])
    && (last.Some? ==> last.value in head)
  }

  /** The order part of `Acquired`. */
  ghost predicate AcquiredOrder(ancestors: seq<RegistryEntry>, i: nat, h0: seq<StyleElement>,
                                was: map<RegistryEntry, Option<StyleElement>>, head: seq<StyleElement>,
                                el: map<RegistryEntry, Option<StyleElement>>)
    requires i <= |ancestors| && forall e :: e in ancestors ==> e in was && e in el
  {
    (forall k :: 0 <= k < i && Created(ancestors, k, was) && LastCss(ancestors, k) >= 0 ==>
       el[ancestors[k]].Some? && el[ancestors[LastCss(ancestors, k)]].Some? &&
       Before(head, el[ancestors[k]].value, el[ancestors[LastCss(ancestors, k)]].value))
    && (forall k, y :: 0 <= k < i && Created(ancestors, k, was) && LastCss(ancestors, k) < 0 && y in h0 ==>
          el[ancestors[k]].Some? && Before(head, y, el[ancestors[k]].value))
  }

  /** Step `k` of the style loop makes an element: its entry has css, had none, and is met for the first time. */
  ghost predicate Created(ancestors: seq<RegistryEntry>, k: nat, was: map<RegistryEntry, Option<StyleElement>>)
    requires k < |ancestors| && ancestors[k] in was
  {
    ancestors[k].css != "" && was[ancestors[k]].None? && ancestors[k] !in ancestors[..k]
  }

  /**
   * What one pass of the style loop does, as `AcquireStyle` promises it: the
   * entry at `i` goes from count `c0` and element `e0` to `c1` and `e1`,
   * the head from `h` to `h'`, the others stay.
   */
  ghost predicate StyleStep(ancestors: seq<RegistryEntry>, i: nat, last: Option<StyleElement>,
                            h: seq<StyleElement>, c0: map<RegistryEntry, int>, e0: map<RegistryEntry, Option<StyleElement>>,
                            h': seq<StyleElement>, c1: map<RegistryEntry, int>, e1: map<RegistryEntry, Option<StyleElement>>,
                            next: Option<StyleElement>)
    requires i < |ancestors| && (last.Some? ==> last.value in h)
  {
    var a := ancestors[i];
    (forall e :: e in ancestors ==> e in c0 && e in e0 && e in c1 && e in e1)
    && (forall e :: e in ancestors && e != a ==> c1[e] == c0[e] && e1[e] == e0[e])
    && c1[a] == c0[a] + (if a.css != "" then 1 else 0)
    && (c0[a] == 0 ==> e0[a].None?)
    && (a.css == "" ==> e1[a] == e0[a] && h' == h && next == last)
    && (a.css != "" ==> e1[a].Some? && next == e1[a])
    && (e0[a].Some? ==> e1[a] == e0[a] && h' == h)
    && (e0[a].None? && e1[a].Some? ==> e1[a].value !in h && e1[a].value.owner == a && h' == InsertBefore(h, e1[a].value, last))
    && (next.Some? ==> next.value in h')
  }

  /** The element, if any, that step `i` makes. */
  function MadeAt(ancestors: seq<RegistryEntry>, i: nat, e0: map<RegistryEntry, Option<StyleElement>>,
                  e1: map<RegistryEntry, Option<StyleElement>>, made: set<StyleElement>): (r: set<StyleElement>)
    requires i < |ancestors| && ancestors[i] in e0 && ancestors[i] in e1
    ensures made <= r && |r - made| <= 1
  {
    if e0[ancestors[i]].None? && e1[ancestors[i]].Some? then made + {e1[ancestors[i]].value} else made
  }

  /** One step of the style loop keeps the counts part of `Acquired`. */
  lemma AcquiredCountsStep(ancestors: seq<RegistryEntry>, i: nat,
                           was: map<RegistryEntry, Option<StyleElement>>, cnt: map<RegistryEntry, int>,
                           last: Option<StyleElement>,
                           h: seq<StyleElement>, c0: map<RegistryEntry, int>, e0: map<RegistryEntry, Option<StyleElement>>,
                           h': seq<StyleElement>, c1: map<RegistryEntry, int>, e1: map<RegistryEntry, Option<StyleElement>>,
                           next: Option<StyleElement>)
    requires i < |ancestors| && AcquiredCounts(ancestors, i, was, cnt, c0, e0) && (last.Some? ==> last.value in h)
    requires StyleStep(ancestors, i, last, h, c0, e0, h', c1, e1, next)
    ensures AcquiredCounts(ancestors, i + 1, was, cnt, c1, e1)
  {
    forall e | e in ancestors ensures c1[e] == cnt[e] + (if e.css != "" then Uses(ancestors, i + 1, e) else 0) {
    }
    forall k | 0 <= k < i + 1 && ancestors[k].css != "" ensures e1[ancestors[k]].Some? {
    }
  }

  /** Step `i` makes an element exactly when it is `Created`. */
  lemma MadeIffCreated(ancestors: seq<RegistryEntry>, i: nat,
                       was: map<RegistryEntry, Option<StyleElement>>, cnt: map<RegistryEntry, int>,
                       last: Option<StyleElement>,
                       h: seq<StyleElement>, c0: map<RegistryEntry, int>, e0: map<RegistryEntry, Option<StyleElement>>,
                       h': seq<StyleElement>, c1: map<RegistryEntry, int>, e1: map<RegistryEntry, Option<StyleElement>>,
                       next: Option<StyleElement>)
    requires i < |ancestors| && AcquiredCounts(ancestors, i, was, cnt, c0, e0) && (last.Some? ==> last.value in h)
    requires StyleStep(ancestors, i, last, h, c0, e0, h', c1, e1, next)
    ensures Created(ancestors, i, was) <==> e0[ancestors[i]].None? && e1[ancestors[i]].Some?
  {
    var a := ancestors[i];
    if Created(ancestors, i, was) {
      UsesCount(ancestors, i, a);
      assert Uses(ancestors, i, a) == 0;
    }
  }

  /** One step of the style loop keeps the head part of `Acquired`. */
  lemma AcquiredHeadStep(ancestors: seq<RegistryEntry>, i: nat, h0: seq<StyleElement>,
                         was: map<RegistryEntry, Option<StyleElement>>, cnt: map<RegistryEntry, int>,
                         made: set<StyleElement>, last: Option<StyleElement>,
                         h: seq<StyleElement>, c0: map<RegistryEntry, int>, e0: map<RegistryEntry, Option<StyleElement>>,
                         h': seq<StyleElement>, c1: map<RegistryEntry, int>, e1: map<RegistryEntry, Option<StyleElement>>,
                         next: Option<StyleElement>)
    requires i < |ancestors| && AcquiredCounts(ancestors, i, was, cnt, c0, e0)
    requires AcquiredHead(ancestors, i, h0, was, made, last, h, e0)
    requires StyleStep(ancestors, i, last, h, c0, e0, h', c1, e1, next)
    ensures AcquiredHead(ancestors, i + 1, h0, was, MadeAt(ancestors, i, e0, e1, made), next, h', e1)
  {
    var a := ancestors[i];
    var made' := MadeAt(ancestors, i, e0, e1, made);
    assert Discard(h', made') == h0 && (forall x :: x in h' ==> x in h0 || x in made') by {
      if e0[a].None? && e1[a].Some? {
        var s := e1[a].value;
        assert s !in made;
        DiscardInserted(h, s, last, made');
        DiscardAbsent(h, made, s);
        assert multiset(h') == multiset(h) + multiset{s};
      }
    }
    assert forall x :: x in made' ==> x !in h0 && x.owner in ancestors && was[x.owner].None? && e1[x.owner] == Some(x) by {
      forall x | x in made' ensures x !in h0 && x.owner in ancestors && was[x.owner].None? && e1[x.owner] == Some(x) {
        if x in made {
          assert e0[x.owner] == Some(x);
        }
      }
    }
    assert next == (if LastCss(ancestors, i + 1) < 0 then None else e1[ancestors[LastCss(ancestors, i + 1)]]) by {
      if a.css == "" {
        assert LastCss(ancestors, i + 1) == LastCss(ancestors, i);
      }
    }
    assert next.Some? ==> next.value in h';
  }

  /** One step of the style loop keeps the order part of `Acquired`. */
  lemma AcquiredOrderStep(ancestors: seq<RegistryEntry>, i: nat, h0: seq<StyleElement>,
                          was: map<RegistryEntry, Option<StyleElement>>, cnt: map<RegistryEntry, int>,
                          made: set<StyleElement>, last: Option<StyleElement>,
                          h: seq<StyleElement>, c0: map<RegistryEntry, int>, e0: map<RegistryEntry, Option<StyleElement>>,
                          h': seq<StyleElement>, c1: map<RegistryEntry, int>, e1: map<RegistryEntry, Option<StyleElement>>,
                          next: Option<StyleElement>)
    requires i < |ancestors| && AcquiredCounts(ancestors, i, was, cnt, c0, e0)
    requires AcquiredHead(ancestors, i, h0, was, made, last, h, e0) && AcquiredOrder(ancestors, i, h0, was, h, e0)
    requires StyleStep(ancestors, i, last, h, c0, e0, h', c1, e1, next)
    ensures AcquiredOrder(ancestors, i + 1, h0, was, h', e1)
  {
    forall k | 0 <= k < i + 1 && Created(ancestors, k, was) && LastCss(ancestors, k) >= 0
      ensures e1[ancestors[k]].Some? && e1[ancestors[LastCss(ancestors, k)]].Some?
      ensures Before(h', e1[ancestors[k]].value, e1[ancestors[LastCss(ancestors, k)]].value)
    {
      OrderPairStep(ancestors, i, h0, was, cnt, made, last, h, c0, e0, h', c1, e1, next, k);
    }
    forall k, y | 0 <= k < i + 1 && Created(ancestors, k, was) && LastCss(ancestors, k) < 0 && y in h0
      ensures e1[ancestors[k]].Some? && Before(h', y, e1[ancestors[k]].value)
    {
      OrderFirstStep(ancestors, i, h0, was, cnt, made, last, h, c0, e0, h', c1, e1, next, k, y);
    }
  }

  /** An order `p` before `q` in the head survives a pass of the style loop. */
  lemma BeforeKept(ancestors: seq<RegistryEntry>, i: nat, last: Option<StyleElement>,
                   h: seq<StyleElement>, c0: map<RegistryEntry, int>, e0: map<RegistryEntry, Option<StyleElement>>,
                   h': seq<StyleElement>, c1: map<RegistryEntry, int>, e1: map<RegistryEntry, Option<StyleElement>>,
                   next: Option<StyleElement>, p: StyleElement, q: StyleElement)
    requires i < |ancestors| && (last.Some? ==> last.value in h)
    requires StyleStep(ancestors, i, last, h, c0, e0, h', c1, e1, next) && Before(h, p, q)
    ensures Before(h', p, q)
  {
    var a := ancestors[i];
    if e0[a].None? && e1[a].Some? {
      InsertBeforeOrder(h, e1[a].value, last);
    }
  }

  /** `AcquiredOrderStep` for a step `k` whose element goes before that of an earlier entry. */
  lemma OrderPairStep(ancestors: seq<RegistryEntry>, i: nat, h0: seq<StyleElement>,
                            was: map<RegistryEntry, Option<StyleElement>>, cnt: map<RegistryEntry, int>,
                            made: set<StyleElement>, last: Option<StyleElement>,
                            h: seq<StyleElement>, c0: map<RegistryEntry, int>, e0: map<RegistryEntry, Option<StyleElement>>,
                            h': seq<StyleElement>, c1: map<RegistryEntry, int>, e1: map<RegistryEntry, Option<StyleElement>>,
                            next: Option<StyleElement>, k: nat)
    requires i < |ancestors| && AcquiredCounts(ancestors, i, was, cnt, c0, e0)
    requires AcquiredHead(ancestors, i, h0, was, made, last, h, e0) && AcquiredOrder(ancestors, i, h0, was, h, e0)
    requires StyleStep(ancestors, i, last, h, c0, e0, h', c1, e1, next)
    requires 0 <= k < i + 1 && Created(ancestors, k, was) && LastCss(ancestors, k) >= 0
    ensures e1[ancestors[k]].Some? && e1[ancestors[LastCss(ancestors, k)]].Some?
    ensures Before(h', e1[ancestors[k]].value, e1[ancestors[LastCss(ancestors, k)]].value)
  {
    var a := ancestors[i];
    MadeIffCreated(ancestors, i, was, cnt, last, h, c0, e0, h', c1, e1, next);
    var j := LastCss(ancestors, k);
    if k < i {
      assert e0[ancestors[k]] == e1[ancestors[k]] && e0[ancestors[j]] == e1[ancestors[j]];
      BeforeKept(ancestors, i, last, h, c0, e0, h', c1, e1, next, e0[ancestors[k]].value, e0[ancestors[j]].value);
    } else {
      assert last == e1[ancestors[j]];
      InsertBeforeOrder(h, e1[a].value, last);
    }
  }

  /** `AcquiredOrderStep` for a step `k` whose element goes at the end of the head. */
  lemma OrderFirstStep(ancestors: seq<RegistryEntry>, i: nat, h0: seq<StyleElement>,
                            was: map<RegistryEntry, Option<StyleElement>>, cnt: map<RegistryEntry, int>,
                            made: set<StyleElement>, last: Option<StyleElement>,
                            h: seq<StyleElement>, c0: map<RegistryEntry, int>, e0: map<RegistryEntry, Option<StyleElement>>,
                            h': seq<StyleElement>, c1: map<RegistryEntry, int>, e1: map<RegistryEntry, Option<StyleElement>>,
                            next: Option<StyleElement>, k: nat, y: StyleElement)
    requires i < |ancestors| && AcquiredCounts(ancestors, i, was, cnt, c0, e0)
    requires AcquiredHead(ancestors, i, h0, was, made, last, h, e0) && AcquiredOrder(ancestors, i, h0, was, h, e0)
    requires StyleStep(ancestors, i, last, h, c0, e0, h', c1, e1, next)
    requires 0 <= k < i + 1 && Created(ancestors, k, was) && LastCss(ancestors, k) < 0 && y in h0
    ensures e1[ancestors[k]].Some? && Before(h', y, e1[ancestors[k]].value)
  {
    var a := ancestors[i];
    MadeIffCreated(ancestors, i, was, cnt, last, h, c0, e0, h', c1, e1, next);
    if k < i {
      assert e0[ancestors[k]] == e1[ancestors[k]];
      BeforeKept(ancestors, i, last, h, c0, e0, h', c1, e1, next, y, e0[ancestors[k]].value);
    } else {
      assert y in h;
      InsertBeforeOrder(h, e1[a].value, last);
    }
  }

  /** One step of the style loop, as `AcquireStyle` takes it, keeps `Acquired`. */
  lemma AcquiredStep(ancestors: seq<RegistryEntry>, i: nat, h0: seq<StyleElement>,
                     was: map<RegistryEntry, Option<StyleElement>>, cnt: map<RegistryEntry, int>,
                     made: set<StyleElement>, last: Option<StyleElement>,
                     h: seq<StyleElement>, c0: map<RegistryEntry, int>, e0: map<RegistryEntry, Option<StyleElement>>,
                     h': seq<StyleElement>, c1: map<RegistryEntry, int>, e1: map<RegistryEntry, Option<StyleElement>>,
                     next: Option<StyleElement>)
    requires i < |ancestors| && Acquired(ancestors, i, h0, was, cnt, made, last, h, c0, e0)
    requires StyleStep(ancestors, i, last, h, c0, e0, h', c1, e1, next)
    ensures Acquired(ancestors, i + 1, h0, was, cnt, MadeAt(ancestors, i, e0, e1, made), next, h', c1, e1)
  {
    AcquiredCountsStep(ancestors, i, was, cnt, last, h, c0, e0, h', c1, e1, next);
    AcquiredHeadStep(ancestors, i, h0, was, cnt, made, last, h, c0, e0, h', c1, e1, next);
    AcquiredOrderStep(ancestors, i, h0, was, cnt, made, last, h, c0, e0, h', c1, e1, next);
  }

  /**
   * The child lists of the components of a page. Components are made one at
   * a time and numbered in that order; a listed child is a component of the
   * page made after its parent, so following children always reaches higher
   * numbers.
   */
  ghost predicate Tree(kids: map<Component, seq<Component>>, counter: nat) {
    forall c :: c in kids ==> c.serial < counter && forall d :: d in kids[c] ==> d in kids && c.serial < d.serial
  }

  /** The order in which `__destroy` on `c` reaches components: each child's subtree in turn, then `c`. */
  ghost function DestroyOrder(kids: map<Component, seq<Component>>, counter: nat, c: Component): seq<Component>
    requires Tree(kids, counter) && c in kids
    decreases counter - c.serial, 1
  {
    DestroyOrderAll(kids, counter, kids[c], c.serial) + [c]
  }

  /** The subtrees of `cs`, in turn, as `__destroy` reaches them. */
  ghost function DestroyOrderAll(kids: map<Component, seq<Component>>, counter: nat, cs: seq<Component>, level: nat): seq<Component>
    requires Tree(kids, counter) && level < counter && forall d :: d in cs ==> d in kids && level < d.serial
    decreases counter - level, 0, |cs|
  {
    if cs == [] then []
    else DestroyOrderAll(kids, counter, cs[..|cs| - 1], level) + DestroyOrder(kids, counter, cs[|cs| - 1])
  }

  lemma AppendAssoc<T>(a: seq<T>, b: seq<T>, c: seq<T>)
    ensures a + (b + c) == (a + b) + c
  {
  }

  /** One more child destroyed extends the order by its subtree. */
  lemma DestroyOrderAllSnoc(kids: map<Component, seq<Component>>, counter: nat, cs: seq<Component>, level: nat, i: nat)
    requires Tree(kids, counter) && level < counter && i < |cs|
    requires forall d :: d in cs ==> d in kids && level < d.serial
    ensures DestroyOrderAll(kids, counter, cs[..i + 1], level)
            == DestroyOrderAll(kids, counter, cs[..i], level) + DestroyOrder(kids, counter, cs[i])
  {
    assert cs[..i + 1][..i] == cs[..i];
  }

  /** The ancestors of the entries of `cs`, with repeats: each is a release of that entry's style when they are destroyed. */
  function Releases(cs: seq<Component>): multiset<RegistryEntry> {
    if cs == [] then multiset{} else Releases(cs[..|cs| - 1]) + multiset(cs[|cs| - 1].entry.Ancestors())
  }

  lemma {:induction false} ReleasesAppend(a: seq<Component>, b: seq<Component>)
    ensures Releases(a + b) == Releases(a) + Releases(b)
    decreases |b|
  {
    if b == [] {
      assert a + b == a;
    } else {
      var n := |b| - 1;
      assert (a + b)[..|a + b| - 1] == a + b[..n];
      ReleasesAppend(a, b[..n]);
    }
  }

  /** Lowering a count `a` times and then `b` times, never below 0, is lowering it `a + b` times. */
  lemma ReleasedTwice(count: int, a: nat, b: nat)
    ensures Released(Released(count, a), b) == Released(count, a + b)
  {
  }

  /** Discarding two sets in turn is discarding their union. */
  lemma {:induction false} DiscardTwice(head: seq<StyleElement>, g1: set<StyleElement>, g2: set<StyleElement>)
    ensures Discard(Discard(head, g1), g2) == Discard(head, g1 + g2)
    decreases |head|
  {
    if head != [] {
      var h := if head[0] in g1 then [] else [head[0]];
      calc {
        Discard(Discard(head, g1), g2);
        Discard(h + Discard(head[1..], g1), g2);
        { DiscardAppend(h, Discard(head[1..], g1), g2); }
        Discard(h, g2) + Discard(Discard(head[1..], g1), g2);
        { DiscardTwice(head[1..], g1, g2); }
        Discard(h, g2) + Discard(head[1..], g1 + g2);
        { assert h == [] || h[1..] == []; }
        Discard(head, g1 + g2);
      }
    }
  }

  /** The use counts of the entries `es`, as a snapshot. */
  ghost function CountsOf(es: set<RegistryEntry>): (m: map<RegistryEntry, int>)
    reads es
    ensures m.Keys == es && forall e :: e in es ==> m[e] == e.styleCount
  {
    map e | e in es :: e.styleCount
  }

  /** The style elements of the entries `es`, as a snapshot. */
  ghost function ElemsOf(es: set<RegistryEntry>): (m: map<RegistryEntry, Option<StyleElement>>)
    reads es
    ensures m.Keys == es && forall e :: e in es ==> m[e] == e.styleElem
  {
    map e | e in es :: e.styleElem
  }

  /** Entries whose fields did not change have the same snapshots. */
  twostate lemma SnapshotsKept(es: set<RegistryEntry>)
    requires forall e :: e in es ==> unchanged(e)
    ensures CountsOf(es) == old(CountsOf(es)) && ElemsOf(es) == old(ElemsOf(es))
  {
  }

  /**
   * A snapshot of every entry's use count `c` and style element `el` as
   * `StyleOk` keeps them: counts are never negative, an element is held
   * exactly while the count is positive, and it is the entry's own.
   */
  ghost predicate Held(c: map<RegistryEntry, int>, el: map<RegistryEntry, Option<StyleElement>>) {
    c.Keys == el.Keys
    && forall e :: e in c ==> c[e] >= 0 && (el[e].Some? <==> c[e] > 0) && (el[e].Some? ==> el[e].value.owner == e)
  }

  /**
   * From the head `h0`, counts `c0` and elements `e0` to `h1`, `c1`, `e1`,
   * the entries in `uses` have had their styles released: each count dropped
   * once per occurrence of its entry in `uses`, never below 0; an
   * entry still counted keeps its element; `gone` is exactly the elements of
   * the entries whose count reached 0, and the head lost those and kept the
   * others in their order.
   */
  ghost predicate Shed(uses: multiset<RegistryEntry>, h0: seq<StyleElement>, c0: map<RegistryEntry, int>, e0: map<RegistryEntry, Option<StyleElement>>,
                       h1: seq<StyleElement>, c1: map<RegistryEntry, int>, e1: map<RegistryEntry, Option<StyleElement>>,
                       gone: set<StyleElement>) {
    e0.Keys == c0.Keys && c1.Keys == c0.Keys && e1.Keys == c0.Keys
    && h1 == Discard(h0, gone)
    && (forall e :: e in c0 ==> c1[e] == Released(c0[e], uses[e]))
    && (forall e :: e in c0 && c1[e] > 0 ==> e1[e] == e0[e])
    && (forall x :: x in gone ==> x.owner in c0 && e0[x.owner] == Some(x) && c1[x.owner] == 0)
    && (forall e :: e in c0 && e0[e].Some? ==> (e0[e].value in gone <==> c1[e] == 0))
  }

  /** Releasing nothing changes nothing. */
  lemma ShedNone(h: seq<StyleElement>, c: map<RegistryEntry, int>, el: map<RegistryEntry, Option<StyleElement>>)
    requires Held(c, el)
    ensures Shed(multiset{}, h, c, el, h, c, el, {})
  {
    DiscardNone(h);
  }

  /** Releasing the styles of `ancestors`, seen on every entry: the others are untouched. */
  lemma ShedOf(ancestors: seq<RegistryEntry>,
               h0: seq<StyleElement>, c0: map<RegistryEntry, int>, e0: map<RegistryEntry, Option<StyleElement>>,
               h1: seq<StyleElement>, c1: map<RegistryEntry, int>, e1: map<RegistryEntry, Option<StyleElement>>,
               gone: set<StyleElement>)
    requires Held(c0, e0) && c1.Keys == c0.Keys && e1.Keys == c0.Keys
    requires forall e :: e in ancestors ==> e in c0
    requires forall e :: e in c0 && e !in ancestors ==> c1[e] == c0[e] && e1[e] == e0[e]
    requires forall e :: e in ancestors ==> c1[e] == Released(c0[e], multiset(ancestors)[e])
    requires forall e :: e in ancestors && c1[e] > 0 ==> e1[e] == e0[e]
    requires h1 == Discard(h0, gone)
    requires forall x :: x in gone ==> x.owner in ancestors && e0[x.owner] == Some(x) && c1[x.owner] == 0
    requires forall e :: e in ancestors && e0[e].Some? ==> (e0[e].value in gone <==> c1[e] == 0)
    ensures Shed(multiset(ancestors), h0, c0, e0, h1, c1, e1, gone)
  {
    forall e | e in c0 && e !in ancestors ensures c1[e] == Released(c0[e], multiset(ancestors)[e]) {
      assert multiset(ancestors)[e] == 0;
    }
  }

  /** Two rounds of releases in turn are one round of both. */
  lemma ShedTrans(a: multiset<RegistryEntry>, b: multiset<RegistryEntry>,
                  h0: seq<StyleElement>, c0: map<RegistryEntry, int>, e0: map<RegistryEntry, Option<StyleElement>>,
                  h1: seq<StyleElement>, c1: map<RegistryEntry, int>, e1: map<RegistryEntry, Option<StyleElement>>,
                  h2: seq<StyleElement>, c2: map<RegistryEntry, int>, e2: map<RegistryEntry, Option<StyleElement>>,
                  g1: set<StyleElement>, g2: set<StyleElement>)
    requires Held(c0, e0) && Held(c1, e1)
    requires Shed(a, h0, c0, e0, h1, c1, e1, g1) && Shed(b, h1, c1, e1, h2, c2, e2, g2)
    ensures Shed(a + b, h0, c0, e0, h2, c2, e2, g1 + g2)
  {
    DiscardTwice(h0, g1, g2);
    forall e | e in c0 ensures c2[e] == Released(c0[e], (a + b)[e]) {
      ReleasedTwice(c0[e], a[e], b[e]);
    }
    forall x | x in g2 ensures e0[x.owner] == Some(x) {
      assert c1[x.owner] > 0;
    }
  }

  /**
   * The page: the static registry, the document head, and the HTML parser
   * (`innerHTML`). `all` and `counter` are bookkeeping: every component made
   * so far and the serial number the next one gets.
   */
  class Page {
    var registry: map<string, RegistryEntry>
    var head: seq<StyleElement>
    const parse: string -> seq<Html>
    ghost var all: set<Component>
    ghost var counter: nat
    ghost var destroyed: seq<Component>
    /** Every entry ever registered: the values of `registry`, kept as a set to frame by. */
    ghost var entries: set<RegistryEntry>
    ghost var kids: map<Component, seq<Component>>

    /** A style element is held exactly while its count is positive, and then it is in the head. */
    ghost predicate StyleOk(e: RegistryEntry)
      reads this`head, e
    {
      e.styleCount >= 0
      && (e.styleElem.Some? <==> e.styleCount > 0)
      && (e.styleElem.Some? ==> e.styleElem.value in head && e.styleElem.value.owner == e)
    }

    /** What holds of the registry at all times, `Component`'s own entry aside. */
    ghost predicate EntriesValid()
      reads this`registry, this`entries, this`head, entries
    {
      (forall k :: k in registry ==> registry[k] in entries && Key(registry[k].componentType) == k)
      && (forall e :: e in entries ==> (forall a :: a in e.inherited ==> a in entries) && StyleOk(e))
    }

    /** `kids` holds the child lists of exactly the components of the page. */
    ghost predicate Forest()
      reads this`all, this`counter, this`kids
    {
      Tree(kids, counter) && (forall c :: c in all ==> c in kids) && (forall c :: c in kids ==> c in all)
    }

    /** `kids` is what each component of the page lists. */
    ghost predicate Listed()
      reads this`all, this`kids, all`components
    {
      forall c :: c in all ==> c.page == this && c in kids && kids[c] == c.components
    }

    /** Every component's class is a registered one. */
    ghost predicate Entered()
      reads this`all, this`entries
    {
      forall c :: c in all ==> c.entry in entries
    }

    /** What holds between operations: the registry, and each component's own invariant. */
    ghost predicate Valid()
      reads this`registry, this`entries, this`head, this`all, this`counter, this`kids, entries, all`components
    {
      EntriesValid() && parse("") == [] && Forest() && Listed() && Entered()
    }

    /**
     * What an operation that only adds components leaves true: nothing is
     * forgotten or destroyed, the registry is the same, and no use count
     * went down.
     */
    twostate predicate Grew()
      reads this`all, this`counter, this`registry, this`entries, this`destroyed, entries
    {
      old(all) <= all && old(counter) <= counter && registry == old(registry) && entries == old(entries)
      && destroyed == old(destroyed)
      && forall e :: e in entries ==> old(e.styleCount) <= e.styleCount
    }

    /** Numbers a new component and adds it to the page. */
    ghost method Admit(c: Component)
      requires Valid() && c !in all && c.page == this && c.serial == counter
      requires c.components == [] && c.entry in entries
      modifies this`all, this`counter, this`kids
      ensures Valid() && Grew() && all == old(all) + {c} && counter == old(counter) + 1 && kids == old(kids)[c := []]
    {
      all := all + {c};
      kids := kids[c := []];
      counter := counter + 1;
    }

    constructor (parse: string -> seq<Html>)
      requires parse("") == []
      ensures Valid() && registry.Keys == {"component"}
      ensures registry["component"].componentType == Base && registry["component"].inherited == []
      ensures head == [] && all == {} && destroyed == [] && this.parse == parse
    {
      registry := map[];
      head := [];
      this.parse := parse;
      all := {};
      counter := 0;
      destroyed := [];
      entries := {};
      kids := map[];
      new;
      var r := Register(Base);
      BaseKey();
    }

    /**
     * `Component.register`: throws when the lower-cased name is taken;
     * otherwise adds one entry whose ancestors are itself, then the
     * registered classes up the chain, nearest first.
     */
    method Register(t: ComponentClass) returns (r: Result<RegistryEntry>)
      requires EntriesValid()
      modifies this
      ensures EntriesValid()
      ensures head == old(head) && all == old(all) && counter == old(counter) && destroyed == old(destroyed) && kids == old(kids)
      ensures Key(t) in old(registry) ==> r == Err("A component named \"" + ClassName(t) + "\" is already registered.") && registry == old(registry)
      ensures Key(t) !in old(registry) ==>
                r.Ok? && fresh(r.value) && registry == old(registry)[Key(t) := r.value]
                && r.value.componentType == t
                && r.value.html == CompileHtml(StaticHtml(t)) && r.value.css == CompileCss(StaticCss(t))
                && r.value.inherited == RegisteredAncestors(t, old(registry))
                && r.value.styleElem.None? && r.value.styleCount == 0
      ensures Key(t) !in old(registry) ==> entries == old(entries) + {r.value}
      ensures Key(t) in old(registry) ==> entries == old(entries)
    {
      if Key(t) in registry {
        return Err("A component named \"" + ClassName(t) + "\" is already registered.");
      }
      var inherited := InheritedEntries(t);
      var entry := new RegistryEntry(t, inherited);
      AddEntry(entry);
      r := Ok(entry);
    }

    /** The loop of `register`: the entries of the registered classes above `t`, nearest first. */
    method InheritedEntries(t: ComponentClass) returns (inherited: seq<RegistryEntry>)
      ensures inherited == RegisteredAncestors(t, registry)
    {
      inherited := [];
      var ancestor := t;
      while !ancestor.Base?
        invariant Climb(inherited, ancestor, registry) == Climb([], t, registry)
        decreases ancestor
      {
        ghost var acc := inherited;
        ancestor := ancestor.parent;
        var key := Key(ancestor);
        if key in registry {
          inherited := inherited + [registry[key]];
        } else {
          assert acc + [] == inherited;
        }
      }
      ClimbIsRegisteredAncestors([], t, registry);
      assert [] + RegisteredAncestors(t, registry) == RegisteredAncestors(t, registry);
    }

    /** `_registry.set`: a new entry joins the registry under its key. */
    method AddEntry(entry: RegistryEntry)
      requires EntriesValid() && entry !in entries && Key(entry.componentType) !in registry
      requires forall a :: a in entry.inherited ==> a in registry.Values
      requires entry.styleElem.None? && entry.styleCount == 0
      modifies this
      ensures EntriesValid()
      ensures registry == old(registry)[Key(entry.componentType) := entry] && entries == old(entries) + {entry}
      ensures head == old(head) && all == old(all) && counter == old(counter) && destroyed == old(destroyed) && kids == old(kids)
    {
      forall a | a in entry.inherited ensures a in entries {
        var k :| k in registry && registry[k] == a;
      }
      registry := registry[Key(entry.componentType) := entry];
      entries := entries + {entry};
    }

    /**
     * One step of the style loop of the constructor: an entry with css has
     * its count raised, its style element made first if the count was 0
     * (put before `last`, the element of the entry handled before it);
     * `next` is what `lastStyleElem` becomes.
     */
    method AcquireStyle(a: RegistryEntry, last: Option<StyleElement>) returns (next: Option<StyleElement>)
      requires EntriesValid() && a in entries && (last.Some? ==> last.value in head)
      modifies `head, a`styleElem, a`styleCount
      ensures EntriesValid()
      ensures a.styleCount == old(a.styleCount) + (if a.css != "" then 1 else 0)
      ensures next.Some? ==> next.value in head
      ensures a.css == "" ==> a.styleElem == old(a.styleElem) && head == old(head) && next == last
      ensures a.css != "" ==> a.styleElem.Some? && next == a.styleElem
      ensures old(a.styleElem).Some? ==> a.styleElem == old(a.styleElem) && head == old(head)
      ensures old(a.styleElem).None? && a.styleElem.Some? ==>
                fresh(a.styleElem.value) && a.styleElem.value.id == ClassName(a.componentType) && a.styleElem.value.css == a.css
                && a.styleElem.value.owner == a
                && a.styleElem.value !in old(head) && head == InsertBefore(old(head), a.styleElem.value, last)
    {
      next := last;
      if a.css != "" {
        if a.styleCount == 0 {
          var s := new StyleElement(ClassName(a.componentType), a.css, a);
          a.styleElem := Some(s);
          head := InsertBefore(head, s, last);
          assert forall x :: x in old(head) ==> x in head by {
            assert multiset(head) == multiset(old(head)) + multiset{s};
          }
        }
        a.styleCount := a.styleCount + 1;
        next := a.styleElem;
        forall e | e in entries ensures StyleOk(e) {
          if e != a {
            assert old(StyleOk(e));
          }
        }
      }
    }

    /** The use counts of the entries, as a snapshot. */
    ghost function Counts(ancestors: seq<RegistryEntry>): (m: map<RegistryEntry, int>)
      reads ancestors
      ensures forall e :: e in ancestors ==> e in m && m[e] == e.styleCount
    {
      map e | e in ancestors :: e.styleCount
    }

    /** The style elements of the entries, as a snapshot. */
    ghost function Elems(ancestors: seq<RegistryEntry>): (m: map<RegistryEntry, Option<StyleElement>>)
      reads ancestors
      ensures forall e :: e in ancestors ==> e in m && m[e] == e.styleElem
    {
      map e | e in ancestors :: e.styleElem
    }

    /** The snapshots of a valid registry are `Held`. */
    lemma HeldNow()
      requires EntriesValid()
      ensures Held(CountsOf(entries), ElemsOf(entries))
    {
    }

    /** The style loop of the constructor after `i` steps (see `Acquired`). */
    ghost predicate Acquiring(ancestors: seq<RegistryEntry>, i: nat, h0: seq<StyleElement>,
                              was: map<RegistryEntry, Option<StyleElement>>, cnt: map<RegistryEntry, int>,
                              made: set<StyleElement>, last: Option<StyleElement>)
      requires i <= |ancestors|
      reads this`registry, this`entries, this`head, entries, ancestors
    {
      EntriesValid() && (forall e :: e in ancestors ==> e in entries)
      && Acquired(ancestors, i, h0, was, cnt, made, last, head, Counts(ancestors), Elems(ancestors))
    }

    /** One pass of the style loop of the constructor. */
    method AcquireStep(ancestors: seq<RegistryEntry>, i: nat, ghost h0: seq<StyleElement>,
                       ghost was: map<RegistryEntry, Option<StyleElement>>, ghost cnt: map<RegistryEntry, int>,
                       ghost made: set<StyleElement>, last: Option<StyleElement>)
      returns (next: Option<StyleElement>, ghost made': set<StyleElement>)
      requires i < |ancestors| && Acquiring(ancestors, i, h0, was, cnt, made, last)
      modifies `head, ancestors[i]
      ensures Acquiring(ancestors, i + 1, h0, was, cnt, made', next)
      ensures ancestors[i].styleCount >= old(ancestors[i].styleCount)
    {
      var a := ancestors[i];
      ghost var h, c0, e0 := head, Counts(ancestors), Elems(ancestors);
      assert StyleOk(a);
      next := AcquireStyle(a, last);
      ghost var c1, e1 := Counts(ancestors), Elems(ancestors);
      made' := MadeAt(ancestors, i, e0, e1, made);
      forall e | e in ancestors && e != a ensures c1[e] == c0[e] && e1[e] == e0[e] {
      }
      assert c1[a] == c0[a] + (if a.css != "" then 1 else 0);
      assert e0[a] == old(a.styleElem) && e1[a] == a.styleElem;
      assert StyleStep(ancestors, i, last, h, c0, e0, head, c1, e1, next);
      AcquiredStep(ancestors, i, h0, was, cnt, made, last, h, c0, e0, head, c1, e1, next);
    }

    /** The loop of `AcquireStyles`, against the counts and elements the entries had before it. */
    method AcquireAll(ancestors: seq<RegistryEntry>, ghost was: map<RegistryEntry, Option<StyleElement>>,
                      ghost cnt: map<RegistryEntry, int>) returns (ghost made: set<StyleElement>)
      requires Acquiring(ancestors, 0, head, was, cnt, {}, None)
      requires forall e :: e in ancestors ==> was[e] == e.styleElem && cnt[e] == e.styleCount
      modifies `head, set a | a in ancestors
      ensures EntriesValid()
      ensures Acquired(ancestors, |ancestors|, old(head), was, cnt, made, if LastCss(ancestors, |ancestors|) < 0 then None
                else ancestors[LastCss(ancestors, |ancestors|)].styleElem, head, Counts(ancestors), Elems(ancestors))
      ensures forall e :: e in entries ==> old(e.styleCount) <= e.styleCount
    {
      made := {};
      var last: Option<StyleElement> := None;
      for i := 0 to |ancestors|
        invariant Acquiring(ancestors, i, old(head), was, cnt, made, last)
        invariant forall e :: e in entries ==> old(e.styleCount) <= e.styleCount
      {
        last, made := AcquireStep(ancestors, i, old(head), was, cnt, made, last);
      }
    }

    /** `AcquireAll`, with the counts and elements it leaves read back from the entries. */
    method AcquireCounts(ancestors: seq<RegistryEntry>, ghost was: map<RegistryEntry, Option<StyleElement>>,
                         ghost cnt: map<RegistryEntry, int>) returns (ghost made: set<StyleElement>)
      requires Acquiring(ancestors, 0, head, was, cnt, {}, None)
      requires forall e :: e in ancestors ==> was[e] == e.styleElem && cnt[e] == e.styleCount
      modifies `head, set a | a in ancestors
      ensures EntriesValid()
      ensures Acquired(ancestors, |ancestors|, old(head), was, cnt, made, if LastCss(ancestors, |ancestors|) < 0 then None
                else ancestors[LastCss(ancestors, |ancestors|)].styleElem, head, Counts(ancestors), Elems(ancestors))
      ensures forall e :: e in entries ==> old(e.styleCount) <= e.styleCount
      ensures forall e :: e in ancestors ==>
                e.styleCount == old(e.styleCount) + (if e.css != "" then Uses(ancestors, |ancestors|, e) else 0)
      ensures forall e :: e in ancestors && old(e.styleElem).Some? ==> e.styleElem == old(e.styleElem)
      ensures forall e :: e in ancestors && e.css != "" ==> e.styleElem.Some? && e.styleElem.value in head
      ensures Discard(head, made) == old(head)
      ensures forall x :: x in head ==> x in old(head) || x in made
      ensures forall x :: x in made ==> x.owner in ancestors && x.owner.styleElem == Some(x) && was[x.owner].None?
    {
      made := AcquireAll(ancestors, was, cnt);
      ghost var count, el := Counts(ancestors), Elems(ancestors);
      forall e | e in ancestors
        ensures e.styleCount == old(e.styleCount) + (if e.css != "" then Uses(ancestors, |ancestors|, e) else 0)
        ensures old(e.styleElem).Some? ==> e.styleElem == old(e.styleElem)
      {
        assert count[e] == e.styleCount && el[e] == e.styleElem;
      }
      forall e | e in ancestors && e.css != "" ensures e.styleElem.Some? && e.styleElem.value in head {
        var k :| 0 <= k < |ancestors| && ancestors[k] == e;
        assert el[ancestors[k]].Some?;
        assert StyleOk(e);
      }
      forall x | x in made ensures x.owner in ancestors && x.owner.styleElem == Some(x) && was[x.owner].None? {
        assert el[x.owner] == Some(x);
      }
    }

    /**
     * The style half of the constructor: each ancestor with css gets its
     * count raised once per occurrence, and a style element if it had none.
     * Made in the order of the ancestors, nearest first, each new element
     * goes right before the element of the previous ancestor with css, so a
     * base class's rules come before those of the classes deriving from it;
     * the first one goes at the end of the head. The old elements stay, in
     * their order.
     */
    method AcquireStyles(ancestors: seq<RegistryEntry>) returns (ghost made: set<StyleElement>)
      requires EntriesValid() && forall a :: a in ancestors ==> a in entries
      modifies `head, set a | a in ancestors
      ensures EntriesValid() && (old(Valid()) ==> Valid())
      ensures forall e :: e in ancestors ==>
                e.styleCount == old(e.styleCount) + (if e.css != "" then multiset(ancestors)[e] else 0)
      ensures forall e :: e in entries ==> old(e.styleCount) <= e.styleCount
      ensures forall e :: e in ancestors && old(e.styleElem).Some? ==> e.styleElem.Some? && e.styleElem.value == old(e.styleElem.value)
      ensures forall e :: e in ancestors && e.css != "" ==> e.styleElem.Some? && e.styleElem.value in head
      ensures Discard(head, made) == old(head)
      ensures forall x :: x in head ==> x in old(head) || x in made
      ensures forall x :: x in made ==> x.owner in ancestors && x.owner.styleElem == Some(x)
      ensures forall e :: e in ancestors && e.styleElem.Some? && e.styleElem.value in made ==> old(e.styleElem).None?
      ensures forall k ::
                0 <= k < |ancestors| && ancestors[k].css != "" && old(ancestors[k].styleElem).None?
                && ancestors[k] !in ancestors[..k] && LastCss(ancestors, k) >= 0
                ==> Before(head, ancestors[k].styleElem.value, ancestors[LastCss(ancestors, k)].styleElem.value)
      ensures forall k, y ::
                0 <= k < |ancestors| && ancestors[k].css != "" && old(ancestors[k].styleElem).None?
                && ancestors[k] !in ancestors[..k] && LastCss(ancestors, k) < 0 && y in old(head)
                ==> Before(head, y, ancestors[k].styleElem.value)
    {
      ghost var was, cnt := Elems(ancestors), Counts(ancestors);
      DiscardNone(head);
      assert forall e :: e in ancestors ==> StyleOk(e);
      made := AcquireCounts(ancestors, was, cnt);
      forall e | e in ancestors ensures Uses(ancestors, |ancestors|, e) == multiset(ancestors)[e] {
        UsesCount(ancestors, |ancestors|, e);
        assert ancestors[..|ancestors|] == ancestors;
      }
    }

    /**
     * One step of the style loop of `__destroy`: an entry holding a style
     * element has its count lowered, and at 0 the element leaves the head.
     */
    method ReleaseStyle(a: RegistryEntry, ghost h0: seq<StyleElement>, ghost was: map<RegistryEntry, Option<StyleElement>>,
                        ghost gone: set<StyleElement>) returns (ghost gone': set<StyleElement>)
      requires EntriesValid() && a in entries
      requires Dropped(h0, was, gone) && a in was && (a.styleElem.Some? ==> was[a] == a.styleElem)
      modifies `head, a`styleElem, a`styleCount
      ensures EntriesValid() && Dropped(h0, was, gone')
      ensures a.styleCount == Released(old(a.styleCount), 1)
      ensures a.styleCount > 0 ==> a.styleElem == old(a.styleElem) && head == old(head)
      ensures old(a.styleElem).None? ==> a.styleElem.None? && head == old(head)
      ensures old(a.styleElem).Some? && a.styleCount == 0 ==>
                a.styleElem.None? && head == RemoveElem(old(head), old(a.styleElem).value)
    {
      gone' := gone;
      if a.styleElem.Some? {
        a.styleCount := a.styleCount - 1;
        if a.styleCount == 0 {
          var s := a.styleElem.value;
          RemoveElemDiscard(h0, gone, s);
          head := RemoveElem(head, s);
          a.styleElem := None;
          gone' := gone + {s};
          forall e | e in entries ensures StyleOk(e) {
            if e != a {
              assert old(StyleOk(e));
              assert e.styleElem.Some? ==> e.styleElem.value != s;
            }
          }
        }
      }
    }

    /**
     * What `__destroy` has done to the head so far: the elements in `gone`
     * have left `h0`, the others keep their order, and `gone` holds exactly
     * the elements (as recorded in `was`) of the entries whose count is 0.
     */
    ghost predicate Dropped(h0: seq<StyleElement>, was: map<RegistryEntry, Option<StyleElement>>, gone: set<StyleElement>)
      reads this`head, was.Keys
    {
      head == Discard(h0, gone)
      && (forall x :: x in gone ==> x.owner in was && was[x.owner] == Some(x) && x.owner.styleCount == 0)
      && (forall e :: e in was && was[e].Some? && e.styleCount == 0 ==> was[e].value in gone)
    }

    /**
     * The style loop of `__destroy` after `i` steps, against the counts
     * `cnt` and elements `was` the entries had before it: each count has
     * dropped once per occurrence so far, an element still held is the one
     * held before, and the head has lost exactly the elements of the entries
     * now at 0.
     */
    ghost predicate Releasing(ancestors: seq<RegistryEntry>, i: nat, h0: seq<StyleElement>,
                              was: map<RegistryEntry, Option<StyleElement>>, cnt: map<RegistryEntry, int>, gone: set<StyleElement>)
      requires i <= |ancestors|
      reads this`registry, this`entries, this`head, entries, was.Keys
    {
      EntriesValid() && Dropped(h0, was, gone)
      && (forall e :: e in ancestors ==> e in entries && e in was && e in cnt)
      && (forall e :: e in ancestors ==> e.styleCount == Released(cnt[e], Uses(ancestors, i, e)))
      && (forall e :: e in ancestors && e.styleElem.Some? ==> was[e] == e.styleElem)
    }

    /** One pass of the style loop of `__destroy`. */
    method ReleaseStep(ancestors: seq<RegistryEntry>, i: nat, ghost h0: seq<StyleElement>,
                       ghost was: map<RegistryEntry, Option<StyleElement>>, ghost cnt: map<RegistryEntry, int>,
                       ghost gone: set<StyleElement>) returns (ghost gone': set<StyleElement>)
      requires i < |ancestors| && Releasing(ancestors, i, h0, was, cnt, gone)
      modifies `head, ancestors[i]
      ensures Releasing(ancestors, i + 1, h0, was, cnt, gone')
      ensures forall e :: e in entries ==> e.styleCount <= old(e.styleCount)
    {
      gone' := ReleaseStyle(ancestors[i], h0, was, gone);
    }

    /**
     * The style half of `__destroy`: each ancestor's count drops once per
     * occurrence, never below 0; the elements that leave the head (`gone`)
     * are exactly those of the entries whose count reaches 0, and the other
     * elements keep their order.
     */
    method ReleaseStyles(ancestors: seq<RegistryEntry>) returns (ghost gone: set<StyleElement>)
      requires EntriesValid() && forall a :: a in ancestors ==> a in entries
      modifies `head, set a | a in ancestors
      ensures EntriesValid() && (old(Valid()) ==> Valid())
      ensures forall e :: e in ancestors ==>
                e.styleCount == Released(old(e.styleCount), multiset(ancestors)[e])
      ensures forall e :: e in entries ==> e.styleCount <= old(e.styleCount)
      ensures forall e :: e in ancestors && e.styleCount > 0 ==>
                e.styleElem.Some? && old(e.styleElem).Some? && e.styleElem.value == old(e.styleElem).value
      ensures head == Discard(old(head), gone)
      ensures forall x :: x in gone ==> x.owner in ancestors && x.owner.styleCount == 0
      ensures forall e :: e in ancestors && old(e.styleElem).Some? ==> (old(e.styleElem).value in gone <==> e.styleCount == 0)
      ensures forall x :: x in gone ==> x in old(head) && x.owner in ancestors && old(x.owner.styleElem) == Some(x)
    {
      ghost var was := map e | e in ancestors :: e.styleElem;
      ghost var cnt := map e | e in ancestors :: e.styleCount;
      DiscardNone(head);
      gone := ReleaseAll(ancestors, was, cnt);
      forall e | e in ancestors ensures Uses(ancestors, |ancestors|, e) == multiset(ancestors)[e] {
        UsesCount(ancestors, |ancestors|, e);
        assert ancestors[..|ancestors|] == ancestors;
      }
    }

    /** `ReleaseStyles`, seen on every entry of the page (see `Shed`). */
    method ReleaseShed(ancestors: seq<RegistryEntry>) returns (ghost gone: set<StyleElement>)
      requires EntriesValid() && forall a :: a in ancestors ==> a in entries
      modifies `head, set a | a in ancestors
      ensures EntriesValid() && (old(Valid()) ==> Valid())
      ensures forall e :: e in entries ==> e.styleCount <= old(e.styleCount)
      ensures forall e :: e in ancestors ==> e.styleCount == Released(old(e.styleCount), multiset(ancestors)[e])
      ensures Shed(multiset(ancestors), old(head), old(CountsOf(entries)), old(ElemsOf(entries)), head, CountsOf(entries), ElemsOf(entries), gone)
    {
      ghost var c0, e0 := CountsOf(entries), ElemsOf(entries);
      HeldNow();
      gone := ReleaseStyles(ancestors);
      ghost var c1, e1 := CountsOf(entries), ElemsOf(entries);
      assert forall e :: e in c0 && e !in ancestors ==> c1[e] == c0[e] && e1[e] == e0[e];
      assert forall e :: e in ancestors ==> c1[e] == Released(c0[e], multiset(ancestors)[e]);
      assert forall e :: e in ancestors && c1[e] > 0 ==> e1[e] == e0[e];
      assert forall x :: x in gone ==> x.owner in ancestors && e0[x.owner] == Some(x) && c1[x.owner] == 0;
      assert forall e :: e in ancestors && e0[e].Some? ==> (e0[e].value in gone <==> c1[e] == 0);
      ShedOf(ancestors, old(head), c0, e0, head, c1, e1, gone);
    }

    /** The loop of `ReleaseStyles`, against the counts and elements the entries had before it. */
    method ReleaseAll(ancestors: seq<RegistryEntry>, ghost was: map<RegistryEntry, Option<StyleElement>>,
                      ghost cnt: map<RegistryEntry, int>) returns (ghost gone: set<StyleElement>)
      requires Releasing(ancestors, 0, head, was, cnt, {})
      requires forall e :: e in ancestors ==> was[e] == e.styleElem
      modifies `head, set a | a in ancestors
      ensures Releasing(ancestors, |ancestors|, old(head), was, cnt, gone)
      ensures forall e :: e in entries ==> e.styleCount <= old(e.styleCount)
      ensures head == Discard(old(head), gone)
      ensures forall x :: x in gone ==> x.owner in ancestors && x.owner.styleCount == 0
      ensures forall e :: e in ancestors && old(e.styleElem).Some? ==> (old(e.styleElem).value in gone <==> e.styleCount == 0)
      ensures forall e :: e in ancestors && e.styleCount > 0 ==>
                e.styleElem.Some? && old(e.styleElem).Some? && e.styleElem.value == old(e.styleElem).value
      ensures forall x :: x in gone ==> x.owner in was && was[x.owner] == Some(x)
    {
      gone := {};
      for i := 0 to |ancestors|
        invariant Releasing(ancestors, i, old(head), was, cnt, gone)
        invariant forall e :: e in entries ==> e.styleCount <= old(e.styleCount)
      {
        gone := ReleaseStep(ancestors, i, old(head), was, cnt, gone);
      }
    }
  }

  // The `{{name}}` attribute protocol.

  /** The member name in a `{{name}}` attribute value, if the value has that form. */
  function SentinelName(v: string): (r: Option<string>)
    ensures r.Some? <==> StartsWith(v, "{{") && EndsWith(v, "}}")
    ensures r.Some? ==> v == "{{" + r.value + "}}"
  {
    if StartsWith(v, "{{") && EndsWith(v, "}}") then
      SentinelLength(v);
      assert v == v[..2] + v[2..|v| - 2] + v[|v| - 2..];
      Some(v[2..|v| - 2])
    else None
  }

  /** The braces of `{{` and `}}` cannot overlap. */
  lemma SentinelLength(v: string)
    requires StartsWith(v, "{{") && EndsWith(v, "}}")
    ensures |v| >= 4
  {
    assert v[0] == v[..2][0] == '{' && v[1] == v[..2][1] == '{';
    assert v[|v| - 2] == v[|v| - 2..][0] == '}';
  }

  /** Wrapping a name in braces and reading it back gives the name. */
  lemma SentinelRoundTrip(name: string)
    ensures SentinelName("{{" + name + "}}") == Some(name)
  {
    var v := "{{" + name + "}}";
    assert v[..2] == "{{";
    assert v[|v| - 2..] == "}}";
    assert v[2..|v| - 2] == name;
  }

  /** A value in `Params.attributes`: a string, a member function bound to a component, or another value. */
  datatype Value = Str(s: string) | Bound(member: string, owner: Component) | Opaque

  /**
   * The value `setComponents` passes for one attribute: for `{{name}}` with
   * `name in owner`, the member's value, a function being bound to `owner`;
   * any other value is passed as the attribute's text, braces included.
   */
  function Resolve(v: string, t: ComponentClass, ready: bool, owner: Component): (r: Value)
    ensures (SentinelName(v).None? || Lookup(t, ready, SentinelName(v).value).None?) ==> r == Str(v)
    ensures r.Bound? <==> SentinelName(v).Some? && Lookup(t, ready, SentinelName(v).value).Some?
                          && Callable(Lookup(t, ready, SentinelName(v).value).value)
    ensures r.Bound? ==> r.owner == owner && v == "{{" + r.member + "}}"
  {
    match SentinelName(v)
    case None => Str(v)
    case Some(name) =>
      match Lookup(t, ready, name)
      case None => Str(v)
      case Some(m) =>
        if Callable(m) then Bound(name, owner)
        else if m.StringField? then Str(m.s)
        else Opaque
  }

  /** `params.attributes`: every attribute in order, resolved, a later one of a name overwriting an earlier one. */
  function ParamAttrs(attrs: seq<Attr>, t: ComponentClass, ready: bool, owner: Component): (r: map<string, Value>)
    ensures forall a :: a in attrs ==> a.name in r
    decreases |attrs|
  {
    if attrs == [] then map[]
    else
      var a := attrs[|attrs| - 1];
      ParamAttrs(attrs[..|attrs| - 1], t, ready, owner)[a.name := Resolve(a.value, t, ready, owner)]
  }

  /** The last attribute of a name gives that name's value. */
  lemma {:induction false} ParamAttrsLastWins(attrs: seq<Attr>, t: ComponentClass, ready: bool, owner: Component, i: nat)
    requires i < |attrs| && forall j :: i < j < |attrs| ==> attrs[j].name != attrs[i].name
    ensures attrs[i].name in ParamAttrs(attrs, t, ready, owner)
    ensures ParamAttrs(attrs, t, ready, owner)[attrs[i].name] == Resolve(attrs[i].value, t, ready, owner)
    decreases |attrs|
  {
    if i < |attrs| - 1 {
      var init := attrs[..|attrs| - 1];
      assert init[i] == attrs[i];
      assert forall j :: i < j < |init| ==> init[j] == attrs[j];
      ParamAttrsLastWins(init, t, ready, owner, i);
    }
  }

  /** A name no attribute has is not a key. */
  lemma {:induction false} ParamAttrsAbsent(attrs: seq<Attr>, t: ComponentClass, ready: bool, owner: Component, name: string)
    requires forall j :: 0 <= j < |attrs| ==> attrs[j].name != name
    ensures name !in ParamAttrs(attrs, t, ready, owner)
    decreases |attrs|
  {
    if attrs != [] {
      var init := attrs[..|attrs| - 1];
      assert forall j :: 0 <= j < |init| ==> init[j] == attrs[j];
      ParamAttrsAbsent(init, t, ready, owner, name);
    }
  }

  /** `Component.Params`: the ref, the resolved attributes, and the nodes for the content slot. */
  datatype Params = Params(ref: string, attributes: map<string, Value>, children: seq<Node<Component>>)

  /** `params.attributes.get(name)` when it is a string. */
  function StringParam(params: Params, name: string): Option<string> {
    if name in params.attributes && params.attributes[name].Str? then Some(params.attributes[name].s) else None
  }

  /** The value of the `ref` attribute, or '' when there is none (`params.ref`). */
  function RefAttr(attrs: seq<Attr>): (r: string)
    ensures r != "" ==> GetAttr(attrs, "ref") == Some(r)
    ensures GetAttr(attrs, "ref").None? ==> r == ""
  {
    var ref := GetAttr(attrs, "ref");
    if ref.Some? then ref.value else ""
  }

  /**
   * The params `setComponents` was evidently meant to build from an element
   * whose tag names a registered component, and the element left behind:
   * the `ref` attribute, every attribute resolved against `owner`, and every
   * child node moved into the params in order, leaving the element empty.
   * The loop as written moves only every other node (`MoveChildNodesAsWritten`,
   * which `Component.Substitute` runs).
   */
  function IntendedParams(n: Node<Component>, t: ComponentClass, ready: bool, owner: Component): (r: (Params, Node<Component>))
    requires n.Element?
    ensures r.1.Element? && r.1.children == [] && r.1.tag == n.tag && r.1.attrs == n.attrs && r.1.classes == n.classes
    ensures r.0.children + r.1.children == n.children
    ensures r.0.ref == RefAttr(n.attrs) && r.0.attributes == ParamAttrs(n.attrs, t, ready, owner)
  {
    (Params(RefAttr(n.attrs), ParamAttrs(n.attrs, t, ready, owner), n.children), n.(children := []))
  }

  /** The nodes at even positions (first, third, ...). */
  function Evens<T>(xs: seq<T>): seq<T>
    decreases |xs|
  {
    if xs == [] then [] else [xs[0]] + Odds(xs[1..])
  }

  /** The nodes at odd positions (second, fourth, ...). */
  function Odds<T>(xs: seq<T>): seq<T>
    decreases |xs|
  {
    if xs == [] then [] else Evens(xs[1..])
  }

  lemma {:induction false} EvensOddsSnoc<T>(xs: seq<T>, a: T)
    ensures Evens(xs + [a]) == if |xs| % 2 == 0 then Evens(xs) + [a] else Evens(xs)
    ensures Odds(xs + [a]) == if |xs| % 2 == 1 then Odds(xs) + [a] else Odds(xs)
    decreases |xs|
  {
    if xs != [] {
      assert (xs + [a])[1..] == xs[1..] + [a];
      EvensOddsSnoc(xs[1..], a);
    }
  }

  /** Half the nodes, rounded up, are at even positions. */
  lemma {:induction false} EvensOddsLength<T>(xs: seq<T>)
    ensures |Evens(xs)| == (|xs| + 1) / 2 && |Odds(xs)| == |xs| / 2
    decreases |xs|
  {
    if xs != [] {
      EvensOddsLength(xs[1..]);
    }
  }

  /** Removing the element just after a prefix `o` leaves `o` and the rest. */
  lemma DropAt<T>(o: seq<T>, rest: seq<T>)
    requires |rest| >= 1
    ensures (o + rest)[..|o|] + (o + rest)[|o| + 1..] == o + rest[1..]
  {
    assert (o + rest)[..|o|] == o;
    assert (o + rest)[|o| + 1..] == rest[1..];
  }

  /**
   * One turn of that loop: after the nodes before `m` are dealt with, the
   * node at `m` moves and the one after it (if any) stays.
   */
  lemma MoveStep<T>(nodes: seq<T>, m: nat, moved: seq<T>, left: seq<T>)
    requires m < |nodes| && m % 2 == 0
    requires moved == Evens(nodes[..m]) && left == Odds(nodes[..m]) + nodes[m..]
    ensures var i, m' := m / 2, if m + 2 <= |nodes| then m + 2 else |nodes|;
            i < |left| && left[i] == nodes[m]
            && moved + [left[i]] == Evens(nodes[..m']) && left[..i] + left[i + 1..] == Odds(nodes[..m']) + nodes[m'..]
            && |Odds(nodes[..m'])| == m' / 2
  {
    var o := Odds(nodes[..m]);
    EvensOddsLength(nodes[..m]);
    assert |o| == m / 2;
    assert left[m / 2] == nodes[m];
    DropAt(o, nodes[m..]);
    assert nodes[m..][1..] == nodes[m + 1..];
    assert nodes[..m + 1] == nodes[..m] + [nodes[m]];
    EvensOddsSnoc(nodes[..m], nodes[m]);
    if m + 1 < |nodes| {
      KeepStep(nodes, m + 1, o);
    } else {
      EvensOddsLength(nodes[..m + 1]);
    }
  }

  /** The node at an odd position `k` stays behind: the kept nodes gain it. */
  lemma KeepStep<T>(nodes: seq<T>, k: nat, o: seq<T>)
    requires k < |nodes| && k % 2 == 1 && o == Odds(nodes[..k])
    ensures Evens(nodes[..k + 1]) == Evens(nodes[..k])
    ensures o + nodes[k..] == Odds(nodes[..k + 1]) + nodes[k + 1..]
    ensures |Odds(nodes[..k + 1])| == (k + 1) / 2
  {
    assert nodes[..k + 1] == nodes[..k] + [nodes[k]];
    EvensOddsSnoc(nodes[..k], nodes[k]);
    assert nodes[k..] == [nodes[k]] + nodes[k + 1..];
    AppendAssoc(o, [nodes[k]], nodes[k + 1..]);
    EvensOddsLength(nodes[..k + 1]);
  }

  /**
   * The child-node loop of `setComponents` as written: it walks the live
   * `childNodes` list by index while removing from it, so each removal
   * shifts the next node under the index already passed. `moved` is what
   * reaches `params.children`, `left` what stays in the element that is
   * then dropped.
   */
  method MoveChildNodesAsWritten<T>(nodes: seq<T>) returns (moved: seq<T>, left: seq<T>)
    ensures moved == Evens(nodes) && left == Odds(nodes)
  {
    moved, left := [], nodes;
    var i := 0;
    ghost var m := 0;
    while i < |left|
      invariant m == (if 2 * i <= |nodes| then 2 * i else |nodes|)
      invariant moved == Evens(nodes[..m]) && left == Odds(nodes[..m]) + nodes[m..]
      invariant |Odds(nodes[..m])| == m / 2 && (m < |nodes| ==> m == 2 * i)
    {
      MoveStep(nodes, m, moved, left);
      moved := moved + [left[i]];
      left := left[..i] + left[i + 1..];
      m := if m + 2 <= |nodes| then m + 2 else |nodes|;
      i := i + 1;
    }
    assert nodes[..m] == nodes;
  }

  /** The node at each position of `Evens` and `Odds`. */
  lemma {:induction false} EvensOddsAt<T>(xs: seq<T>, i: nat)
    ensures i < |Evens(xs)| ==> 2 * i < |xs| && Evens(xs)[i] == xs[2 * i]
    ensures i < |Odds(xs)| ==> 2 * i + 1 < |xs| && Odds(xs)[i] == xs[2 * i + 1]
    decreases |xs|
  {
    EvensOddsLength(xs);
    if xs != [] {
      EvensOddsLength(xs[1..]);
      if i > 0 {
        EvensOddsAt(xs[1..], i - 1);
      }
      EvensOddsAt(xs[1..], i);
    }
  }

  /** The nodes at either set of positions mount only components the whole list mounts. */
  lemma {:induction false} MountsEvensOdds<C>(cs: seq<Node<C>>)
    ensures MountsAll(Evens(cs)) <= MountsAll(cs) && MountsAll(Odds(cs)) <= MountsAll(cs)
    decreases |cs|
  {
    if cs != [] {
      MountsEvensOdds(cs[1..]);
      assert ([cs[0]] + Odds(cs[1..]))[1..] == Odds(cs[1..]);
    }
  }

  /**
   * With two or more child nodes the loop as written leaves the second one
   * behind, so it never reaches the new component.
   */
  lemma MoveChildNodesLosesSecond<T>(nodes: seq<T>)
    requires |nodes| >= 2
    ensures |Odds(nodes)| >= 1 && Odds(nodes)[0] == nodes[1]
    ensures |Evens(nodes)| < |nodes|
  {
    EvensOddsLength(nodes);
    assert Odds(nodes) == Evens(nodes[1..]);
    assert Evens(nodes[1..])[0] == nodes[1..][0];
  }

  /** The outcome of scanning an element's attributes for `on...="{{name}}"` handlers. */
  datatype EventScan = EventScan(listeners: seq<Listener<Component>>, bound: seq<string>, error: Option<string>)

  /** An `on...` attribute whose value is `{{name}}` for a name present on the instance. */
  predicate HandlerAttr(a: Attr, t: ComponentClass, ready: bool) {
    StartsWith(a.name, "on") && SentinelName(a.value).Some? && Lookup(t, ready, SentinelName(a.value).value).Some?
  }

  /**
   * The attribute loop of `setEventHandlersFromElemAttributes`: each
   * handler attribute naming a function adds a listener for the lower-cased
   * event after `on` and is marked for removal; one naming anything else
   * throws, keeping the listeners added before it.
   */
  function ScanEvents(attrs: seq<Attr>, t: ComponentClass, ready: bool, owner: Component, id: string): (r: EventScan)
    ensures |r.listeners| == |r.bound|
    ensures forall i :: 0 <= i < |r.bound| ==>
              StartsWith(r.bound[i], "on") && r.listeners[i].owner == owner
              && r.listeners[i].event == ToLower(r.bound[i][2..])
              && Lookup(t, ready, r.listeners[i].handler).Some? && Callable(Lookup(t, ready, r.listeners[i].handler).value)
    ensures r.error.None? <==> forall i :: 0 <= i < |attrs| && HandlerAttr(attrs[i], t, ready) ==>
                                  Callable(Lookup(t, ready, SentinelName(attrs[i].value).value).value)
    ensures r.error.None? ==> forall i :: 0 <= i < |attrs| && HandlerAttr(attrs[i], t, ready) ==> attrs[i].name in r.bound
    decreases |attrs|
  {
    if attrs == [] then EventScan([], [], None)
    else
      var a := attrs[0];
      var rest := ScanEvents(attrs[1..], t, ready, owner, id);
      assert forall i :: 1 <= i < |attrs| ==> attrs[i] == attrs[1..][i - 1];
      if HandlerAttr(a, t, ready) then
        var name := SentinelName(a.value).value;
        var event := ToLower(a.name[2..]);
        if Callable(Lookup(t, ready, name).value) then
          EventScan([Listener(event, name, owner)] + rest.listeners, [a.name] + rest.bound, rest.error)
        else
          EventScan([], [], Some("Could not find " + event + " handler " + name + " for element with id " + id))
      else rest
  }

  /** `removeAttribute` for each name in turn. */
  function RemoveNames(attrs: seq<Attr>, names: seq<string>): (r: seq<Attr>)
    ensures forall a :: a in r <==> a in attrs && a.name !in names
    decreases |names|
  {
    if names == [] then attrs else RemoveNames(RemoveAttr(attrs, names[0]), names[1..])
  }

  /**
   * After a scan that did not throw and the removals, no handler attribute
   * is left, and every attribute not starting with `on` is kept.
   */
  lemma BoundHandlersRemoved(attrs: seq<Attr>, t: ComponentClass, ready: bool, owner: Component, id: string)
    requires ScanEvents(attrs, t, ready, owner, id).error.None?
    ensures forall a :: a in RemoveNames(attrs, ScanEvents(attrs, t, ready, owner, id).bound) ==> !HandlerAttr(a, t, ready)
    ensures forall a :: a in attrs && !StartsWith(a.name, "on") ==> a in RemoveNames(attrs, ScanEvents(attrs, t, ready, owner, id).bound)
  {
    var s := ScanEvents(attrs, t, ready, owner, id);
    forall a | a in RemoveNames(attrs, s.bound) ensures !HandlerAttr(a, t, ready) {
      var i :| 0 <= i < |attrs| && attrs[i] == a;
    }
    forall a | a in attrs && !StartsWith(a.name, "on") ensures a in RemoveNames(attrs, s.bound) {
      assert forall i :: 0 <= i < |s.bound| ==> s.bound[i] != a.name;
    }
  }

  /** The class names `classList.add` puts on a component's root, one per ancestor entry. */
  function ClassNames(es: seq<RegistryEntry>): set<string> {
    set i | 0 <= i < |es| :: ClassName(es[i].componentType)
  }

  /** `parent.insertBefore(x, before)`, or `appendChild` when there is no `before`. */
  function InsertNode(cs: seq<Node<Component>>, before: Option<nat>, x: Node<Component>): (r: seq<Node<Component>>)
    requires before.Some? ==> before.value < |cs|
    ensures |r| == |cs| + 1 && MountsAll(r) == MountsAll(cs) + Mounts(x)
    ensures before.None? ==> r == cs + [x]
    ensures before.Some? ==> r[..before.value] == cs[..before.value] && r[before.value] == x && r[before.value + 1..] == cs[before.value..]
  {
    if before.None? then
      MountsAllAppend(cs, [x]);
      cs + [x]
    else
      var k := before.value;
      MountsAllAppend(cs[..k] + [x], cs[k..]);
      MountsAllAppend(cs[..k], [x]);
      MountsAllAppend(cs[..k], cs[k..]);
      assert cs[..k] + cs[k..] == cs;
      cs[..k] + [x] + cs[k..]
  }

  /** The tree with `d`'s root taken out of its parent (`parentNode.removeChild`). */
  function Unmount(n: Node<Component>, d: Component): (r: Node<Component>)
    ensures Mounts(r) <= Mounts(n)
    ensures n != Mount(d) ==> Mounts(r) == Mounts(n) - {d}
    decreases n
  {
    match n
    case Element(tag, attrs, classes, children, listeners) => Element(tag, attrs, classes, UnmountAll(children, d), listeners)
    case _ => n
  }

  function UnmountAll(cs: seq<Node<Component>>, d: Component): (r: seq<Node<Component>>)
    ensures MountsAll(r) == MountsAll(cs) - {d}
    decreases cs
  {
    if cs == [] then []
    else if cs[0] == Mount(d) then UnmountAll(cs[1..], d)
    else
      var r := [Unmount(cs[0], d)] + UnmountAll(cs[1..], d);
      assert r[0] == Unmount(cs[0], d) && r[1..] == UnmountAll(cs[1..], d);
      r
  }

  /** `Set.delete`: the components without `d`, in the same order. */
  function Without(cs: seq<Component>, d: Component): (r: seq<Component>)
    ensures forall i :: 0 <= i < |r| ==> r[i] in cs && r[i] != d
    ensures forall i :: 0 <= i < |cs| && cs[i] != d ==> cs[i] in r
    ensures |r| <= |cs|
  {
    if cs == [] then []
    else if cs[0] == d then Without(cs[1..], d)
    else [cs[0]] + Without(cs[1..], d)
  }

  /** Where an element that `setComponents` visits sits: in a parent element, as the root still in its template, or detached. */
  datatype Where = InParent | InTemplate | Orphan

  /**
   * What `setComponents` makes of `n`, which sits `where`: an element whose
   * lower-cased tag is in `reg` becomes a mounted component in a parent,
   * and elsewhere stays, keeping only the child nodes the move loop leaves
   * (those at odd positions); any other element keeps all but its children,
   * which are placed in turn in their parent. When the walk stopped at a
   * failure (`complete` false), a registered element in a parent may also
   * be left with those odd children and no component (the one that failed),
   * or untouched (one not reached).
   */
  ghost predicate Placed(n: Node<Component>, r: Node<Component>, reg: set<string>, where: Where, complete: bool)
    decreases n
  {
    if !n.Element? then r == n
    else if ToLower(n.tag) in reg then
      if where == InParent then r.Mount? || (!complete && (r == n || r == n.(children := Odds(n.children))))
      else r == n.(children := Odds(n.children))
    else
      r.Element? && r == n.(children := r.children) && |r.children| == |n.children|
      && forall i :: 0 <= i < |n.children| ==> Placed(n.children[i], r.children[i], reg, InParent, complete)
  }

  /** A node the walk has not reached is as a stopped walk may leave it. */
  lemma {:induction false} PlacedUnreached(n: Node<Component>, reg: set<string>)
    ensures Placed(n, n, reg, InParent, false)
    decreases n
  {
    if n.Element? && ToLower(n.tag) !in reg {
      forall i | 0 <= i < |n.children| ensures Placed(n.children[i], n.children[i], reg, InParent, false) {
        PlacedUnreached(n.children[i], reg);
      }
    }
  }

  /** What a complete walk leaves, a stopped one may leave too. */
  lemma {:induction false} PlacedStopped(n: Node<Component>, r: Node<Component>, reg: set<string>, where: Where)
    requires Placed(n, r, reg, where, true)
    ensures Placed(n, r, reg, where, false)
    decreases n
  {
    if n.Element? && ToLower(n.tag) !in reg {
      forall i | 0 <= i < |n.children| ensures Placed(n.children[i], r.children[i], reg, InParent, false) {
        PlacedStopped(n.children[i], r.children[i], reg, InParent);
      }
    }
  }

  /** After a failure at child `i`, the children before it count as stopped, and those after it as not reached. */
  lemma PlacedStoppedAt(cs: seq<Node<Component>>, xs: seq<Node<Component>>, i: nat, reg: set<string>)
    requires i < |cs| == |xs| && forall j :: i < j < |cs| ==> xs[j] == cs[j]
    requires forall j :: 0 <= j < i ==> Placed(cs[j], xs[j], reg, InParent, true)
    requires Placed(cs[i], xs[i], reg, InParent, false)
    ensures forall j :: 0 <= j < |cs| ==> Placed(cs[j], xs[j], reg, InParent, false)
  {
    forall j | 0 <= j < |cs| ensures Placed(cs[j], xs[j], reg, InParent, false) {
      if j < i {
        PlacedStopped(cs[j], xs[j], reg, InParent);
      } else if j > i {
        PlacedUnreached(cs[j], reg);
      }
    }
  }


  // Form inputs.

  /**
   * What one element writes in `getFormInputs`: a named input, select or
   * textarea its `value`, except a checkbox input, which writes `checked`.
   * Radio buttons are not treated apart here.
   */
  function InputContribution(n: Forms.FormNode): (c: Forms.Contribution)
    ensures c.Some? <==> n.kind != Forms.OtherElem && n.name.Some?
    ensures c.Some? ==> c.value.0 == n.name.value
    ensures c.Some? ==> (c.value.1.Flag? <==> n.kind == Forms.Input && n.typeAttr == Some("checkbox"))
    ensures c.Some? && c.value.1.Flag? ==> c.value.1.b == n.checked
    ensures c.Some? && c.value.1.Text? ==> c.value.1.s == n.value
  {
    if n.kind == Forms.OtherElem || n.name.None? then None
    else if n.kind == Forms.Input && n.typeAttr == Some("checkbox") then Some((n.name.value, Forms.Flag(n.checked)))
    else Some((n.name.value, Forms.Text(n.value)))
  }

  /** `Component.getFormInputs`: every named control below `e`, in document order, the last of a name winning. */
  function GetFormInputs(e: Forms.FormNode): (r: map<string, Forms.FormValue>)
    ensures forall key :: key in r <==> Forms.LastFor(Forms.Contributions(Forms.Descendants(e.children), InputContribution), key).Some?
    ensures forall key :: key in r ==>
              r[key] == Forms.LastFor(Forms.Contributions(Forms.Descendants(e.children), InputContribution), key).value
  {
    Forms.CollectLastWinsAll(e, InputContribution);
    Forms.Collect(e, InputContribution)
  }

  /**
   * A name is in the result exactly when some control below `e` has it,
   * and then its value is the one of the last such control.
   */
  lemma GetFormInputsSpec(e: Forms.FormNode, key: string)
    ensures var cs := Forms.Contributions(Forms.Descendants(e.children), InputContribution);
            (key in GetFormInputs(e) <==> exists i :: Forms.WritesAt(cs, key, i))
            && (key in GetFormInputs(e) ==> exists i :: Forms.LastWriteAt(cs, key, i) && cs[i].value.1 == GetFormInputs(e)[key])
  {
    var cs := Forms.Contributions(Forms.Descendants(e.children), InputContribution);
    Forms.CollectLastWins(e, InputContribution, key);
    Forms.LastForSpec(cs, key);
  }

  /** Without radio buttons below `e`, `Component.getFormInputs` and `Form.getInputs` agree. */
  lemma NoRadioSameAsForm(e: Forms.FormNode)
    requires forall n :: n in Forms.Descendants(e.children) ==> !(n.kind == Forms.Input && n.typeAttr == Some("radio"))
    ensures GetFormInputs(e) == Forms.GetInputs(e)
  {
    var ds := Forms.Descendants(e.children);
    var a := Forms.Contributions(ds, InputContribution);
    var b := Forms.Contributions(ds, Forms.FormContribution);
    assert a == b by {
      forall i | 0 <= i < |ds| ensures a[i] == b[i] {
        assert ds[i] in ds;
      }
    }
    Forms.CollectChildrenIsFold(map[], e.children, InputContribution);
    Forms.CollectChildrenIsFold(map[], e.children, Forms.FormContribution);
  }

  /**
   * The `ref` walk the constructor runs on the content element after
   * filling it, as written: the element still carries `ref="content"`,
   * which is still in the table, so unless the element has class
   * `Component` (only the root does by then) the walk throws on it.
   */
  lemma ContentRefsAsWritten(content: Node<Component>, children: seq<Node<Component>>, loc: ElemRef<Component>,
                             refs: map<string, ElemRef<Component>>)
    requires content.Element? && "Component" !in content.classes && GetAttr(content.attrs, "ref") == Some("content")
    requires "content" in refs && "content" !in Keys(TargetsChildren(content.children, loc, 0))
    ensures SetRefs(content.(children := children), loc, UnsetRefsChildren(content.children, refs)).clash == Some("content")
  {
    UnsetRefsChildrenSpec(content.children, loc, 0, refs);
  }

  /**
   * `result` is `tree` with `Mount(c)` inserted among the children of the
   * element at `parent`, before the child `before` or at the end.
   */
  predicate Inserted(tree: Node<Component>, parent: Path, before: Option<nat>, c: Component, result: Node<Component>) {
    At(tree, parent).Some? && At(tree, parent).value.Element?
    && (before.Some? ==> before.value < |At(tree, parent).value.children|)
    && result == Replace(tree, parent, At(tree, parent).value.(children := InsertNode(At(tree, parent).value.children, before, Mount(c))))
  }

  /** `e'` is the element `e` with at most its child `i` changed. */
  predicate OnlyChildChanged(e: Node<Component>, e': Node<Component>, i: nat) {
    e.Element? && e'.Element? && e' == e.(children := e'.children) && |e'.children| == |e.children|
    && forall j :: 0 <= j < |e.children| && j != i ==> e'.children[j] == e.children[j]
  }

  /** No element of the tree, stopping at mounted components, still has a handler attribute for `t`. */
  predicate Unbound(n: Node<Component>, t: ComponentClass, ready: bool)
    decreases n
  {
    match n
    case Element(_, attrs, _, children, _) =>
      (forall a :: a in attrs ==> !HandlerAttr(a, t, ready))
      && forall i :: 0 <= i < |children| ==> Unbound(children[i], t, ready)
    case _ => true
  }

  /** The `id` attribute, or '' as `element.id` gives when there is none. */
  function Id(n: Node<Component>): string
    requires n.Element?
  {
    var id := GetAttr(n.attrs, "id");
    if id.Some? then id.value else ""
  }

  /**
   * The root a component of class `t` starts from, given its parsed html:
   * there must be exactly one node and it must be an element; the `ref` and
   * `style` params, when they are strings, are set on it as attributes. The
   * second half of the result is the component's `ref`.
   */
  function Template(t: ComponentClass, nodes: seq<Html>, params: Params): (r: Result<(Node<Component>, string)>)
    ensures |nodes| == 0 ==> r == Err("The component \"" + ClassName(t) + "\" must have one root in its html.")
    ensures |nodes| > 1 ==> r == Err("The component \"" + ClassName(t) + "\" may have only one root in its html.")
    ensures |nodes| == 1 && !nodes[0].HElement? ==>
              r == Err("The component \"" + ClassName(t) + "\" root must be an HTMLElement or an SVGElement.")
    ensures r.Ok? <==> |nodes| == 1 && nodes[0].HElement?
    ensures r.Ok? ==>
              var root := r.value.0;
              root.Element? && Mounts(root) == {} && root.listeners == []
              && root.tag == nodes[0].tag && root.classes == nodes[0].classes && root.children == ToNode(nodes[0]).children
              && r.value.1 == (if StringParam(params, "ref").Some? then StringParam(params, "ref").value else "")
              && (StringParam(params, "ref").Some? ==> GetAttr(root.attrs, "ref") == StringParam(params, "ref"))
              && (StringParam(params, "style").Some? ==> GetAttr(root.attrs, "style") == StringParam(params, "style"))
              && forall a :: a != "ref" && a != "style" ==> GetAttr(root.attrs, a) == GetAttr(nodes[0].attrs, a)
  {
    if |nodes| == 0 then Err("The component \"" + ClassName(t) + "\" must have one root in its html.")
    else if |nodes| > 1 then Err("The component \"" + ClassName(t) + "\" may have only one root in its html.")
    else if !nodes[0].HElement? then Err("The component \"" + ClassName(t) + "\" root must be an HTMLElement or an SVGElement.")
    else
      var root := ToNode(nodes[0]);
      var refParam := StringParam(params, "ref");
      var root := if refParam.Some? then root.(attrs := SetAttr(root.attrs, "ref", refParam.value)) else root;
      var styleParam := StringParam(params, "style");
      var root := if styleParam.Some? then root.(attrs := SetAttr(root.attrs, "style", styleParam.value)) else root;
      Ok((root, if refParam.Some? then refParam.value else ""))
  }

  /**
   * The error a new component's constructor stops with, as far as its root
   * `n` decides it once `setComponents` is done: a ref clash first, then a
   * handler attribute of the root that names no function of class `t`,
   * which is looked up before the subclass's own fields exist.
   */
  ghost function RootError(n: Node<Component>, t: ComponentClass, obj: Component): Option<string> {
    var w := SetRefs(n, InTree([]), map[]);
    if w.clash.Some? then Some("The element ref \"" + w.clash.value + "\" has already been used.")
    else if n.Element? then ScanEvents(n.attrs, t, false, obj, Id(n)).error
    else None
  }

  /**
   * What a finished constructor leaves in `c` when `setComponents` made the
   * root `n`: the root has its own classes and those of every ancestor entry
   * and, without a `content` ref, it has `n`'s shape with no handler
   * attribute left, and the refs are exactly what `setRefs` records on `n`.
   */
  ghost predicate Decorated(c: Component, n: Node<Component>)
    reads c
  {
    c.root.Element? && n.Element? && c.root.classes == n.classes + ClassNames(c.entry.Ancestors())
    && ("content" !in SetRefs(n, InTree([]), map[]).refs ==>
          c.elementRefs == SetRefs(n, InTree([]), map[]).refs
          && Skeleton(c.root) == Skeleton(n) && Unbound(c.root, c.cls, false))
  }

  /**
   * A component instance. Its tree is `root`; a nested component's root
   * appears in it as a `Mount`. `fieldsReady` is whether the subclass's own
   * field initializers have run: everything the base constructor does sees
   * only the prototype methods.
   */
  class Component {
    const page: Page
    const cls: ComponentClass
    const entry: RegistryEntry
    ghost const serial: nat
    var ref: string
    var root: Node<Component>
    var components: seq<Component>
    var elementRefs: map<string, ElemRef<Component>>
    var componentRefs: map<string, Component>
    var fieldsReady: bool

    constructor (page: Page, cls: ComponentClass, entry: RegistryEntry, ref: string, root: Node<Component>, ghost serial: nat)
      ensures this.page == page && this.cls == cls && this.entry == entry && this.serial == serial
      ensures this.ref == ref && this.root == root
      ensures components == [] && elementRefs == map[] && componentRefs == map[] && !fieldsReady
    {
      this.page := page;
      this.cls := cls;
      this.entry := entry;
      this.serial := serial;
      this.ref := ref;
      this.root := root;
      components := [];
      elementRefs := map[];
      componentRefs := map[];
      fieldsReady := false;
    }

    /** Components are only added: none leaves the list, and no component ref is deleted. */
    twostate predicate Kept()
      reads this
    {
      old(components) <= components && old(componentRefs).Keys <= componentRefs.Keys
    }

    /**
     * `new ComponentType(params)`: the class must be registered and its html
     * must parse to exactly one element (`Template`), then the constructor
     * body runs (`Build`). A failure anywhere, including in a nested
     * component, is the error returned. `fuel` bounds the nesting depth, as
     * the call stack does. `settled` is the root once its components are
     * set and `obj` the object the constructor ran on; handlers are bound
     * before the subclass's own fields exist (`fieldsReady` false).
     */
    static method Create(page: Page, t: ComponentClass, params: Params, fuel: nat)
      returns (r: Result<Component>, ghost settled: Option<Node<Component>>, ghost obj: Option<Component>)
      requires page.Valid()
      modifies page, page.entries
      ensures page.Valid() && page.Grew()
      ensures Key(t) !in page.registry ==> r == Err("The component \"" + ClassName(t) + "\" has not been registered.")
      ensures Key(t) in page.registry && fuel == 0 ==> r == Err("RangeError: Maximum call stack size exceeded")
      ensures Key(t) in page.registry && fuel > 0 ==>
                var made := Template(t, page.parse(page.registry[Key(t)].html), params);
                (made.Err? ==> r == Err(made.msg))
                && (settled.Some? ==> made.Ok? && Placed(made.value.0, settled.value, page.registry.Keys, InTemplate, true))
      ensures settled.Some? ==> Key(t) in page.registry && fuel > 0 && settled.value.Element?
      ensures settled.Some? ==> obj.Some? && (RootError(settled.value, t, obj.value).Some? ==>
                                                r == Err(RootError(settled.value, t, obj.value).value))
      ensures r.Ok? ==> settled.Some?
      ensures r.Ok? ==> var c := r.value;
                fresh(c) && c in page.all && old(page.counter) <= c.serial
                && c.cls == t && Key(t) in page.registry && c.entry == page.registry[Key(t)] && c.fieldsReady
                && c.ref == (if StringParam(params, "ref").Some? then StringParam(params, "ref").value else "")
                && c.root.Element? && ClassNames(c.entry.Ancestors()) <= c.root.classes
                && (forall e :: e in c.entry.Ancestors() && e.css != "" ==>
                      old(e.styleCount) + multiset(c.entry.Ancestors())[e] <= e.styleCount)
      ensures r.Ok? ==> obj == Some(r.value) && Decorated(r.value, settled.value)
      decreases fuel, 0, 0
    {
      var key := Key(t);
      var made := if key !in page.registry then Err("The component \"" + ClassName(t) + "\" has not been registered.")
                  else if fuel == 0 then Err("RangeError: Maximum call stack size exceeded")
                  else Template(t, page.parse(page.registry[key].html), params);
      if made.Err? {
        return Err(made.msg), None, None;
      }
      ghost var c;
      r, settled, c := Instantiate(page, t, page.registry[key], made.value.0, made.value.1, params, fuel - 1);
      obj := Some(c);
    }

    /** `new ComponentType(params)` as `setComponents` uses it: a new component of the page, of class `t`. */
    static method Spawn(page: Page, t: ComponentClass, params: Params, fuel: nat) returns (r: Result<Component>)
      requires page.Valid()
      modifies page, page.entries
      ensures page.Valid() && page.Grew()
      ensures r.Ok? ==> fresh(r.value) && r.value in page.all && old(page.counter) <= r.value.serial && r.value.cls == t
      decreases fuel, 0, 1
    {
      ghost var settled, obj;
      r, settled, obj := Create(page, t, params, fuel);
    }

    /**
     * The constructor once the root is known: the new component joins the
     * page, its body runs, and on success its own fields are initialized.
     * `made` is the new object, which is returned only on success.
     */
    static method Instantiate(page: Page, t: ComponentClass, entry: RegistryEntry, root: Node<Component>, ref: string,
                              params: Params, fuel: nat)
      returns (r: Result<Component>, ghost settled: Option<Node<Component>>, ghost made: Component)
      requires page.Valid() && entry in page.entries && root.Element?
      modifies page, page.entries
      ensures page.Valid() && page.Grew()
      ensures settled.Some? ==> settled.value.Element? && Placed(root, settled.value, page.registry.Keys, InTemplate, true)
      ensures settled.Some? && RootError(settled.value, t, made).Some? ==> r == Err(RootError(settled.value, t, made).value)
      ensures r.Ok? ==> settled.Some?
      ensures r.Ok? ==> r.value == made && Decorated(made, settled.value)
      ensures r.Ok? ==> var c := r.value;
                fresh(c) && c in page.all && old(page.counter) <= c.serial
                && c.cls == t && c.entry == entry && c.fieldsReady && c.ref == ref
                && c.root.Element? && ClassNames(entry.Ancestors()) <= c.root.classes
                && (forall e :: e in entry.Ancestors() && e.css != "" ==>
                      old(e.styleCount) + multiset(entry.Ancestors())[e] <= e.styleCount)
      decreases fuel, 6
    {
      var c := new Component(page, t, entry, ref, root, page.counter);
      made := c;
      page.Admit(c);
      var err;
      err, settled := c.Build(params, fuel);
      if err.Some? {
        return Err(err.value), settled, made;
      }
      c.MarkReady();
      r := Ok(c);
    }

    /** The subclass's own field initializers run once the base constructor is done. */
    method MarkReady()
      requires page.Valid()
      modifies this`fieldsReady
      ensures fieldsReady && ref == old(ref) && page.Valid() && page.Grew()
    {
      fieldsReady := true;
    }

    /**
     * The constructor body after the root is made: nested components, then
     * element refs, then event handlers (all on the root), then the classes
     * of every ancestor entry on the root, then their style elements, then
     * the content slot if there is a `content` ref.
     */
    method Build(params: Params, fuel: nat) returns (err: Option<string>, ghost settled: Option<Node<Component>>)
      requires page.Valid() && this in page.all && root.Element?
      requires components == [] && elementRefs == map[]
      modifies this`root, this`elementRefs, this`components, this`componentRefs, page, page.entries
      ensures page.Valid() && page.Grew()
      ensures settled.Some? ==> settled.value.Element? && Placed(old(root), settled.value, page.registry.Keys, InTemplate, true)
      ensures settled.None? ==> err.Some?
      ensures settled.Some? && SetRefs(settled.value, InTree([]), map[]).clash.Some? ==>
                err == Some("The element ref \"" + SetRefs(settled.value, InTree([]), map[]).clash.value + "\" has already been used.")
      ensures settled.Some? && SetRefs(settled.value, InTree([]), map[]).clash.None?
              && ScanEvents(settled.value.attrs, cls, fieldsReady, this, Id(settled.value)).error.Some? ==>
                err == ScanEvents(settled.value.attrs, cls, fieldsReady, this, Id(settled.value)).error
      ensures err.None? ==> root.Element? && ClassNames(entry.Ancestors()) <= root.classes
      ensures err.None? ==> forall e :: e in entry.Ancestors() && e.css != "" ==>
                              old(e.styleCount) + multiset(entry.Ancestors())[e] <= e.styleCount
      ensures settled.None? ==> elementRefs == map[]
      ensures settled.Some? && SetRefs(settled.value, InTree([]), map[]).clash.Some? ==>
                root == settled.value && elementRefs == SetRefs(settled.value, InTree([]), map[]).refs
      ensures settled.Some? && "content" !in SetRefs(settled.value, InTree([]), map[]).refs ==>
                elementRefs == SetRefs(settled.value, InTree([]), map[]).refs
      ensures err.None? ==> settled.Some? && root.classes == settled.value.classes + ClassNames(entry.Ancestors())
      ensures err.None? && "content" !in SetRefs(settled.value, InTree([]), map[]).refs ==>
                Skeleton(root) == Skeleton(settled.value) && Unbound(root, cls, fieldsReady)
      decreases fuel, 5
    {
      var r, placeholder, e := SetComponents(root, InTemplate, fuel);
      if e.Some? {
        Settle(r, elementRefs);
        return e, None;
      }
      settled := Some(r);
      // Once replaced in its template the root has no parent any more.
      err := Complete(r, params.children, if placeholder.Some? then Orphan else InTemplate, fuel);
    }

    /** The constructor after `setComponents`: refs, handlers and classes on the root, then styles and content. */
    method Complete(r: Node<Component>, children: seq<Node<Component>>, rootWhere: Where, fuel: nat) returns (err: Option<string>)
      requires page.Valid() && this in page.all && r.Element? && rootWhere != InParent
      modifies this`root, this`elementRefs, this`components, this`componentRefs, page, page.entries
      ensures page.Valid() && page.Grew()
      ensures SetRefs(r, InTree([]), map[]).clash.Some? ==>
                err == Some("The element ref \"" + SetRefs(r, InTree([]), map[]).clash.value + "\" has already been used.")
      ensures SetRefs(r, InTree([]), map[]).clash.None? && ScanEvents(r.attrs, cls, fieldsReady, this, Id(r)).error.Some? ==>
                err == ScanEvents(r.attrs, cls, fieldsReady, this, Id(r)).error
      ensures err.None? ==> root.Element? && ClassNames(entry.Ancestors()) <= root.classes
      ensures err.None? ==> forall e :: e in entry.Ancestors() && e.css != "" ==>
                              old(e.styleCount) + multiset(entry.Ancestors())[e] <= e.styleCount
      ensures SetRefs(r, InTree([]), map[]).clash.Some? ==> root == r && elementRefs == SetRefs(r, InTree([]), map[]).refs
      ensures "content" !in SetRefs(r, InTree([]), map[]).refs ==> elementRefs == SetRefs(r, InTree([]), map[]).refs
      ensures err.None? ==> root.classes == r.classes + ClassNames(entry.Ancestors())
      ensures err.None? && "content" !in SetRefs(r, InTree([]), map[]).refs ==>
                Skeleton(root) == Skeleton(r) && Unbound(root, cls, fieldsReady)
      decreases fuel, 4
    {
      var d, refs, e := Decorate(r);
      Settle(d, refs);
      if e.Some? {
        return e;
      }
      ghost var placed;
      err, placed := Furnish(children, rootWhere, fuel);
    }

    /** The root and the element refs take the given values; the page is not touched. */
    method Settle(d: Node<Component>, refs: map<string, ElemRef<Component>>)
      requires page.Valid()
      modifies this`root, this`elementRefs
      ensures root == d && elementRefs == refs && page.Valid() && page.Grew()
    {
      root, elementRefs := d, refs;
    }

    /** The end of the constructor: the ancestor entries' styles, then the content slot if there is one. */
    method Furnish(children: seq<Node<Component>>, rootWhere: Where, fuel: nat)
      returns (err: Option<string>, ghost placed: Node<Component>)
      requires page.Valid() && this in page.all && root.Element?
      requires AllPointInto(root, elementRefs) && rootWhere != InParent
      modifies this`root, this`elementRefs, this`components, this`componentRefs, page, page.entries
      ensures page.Valid() && page.Grew()
      ensures root.Element? && root.classes == old(root.classes)
      ensures forall e :: e in entry.Ancestors() && e.css != "" ==>
                old(e.styleCount) + multiset(entry.Ancestors())[e] <= e.styleCount
      ensures "content" !in old(elementRefs) ==> err.None? && elementRefs == old(elementRefs) && root == old(root)
      ensures "content" in old(elementRefs) ==>
                var p := old(elementRefs)["content"].path;
                At(old(root), p).Some? &&
                var e := At(old(root), p).value;
                var w := SetRefs(e.(children := children), InTree(p), UnsetRefsChildren(e.children, old(elementRefs)));
                elementRefs == w.refs
                && (w.clash.Some? ==> err == Some("The element ref \"" + w.clash.value + "\" has already been used."))
                && (w.clash.None? ==> root == Replace(old(root), p, placed)
                                      && Placed(e.(children := children), placed, page.registry.Keys,
                                                if p == [] then rootWhere else InParent, err.None?))
      decreases fuel, 3
    {
      ghost var made := page.AcquireStyles(entry.Ancestors());
      err, placed := None, root;
      if "content" in elementRefs {
        err, placed := FillContent(children, rootWhere, fuel);
      }
    }

    /**
     * What the constructor does to its root once the components are set:
     * element refs are recorded, event handlers bound, and the classes of
     * every ancestor entry added. A ref clash stops it before the handlers,
     * a handler error before the classes.
     */
    method Decorate(n: Node<Component>) returns (d: Node<Component>, refs: map<string, ElemRef<Component>>, err: Option<string>)
      requires n.Element?
      ensures refs == SetRefs(n, InTree([]), map[]).refs
      ensures SetRefs(n, InTree([]), map[]).clash.Some? ==>
                d == n && err == Some("The element ref \"" + SetRefs(n, InTree([]), map[]).clash.value + "\" has already been used.")
      ensures SetRefs(n, InTree([]), map[]).clash.None? && ScanEvents(n.attrs, cls, fieldsReady, this, Id(n)).error.Some? ==>
                err == ScanEvents(n.attrs, cls, fieldsReady, this, Id(n)).error
      ensures err.None? ==> d.Element? && Skeleton(d) == Skeleton(n) && AllPointInto(d, refs)
                            && d.classes == n.classes + ClassNames(entry.Ancestors()) && Unbound(d, cls, fieldsReady)
    {
      SetRefsInto(n, [], map[]);
      d, refs, err := Wire(n, InTree([]), map[]);
      if err.None? {
        d := d.(classes := d.classes + ClassNames(entry.Ancestors()));
        SkeletonPointsInto(n, d, refs);
      }
    }

    /**
     * `setRefs(element)` then `setEventHandlersFromElemAttributes(element)`
     * for an element at `loc`: its refs join `refs` (a clash stops there),
     * then its handlers are bound.
     */
    method Wire(n: Node<Component>, loc: ElemRef<Component>, refs: map<string, ElemRef<Component>>)
      returns (d: Node<Component>, refs': map<string, ElemRef<Component>>, err: Option<string>)
      ensures refs' == SetRefs(n, loc, refs).refs
      ensures forall k :: k in refs ==> k in refs' && refs'[k] == refs[k]
      ensures Skeleton(d) == Skeleton(n)
      ensures SetRefs(n, loc, refs).clash.Some? ==>
                d == n && err == Some("The element ref \"" + SetRefs(n, loc, refs).clash.value + "\" has already been used.")
      ensures SetRefs(n, loc, refs).clash.None? && n.Element? && ScanEvents(n.attrs, cls, fieldsReady, this, Id(n)).error.Some? ==>
                err == ScanEvents(n.attrs, cls, fieldsReady, this, Id(n)).error
      ensures err.None? ==> Wired(d, n)
    {
      var w := SetRefs(n, loc, refs);
      SetRefsIsRecord(n, loc, refs);
      RecordSpec(Targets(n, loc), refs);
      refs' := w.refs;
      if w.clash.Some? {
        return n, refs', Some("The element ref \"" + w.clash.value + "\" has already been used.");
      }
      d, err := BindEvents(n);
    }

    /**
     * The content slot, `elementRefs["content"]`, as the constructor fills
     * it: `__setHtml(content, '')` deletes the refs of its old children and
     * the children with them, the params' children take their place, then
     * `setRefs` walks the content element itself. That walk throws on the
     * element's own `ref="content"` unless the element has class `Component`
     * (see `ContentRefsAsWritten`); the root has it, and then the walk
     * records nothing. Last, the content element gets its components.
     */
    method FillContent(children: seq<Node<Component>>, rootWhere: Where, fuel: nat)
      returns (err: Option<string>, ghost placed: Node<Component>)
      requires page.Valid() && this in page.all && root.Element?
      requires "content" in elementRefs && AllPointInto(root, elementRefs) && rootWhere != InParent
      modifies this`root, this`elementRefs, this`components, this`componentRefs, page, page.entries
      ensures page.Valid() && page.Grew() && Kept()
      ensures root.Element? && root.classes == old(root.classes)
      ensures var p := old(elementRefs)["content"].path;
              At(old(root), p).Some? &&
              var e := At(old(root), p).value;
              var unset := UnsetRefsChildren(e.children, old(elementRefs));
              var w := SetRefs(e.(children := children), InTree(p), unset);
              elementRefs == w.refs
              && ("Component" in e.classes ==> elementRefs == unset)
              && (w.clash.Some? ==> err == Some("The element ref \"" + w.clash.value + "\" has already been used.")
                                    && root == Replace(old(root), p, e.(children := children)))
              && (w.clash.None? ==> root == Replace(old(root), p, placed)
                                    && Placed(e.(children := children), placed, page.registry.Keys,
                                              if p == [] then rootWhere else InParent, err.None?))
      decreases fuel, 2
    {
      var p := elementRefs["content"].path;
      var content := At(root, p).value;
      elementRefs := UnsetRefsChildren(content.children, elementRefs);
      ghost var filled := root;
      root := Replace(root, p, content.(children := children));
      placed := content.(children := children);
      var w := SetRefs(content.(children := children), InTree(p), elementRefs);
      elementRefs := w.refs;
      if w.clash.Some? {
        return Some("The element ref \"" + w.clash.value + "\" has already been used."), placed;
      }
      var x, _, e := PlaceComponents(p, if p == [] then rootWhere else InParent, fuel);
      placed := x;
      ReplaceTwice(filled, p, content.(children := children), x);
      err := e;
    }

    /**
     * The content step as evidently intended: the old children leave (and
     * their refs with them), the params' children take their place, and only
     * the new children's refs are recorded, each pointing at its new path.
     */
    method FillContentIntended(children: seq<Node<Component>>, rootWhere: Where, fuel: nat) returns (err: Option<string>)
      requires page.Valid() && this in page.all && root.Element?
      requires "content" in elementRefs && AllPointInto(root, elementRefs) && rootWhere != InParent
      modifies this`root, this`elementRefs, this`components, this`componentRefs, page, page.entries
      ensures page.Valid() && page.Grew() && Kept()
      ensures root.Element? && root.classes == old(root.classes)
      ensures err.None? ==> var ts := TargetsChildren(children, InTree(old(elementRefs)["content"].path), 0);
                forall i :: 0 <= i < |ts| ==> ts[i].0 in elementRefs && elementRefs[ts[i].0] == ts[i].1
    {
      var p := elementRefs["content"].path;
      var content := At(root, p).value;
      var kept := UnsetRefsChildren(content.children, elementRefs);
      var w := SetRefsChildren(children, InTree(p), 0, kept);
      SetRefsChildrenIsRecord(children, InTree(p), 0, kept);
      RecordSpec(TargetsChildren(children, InTree(p), 0), kept);
      root, elementRefs := Replace(root, p, content.(children := children)), w.refs;
      if w.clash.Some? {
        return Some("The element ref \"" + w.clash.value + "\" has already been used.");
      }
      var _, _, e := PlaceComponents(p, if p == [] then rootWhere else InParent, fuel);
      err := e;
    }

    /**
     * `setComponents` on the element at `p`, whose result takes its place
     * in the tree.
     */
    method PlaceComponents(p: Path, where: Where, fuel: nat)
      returns (placed: Node<Component>, placeholder: Option<Node<Component>>, err: Option<string>)
      requires page.Valid() && this in page.all
      requires At(root, p).Some? && At(root, p).value.Element?
      modifies this`root, this`components, this`componentRefs, page, page.entries
      ensures page.Valid() && page.Grew() && Kept()
      ensures At(old(root), p).Some? && root == Replace(old(root), p, placed)
      ensures Placed(old(At(root, p).value), placed, page.registry.Keys, where, err.None?)
      ensures forall c :: c in Mounts(placed) ==> c in Mounts(old(At(root, p).value)) || c in components
      ensures where != InParent ==> placed.Element? && placed.classes == old(At(root, p).value.classes)
      ensures placeholder.Some? <==> ToLower(old(At(root, p).value.tag)) in page.registry
      ensures placeholder.Some? ==> placeholder.value == old(At(root, p).value).(children := Odds(old(At(root, p).value.children)))
      decreases fuel, 1, At(root, p).value, 3
    {
      placed, placeholder, err := SetComponents(At(root, p).value, where, fuel);
      root := Replace(root, p, placed);
    }

    /** `_components.add(d)`: `d` is listed once, at the end if it was not listed. */
    method Adopt(d: Component)
      requires page.Valid() && this in page.all && d in page.all && serial < d.serial
      modifies this`components, page`kids
      ensures page.Valid() && page.Grew()
      ensures components == if d in old(components) then old(components) else old(components) + [d]
    {
      if d !in components {
        components := components + [d];
        page.kids := page.kids[this := components];
      }
    }

    /**
     * `setComponents(element)`: an element whose lower-cased tag is a
     * registered key becomes a component made from its attributes and
     * child nodes, which takes its place when it has a parent (`InParent`);
     * in a template the new component goes into the template instead and
     * the element stays; without a parent nothing is made. Any other element
     * has its element children visited in order. A failure stops the walk;
     * what was done before it stays (`Placed`).
     */
    method SetComponents(n: Node<Component>, where: Where, fuel: nat)
      returns (r: Node<Component>, placeholder: Option<Node<Component>>, err: Option<string>)
      requires page.Valid() && this in page.all
      modifies this`components, this`componentRefs, page, page.entries
      ensures page.Valid() && page.Grew() && Kept()
      ensures Placed(n, r, page.registry.Keys, where, err.None?)
      ensures forall c :: c in Mounts(r) ==> c in Mounts(n) || c in components
      ensures !n.Element? ==> placeholder.None? && err.None?
      ensures n.Element? ==> (placeholder.Some? <==> ToLower(n.tag) in page.registry)
      ensures placeholder.Some? ==> placeholder.value == n.(children := Odds(n.children))
      ensures n.Element? && where != InParent ==> r.Element? && r.tag == n.tag && r.attrs == n.attrs && r.classes == n.classes
      ensures where == InParent && placeholder.Some? && err.None? ==> r.Mount? && r.component in components
      decreases fuel, 1, n, 2
    {
      r, placeholder, err := n, None, None;
      if !n.Element? {
        return;
      }
      if ToLower(n.tag) in page.registry {
        r, placeholder, err := Substitute(n, where, fuel);
      } else {
        r, err := Descend(n, fuel);
      }
    }

    /** The branch of `setComponents` for any other element: its children are visited in turn. */
    method Descend(n: Node<Component>, fuel: nat) returns (r: Node<Component>, err: Option<string>)
      requires page.Valid() && this in page.all && n.Element? && ToLower(n.tag) !in page.registry
      modifies this`components, this`componentRefs, page, page.entries
      ensures page.Valid() && page.Grew() && Kept()
      ensures Placed(n, r, page.registry.Keys, InParent, err.None?)
      ensures forall c :: c in Mounts(r) ==> c in Mounts(n) || c in components
      ensures r.Element? && r.tag == n.tag && r.attrs == n.attrs && r.classes == n.classes
      decreases fuel, 1, n, 1
    {
      var cs := SetComponentsChildren(n.children, n, fuel);
      r := n.(children := cs.0);
      err := cs.1;
    }

    /**
     * The branch of `setComponents` for an element whose tag names a
     * registered component: the params are its `ref`, its attributes and
     * the child nodes the move loop takes (those at even positions); then,
     * unless the element has no parent, the component is made, listed, its
     * `ref` recorded, and in a parent it takes the element's place. The
     * element keeps the child nodes the loop leaves.
     */
    method Substitute(n: Node<Component>, where: Where, fuel: nat)
      returns (r: Node<Component>, placeholder: Option<Node<Component>>, err: Option<string>)
      requires page.Valid() && this in page.all && n.Element? && ToLower(n.tag) in page.registry
      modifies this`components, this`componentRefs, page, page.entries
      ensures page.Valid() && page.Grew() && Kept()
      ensures placeholder == Some(n.(children := Odds(n.children)))
      ensures where != InParent || err.Some? ==> r == n.(children := Odds(n.children))
      ensures forall c :: c in Mounts(r) ==> c in Mounts(n) || c in components
      ensures where == Orphan || err.Some? ==> components == old(components) && componentRefs == old(componentRefs)
      ensures where != Orphan && err.None? ==>
                |components| == |old(components)| + 1 && components[..|old(components)|] == old(components)
                && var d := components[|old(components)|];
                fresh(d) && d.cls == page.registry[ToLower(n.tag)].componentType
                && (where == InParent ==> r == Mount(d))
                && componentRefs == (if RefAttr(n.attrs) != "" then old(componentRefs)[RefAttr(n.attrs) := d] else old(componentRefs))
      decreases fuel, 1, n, 0
    {
      var params, left := GatherParams(n);
      MountsEvensOdds(n.children);
      r, placeholder, err := n.(children := left), Some(n.(children := left)), None;
      if where == Orphan {
        return;
      }
      r, err := Enlist(page.registry[ToLower(n.tag)].componentType, params, r, where == InParent, fuel);
    }

    /**
     * The params `setComponents` gives a component it makes from `n`: the
     * element's `ref`, its attributes with `{{...}}` values resolved against
     * this component, and the child nodes the move loop takes; `left` is
     * what the loop leaves in the element.
     */
    method GatherParams(n: Node<Component>) returns (params: Params, left: seq<Node<Component>>)
      requires n.Element?
      ensures params == Params(RefAttr(n.attrs), ParamAttrs(n.attrs, cls, fieldsReady, this), Evens(n.children))
      ensures left == Odds(n.children)
    {
      var moved;
      moved, left := MoveChildNodesAsWritten(n.children);
      params := Params(RefAttr(n.attrs), ParamAttrs(n.attrs, cls, fieldsReady, this), moved);
    }

    /**
     * `__insertComponent` as `setComponents` calls it: the component is
     * made, listed and its `ref` recorded; in a parent it takes the place of
     * `rest`, the element it was made from.
     */
    method Enlist(t: ComponentClass, params: Params, rest: Node<Component>, inParent: bool, fuel: nat)
      returns (r: Node<Component>, err: Option<string>)
      requires page.Valid() && this in page.all
      modifies this`components, this`componentRefs, page, page.entries
      ensures page.Valid() && page.Grew() && Kept()
      ensures err.Some? ==> r == rest && components == old(components) && componentRefs == old(componentRefs)
      ensures err.None? ==>
                |components| == |old(components)| + 1 && components[..|old(components)|] == old(components)
                && var d := components[|old(components)|];
                fresh(d) && d.cls == t && r == (if inParent then Mount(d) else rest)
                && componentRefs == (if params.ref != "" then old(componentRefs)[params.ref := d] else old(componentRefs))
      decreases fuel, 0, 2
    {
      r, err := rest, None;
      var c := Spawn(page, t, params, fuel);
      if c.Err? {
        return r, Some(c.msg);
      }
      Own(c.value, params.ref);
      if inParent {
        r := Mount(c.value);
      }
    }

    /** `_components.add(d)`, then `d` recorded under `ref` unless that is ''. */
    method Own(d: Component, ref: string)
      requires page.Valid() && this in page.all && d in page.all && serial < d.serial
      modifies this`components, this`componentRefs, page`kids
      ensures page.Valid() && page.Grew() && Kept()
      ensures components == if d in old(components) then old(components) else old(components) + [d]
      ensures componentRefs == if ref != "" then old(componentRefs)[ref := d] else old(componentRefs)
    {
      Adopt(d);
      if ref != "" {
        componentRefs := componentRefs[ref := d];
      }
    }

    /** The loop of `setComponents` over an element's children, each visited in its parent. */
    method SetComponentsChildren(cs: seq<Node<Component>>, ghost parent: Node<Component>, fuel: nat)
      returns (r: (seq<Node<Component>>, Option<string>))
      requires parent.Element? && cs == parent.children
      requires page.Valid() && this in page.all
      modifies this`components, this`componentRefs, page, page.entries
      ensures page.Valid() && page.Grew() && Kept()
      ensures |r.0| == |cs|
      ensures forall i :: 0 <= i < |cs| ==> Placed(cs[i], r.0[i], page.registry.Keys, InParent, r.1.None?)
      ensures forall c :: c in MountsAll(r.0) ==> c in MountsAll(cs) || c in components
      decreases fuel, 1, parent, 0
    {
      var xs := cs;
      var err := None;
      var i := 0;
      while i < |cs|
        invariant 0 <= i <= |cs| && |xs| == |cs|
        invariant forall j :: i <= j < |cs| ==> xs[j] == cs[j]
        invariant forall j :: 0 <= j < i ==> Placed(cs[j], xs[j], page.registry.Keys, InParent, true)
        invariant forall c :: c in MountsAll(xs) ==> c in MountsAll(cs) || c in components
        invariant page.Valid() && page.Grew() && Kept() && this in page.all
      {
        if cs[i].Element? {
          var x, _, e := SetComponents(cs[i], InParent, fuel);
          MountsAllUpdate(xs, i, x);
          MountsAllIndex(cs, i);
          xs := xs[i := x];
          if e.Some? {
            err := e;
            PlacedStoppedAt(cs, xs, i, page.registry.Keys);
            break;
          }
        }
        i := i + 1;
      }
      r := (xs, err);
    }

    /**
     * What binding the handlers leaves of `n` once it succeeded: no handler
     * attribute is left anywhere below, and the element itself keeps its
     * classes, has its `on...` attributes removed and gains one listener
     * for each of them.
     */
    ghost predicate Wired(d: Node<Component>, n: Node<Component>)
      reads this`fieldsReady
    {
      Unbound(d, cls, fieldsReady)
      && (n.Element? ==>
            var scan := ScanEvents(n.attrs, cls, fieldsReady, this, Id(n));
            d.Element? && d.classes == n.classes
            && d.attrs == RemoveNames(n.attrs, scan.bound) && d.listeners == n.listeners + scan.listeners)
    }

    /**
     * `setEventHandlersFromElemAttributes(element)`: on each element, every
     * `on...="{{name}}"` attribute naming a function of this component adds
     * a listener bound to it, and once all attributes are scanned those
     * attributes are removed; naming anything else throws, keeping the
     * listeners already added. Then the children are visited in order.
     */
    method BindEvents(n: Node<Component>) returns (r: Node<Component>, err: Option<string>)
      ensures Skeleton(r) == Skeleton(n)
      ensures !n.Element? ==> r == n && err.None?
      ensures n.Element? ==> r.Element? && r.classes == n.classes && r.listeners == n.listeners + ScanEvents(n.attrs, cls, fieldsReady, this, Id(n)).listeners
      ensures n.Element? && ScanEvents(n.attrs, cls, fieldsReady, this, Id(n)).error.Some? ==>
                err == ScanEvents(n.attrs, cls, fieldsReady, this, Id(n)).error && r.attrs == n.attrs
      ensures n.Element? && ScanEvents(n.attrs, cls, fieldsReady, this, Id(n)).error.None? ==>
                r.attrs == RemoveNames(n.attrs, ScanEvents(n.attrs, cls, fieldsReady, this, Id(n)).bound)
      ensures err.None? ==> Unbound(r, cls, fieldsReady)
      decreases n
    {
      if !n.Element? {
        return n, None;
      }
      var scan := ScanEvents(n.attrs, cls, fieldsReady, this, Id(n));
      r := n.(listeners := n.listeners + scan.listeners);
      if scan.error.Some? {
        return r, scan.error;
      }
      BoundHandlersRemoved(n.attrs, cls, fieldsReady, this, Id(n));
      var xs := n.children;
      err := None;
      var i := 0;
      while i < |xs|
        invariant 0 <= i <= |xs| && |xs| == |n.children|
        invariant forall j :: i <= j < |xs| ==> xs[j] == n.children[j]
        invariant Skeletons(xs) == Skeletons(n.children)
        invariant err.None? ==> forall j :: 0 <= j < i ==> Unbound(xs[j], cls, fieldsReady)
      {
        var x, e := BindEvents(n.children[i]);
        SkeletonsUpdate(xs, i, x);
        xs := xs[i := x];
        if e.Some? {
          err := e;
          break;
        }
        i := i + 1;
      }
      r := r.(attrs := RemoveNames(n.attrs, scan.bound), children := xs);
    }

    /**
     * `__setHtml(element, html)` for the element at `p`: tabs and newlines
     * are cut from `html`; each old child has its refs deleted and its
     * components unset (`UnsetComponents`, which deletes nothing for a node
     * below the root); the children are replaced by the parsed html; then
     * each new element child gets its components, refs and event handlers in
     * turn, stopping at the first failure. `placed` is what `setComponents`
     * made of each new child.
     */
    method SetHtml(p: Path, html: string, fuel: nat) returns (err: Option<string>, ghost placed: seq<Node<Component>>)
      requires page.Valid() && this in page.all
      requires At(root, p).Some? && At(root, p).value.Element?
      modifies this`root, this`elementRefs, this`components, this`componentRefs, page, page.entries
      ensures page.Valid() && page.Grew() && Kept()
      ensures At(root, p).Some? && At(root, p).value.Element?
      ensures root == Replace(old(root), p, At(root, p).value)
      ensures var e, e' := old(At(root, p).value), At(root, p).value;
              var parsed := page.parse(RemoveAll(html, {'\t', '\n'}));
              e'.tag == e.tag && e'.attrs == e.attrs && e'.classes == e.classes && e'.listeners == e.listeners
              && |e'.children| == |parsed| == |placed|
              && (forall i :: 0 <= i < |parsed| && !parsed[i].HElement? ==> e'.children[i] == ToNode(parsed[i]))
              && (err.None? ==> forall i :: 0 <= i < |parsed| && parsed[i].HElement? ==>
                    Placed(ToNode(parsed[i]), placed[i], page.registry.Keys, InParent, true)
                    && Skeleton(e'.children[i]) == Skeleton(placed[i])
                    && (ToLower(parsed[i].tag) !in page.registry ==> Wired(e'.children[i], placed[i])))
      ensures var gone := Keys(TargetsChildren(old(At(root, p).value.children), InTree(p), 0));
              forall k :: k in old(elementRefs) && k !in gone ==> k in elementRefs && elementRefs[k] == old(elementRefs[k])
    {
      var text := RemoveAll(html, {'\t', '\n'});
      ClearChildren(p);
      UnsetRefsChildrenSpec(old(At(root, p).value.children), InTree(p), 0, old(elementRefs));
      err, placed := Refill(p, page.parse(text), fuel);
    }

    /**
     * The rest of `__setHtml` once the old children are cleared: the
     * element's children become the nodes parsed from the html, and each
     * new element child gets its components, refs and handlers in turn.
     */
    method Refill(p: Path, parsed: seq<Html>, fuel: nat) returns (err: Option<string>, ghost placed: seq<Node<Component>>)
      requires page.Valid() && this in page.all
      requires At(root, p).Some? && At(root, p).value.Element?
      modifies this`root, this`elementRefs, this`components, this`componentRefs, page, page.entries
      ensures page.Valid() && page.Grew() && Kept()
      ensures At(root, p).Some? && At(root, p).value.Element?
      ensures root == Replace(old(root), p, At(root, p).value)
      ensures var e, e' := old(At(root, p).value), At(root, p).value;
              e' == e.(children := e'.children) && |e'.children| == |parsed| == |placed|
              && (forall i :: 0 <= i < |parsed| && !parsed[i].HElement? ==> e'.children[i] == ToNode(parsed[i]))
              && (err.None? ==> forall i :: 0 <= i < |parsed| && parsed[i].HElement? ==>
                    Placed(ToNode(parsed[i]), placed[i], page.registry.Keys, InParent, true)
                    && Skeleton(e'.children[i]) == Skeleton(placed[i])
                    && (ToLower(parsed[i].tag) !in page.registry ==> Wired(e'.children[i], placed[i])))
      ensures forall k :: k in old(elementRefs) ==> k in elementRefs && elementRefs[k] == old(elementRefs[k])
    {
      var e := At(root, p).value;
      var kids := ToNodes(parsed);
      root := Replace(root, p, e.(children := kids));
      err, placed := SetChildren(p, kids, fuel);
      ReplaceTwice(old(root), p, e.(children := kids), At(root, p).value);
      ParsedChildren(parsed, kids, At(root, p).value.children, placed, page.registry.Keys, err.None?);
    }

    /** What `SetChildren` states of the nodes made from the parsed html, stated of the html itself. */
    lemma ParsedChildren(parsed: seq<Html>, kids: seq<Node<Component>>, now: seq<Node<Component>>,
                         placed: seq<Node<Component>>, keys: set<string>, ok: bool)
      requires kids == ToNodes(parsed) && |now| == |kids| == |placed|
      requires forall i :: 0 <= i < |kids| && !kids[i].Element? ==> now[i] == kids[i]
      requires ok ==> forall i :: 0 <= i < |kids| && kids[i].Element? ==>
                        Placed(kids[i], placed[i], keys, InParent, true) && Skeleton(now[i]) == Skeleton(placed[i])
                        && (ToLower(kids[i].tag) !in keys ==> Wired(now[i], placed[i]))
      ensures forall i :: 0 <= i < |parsed| && !parsed[i].HElement? ==> now[i] == ToNode(parsed[i])
      ensures ok ==> forall i :: 0 <= i < |parsed| && parsed[i].HElement? ==>
                       Placed(ToNode(parsed[i]), placed[i], keys, InParent, true) && Skeleton(now[i]) == Skeleton(placed[i])
                       && (ToLower(parsed[i].tag) !in keys ==> Wired(now[i], placed[i]))
    {
    }

    /**
     * The first loop of `__setHtml`: each child of the element at `p` has
     * its refs deleted, then `unsetComponents` runs on it.
     */
    method ClearChildren(p: Path)
      requires page.Valid() && this in page.all
      requires At(root, p).Some? && At(root, p).value.Element?
      modifies this`elementRefs, this`components, this`componentRefs, this`root, page`head, page`destroyed, page`kids, page.entries
      ensures page.Valid() && page.Grew()
      ensures elementRefs == UnsetRefsChildren(old(At(root, p).value.children), old(elementRefs))
      ensures root == old(root) && components == old(components) && componentRefs == old(componentRefs)
    {
      var cs := At(root, p).value.children;
      for i := 0 to |cs|
        invariant elementRefs == UnsetRefsChildren(cs[..i], old(elementRefs))
        invariant root == old(root) && components == old(components) && componentRefs == old(componentRefs)
        invariant page.Valid() && page.Grew()
      {
        UnsetRefsChildrenSnoc(cs[..i], cs[i], old(elementRefs));
        assert cs[..i + 1] == cs[..i] + [cs[i]];
        ClearChild(p + [i], cs[i]);
      }
      assert cs[..|cs|] == cs;
    }

    /** One turn of that loop, for the child `c` at `q`: `unsetComponents` deletes nothing below the root. */
    method ClearChild(q: Path, c: Node<Component>)
      requires page.Valid() && this in page.all && q != []
      modifies this`elementRefs, this`components, this`componentRefs, this`root, page`head, page`destroyed, page`kids, page.entries
      ensures page.Valid() && page.Grew()
      ensures elementRefs == UnsetRefs(c, old(elementRefs))
      ensures root == old(root) && components == old(components) && componentRefs == old(componentRefs)
    {
      elementRefs := UnsetRefs(c, elementRefs);
      UnsetComponents(q);
    }

    /**
     * `unsetComponents(node)` for the node at `q`: the loop over the
     * components tests whether `node` is this component's own root or
     * contains it, which does not depend on the component; when it holds,
     * the first component is deleted and the loop stops. With nodes named
     * by their paths from the root, both halves of that test (`node` is
     * the root; `node` is an ancestor of the root) mean `q == []`.
     */
    method UnsetComponents(q: Path)
      requires page.Valid() && this in page.all
      modifies this`components, this`componentRefs, this`root, page`head, page`destroyed, page`kids, page.entries
      ensures page.Valid()
      ensures q != [] || old(components) == [] ==>
                components == old(components) && componentRefs == old(componentRefs) && root == old(root) && page.Grew()
      ensures q == [] && old(components) != [] ==>
                var d := old(components)[0];
                components == Without(old(components), d)
                && componentRefs == (if d.ref != "" then old(componentRefs) - {d.ref} else old(componentRefs))
                && root == Unmount(old(root), d)
                && page.destroyed == old(page.destroyed) + DestroyOrder(page.kids, page.counter, d)
    {
      var i := 0;
      while i < |components|
        invariant 0 <= i <= |components|
        invariant i > 0 ==> q != []
        invariant unchanged(this) && unchanged(page) && unchanged(page.entries)
      {
        if q == [] {
          ghost var gone := DeleteComponent(components[i]);
          break;
        }
        i := i + 1;
      }
    }

    /**
     * The second loop of `__setHtml`: each element child of the element at
     * `p`, whose children are `kids`, in turn (`SetChild`).
     */
    method SetChildren(p: Path, kids: seq<Node<Component>>, fuel: nat) returns (err: Option<string>, ghost placed: seq<Node<Component>>)
      requires page.Valid() && this in page.all
      requires At(root, p).Some? && At(root, p).value.Element? && At(root, p).value.children == kids
      modifies this`root, this`elementRefs, this`components, this`componentRefs, page, page.entries
      ensures page.Valid() && page.Grew() && Kept()
      ensures At(root, p).Some? && At(root, p).value.Element?
      ensures root == Replace(old(root), p, At(root, p).value)
      ensures var e, e' := old(At(root, p).value), At(root, p).value;
              e' == e.(children := e'.children) && |e'.children| == |kids| == |placed|
              && (forall i :: 0 <= i < |kids| && !kids[i].Element? ==> e'.children[i] == kids[i])
              && (err.None? ==> forall i :: 0 <= i < |kids| && kids[i].Element? ==>
                    Placed(kids[i], placed[i], page.registry.Keys, InParent, true) && Skeleton(e'.children[i]) == Skeleton(placed[i]))
              && (err.None? ==> forall i :: 0 <= i < |kids| && kids[i].Element? && ToLower(kids[i].tag) !in page.registry ==>
                    Wired(e'.children[i], placed[i]))
      ensures forall k :: k in old(elementRefs) ==> k in elementRefs && elementRefs[k] == old(elementRefs[k])
    {
      ghost var e := At(root, p).value;
      ReplaceSame(root, p);
      placed := kids;
      err := None;
      var i := 0;
      while i < |kids|
        invariant 0 <= i <= |kids| && |placed| == |kids|
        invariant page.Valid() && page.Grew() && Kept() && this in page.all
        invariant At(root, p).Some? && At(root, p).value.Element?
        invariant At(root, p).value == e.(children := At(root, p).value.children)
        invariant root == Replace(old(root), p, At(root, p).value)
        invariant ChildrenSet(kids, At(root, p).value.children, placed, i, page.registry.Keys)
        invariant forall k :: k in old(elementRefs) ==> k in elementRefs && elementRefs[k] == old(elementRefs[k])
      {
        if kids[i].Element? {
          ghost var now := At(root, p).value.children;
          ghost var before := At(root, p).value;
          ghost var x, wired;
          err, x, wired := SetChild(p, i, fuel);
          ReplaceTwice(old(root), p, before, At(root, p).value);
          ChildrenSetStep(kids, now, At(root, p).value.children, placed, x, i, page.registry.Keys, err.None?);
          placed := placed[i := x];
          if err.Some? {
            return;
          }
        } else {
          ChildrenSetSkip(kids, At(root, p).value.children, placed, i, page.registry.Keys);
        }
        i := i + 1;
      }
    }

    /**
     * The first `i` of `kids` have had their components placed and, where
     * they stayed elements of this component, their refs and handlers set:
     * `now` holds the resulting children and `placed` what was put in.
     */
    ghost predicate ChildrenSet(kids: seq<Node<Component>>, now: seq<Node<Component>>, placed: seq<Node<Component>>,
                                i: nat, keys: set<string>)
      reads this`fieldsReady
    {
      i <= |kids| && |now| == |kids| && |placed| == |kids|
      && (forall j :: 0 <= j < |kids| && (j >= i || !kids[j].Element?) ==> now[j] == kids[j])
      && (forall j :: 0 <= j < i && kids[j].Element? ==>
            Placed(kids[j], placed[j], keys, InParent, true) && Skeleton(now[j]) == Skeleton(placed[j])
            && (ToLower(kids[j].tag) !in keys ==> Wired(now[j], placed[j])))
    }

    /** Setting child `i` extends `ChildrenSet` by one, as long as that child's turn succeeded. */
    lemma ChildrenSetStep(kids: seq<Node<Component>>, now: seq<Node<Component>>, now': seq<Node<Component>>,
                          placed: seq<Node<Component>>, x: Node<Component>, i: nat, keys: set<string>, ok: bool)
      requires ChildrenSet(kids, now, placed, i, keys) && i < |kids| && kids[i].Element? && now[i] == kids[i]
      requires |now'| == |now| && forall j :: 0 <= j < |now| && j != i ==> now'[j] == now[j]
      requires ok ==> Placed(kids[i], x, keys, InParent, true) && Skeleton(now'[i]) == Skeleton(x)
                      && (ToLower(kids[i].tag) !in keys ==> Wired(now'[i], x))
      ensures ok ==> ChildrenSet(kids, now', placed[i := x], i + 1, keys)
      ensures |now'| == |kids| && |placed[i := x]| == |kids|
      ensures forall j :: 0 <= j < |kids| && !kids[j].Element? ==> now'[j] == kids[j]
    {
    }

    /** A child that is not an element is left as it is and extends `ChildrenSet` by one. */
    lemma ChildrenSetSkip(kids: seq<Node<Component>>, now: seq<Node<Component>>, placed: seq<Node<Component>>,
                          i: nat, keys: set<string>)
      requires ChildrenSet(kids, now, placed, i, keys) && i < |kids| && !kids[i].Element?
      ensures ChildrenSet(kids, now, placed, i + 1, keys)
    {
    }

    /**
     * One turn of the second loop of `__setHtml`: the child `i` of the
     * element at `p` gets its components (`placed`); then refs and event
     * handlers are set on that same element, which is the detached
     * placeholder, keeping the child nodes the move loop left, when it was
     * replaced by a component (its listeners are then lost with it).
     */
    method SetChild(p: Path, i: nat, fuel: nat) returns (err: Option<string>, ghost placed: Node<Component>, ghost wired: bool)
      requires page.Valid() && this in page.all
      requires At(root, p).Some? && At(root, p).value.Element? && i < |At(root, p).value.children|
      requires At(root, p).value.children[i].Element?
      modifies this`root, this`elementRefs, this`components, this`componentRefs, page, page.entries
      ensures page.Valid() && page.Grew() && Kept()
      ensures At(root, p).Some? && OnlyChildChanged(old(At(root, p).value), At(root, p).value, i)
      ensures root == Replace(old(root), p, At(root, p).value)
      ensures forall k :: k in old(elementRefs) ==> k in elementRefs && elementRefs[k] == old(elementRefs[k])
      ensures var c := old(At(root, p).value.children[i]);
              var target := if ToLower(c.tag) in page.registry then c.(children := Odds(c.children)) else placed;
              var loc := if ToLower(c.tag) in page.registry then Detached(target, []) else InTree(p + [i]);
              err.None? ==>
                Placed(c, placed, page.registry.Keys, InParent, true)
                && Skeleton(At(root, p).value.children[i]) == Skeleton(placed)
                && elementRefs == SetRefs(target, loc, old(elementRefs)).refs
      ensures !wired ==> err.Some? && elementRefs == old(elementRefs)
                         && Placed(old(At(root, p).value.children[i]), placed, page.registry.Keys, InParent, false)
      ensures var c := old(At(root, p).value.children[i]);
              var target := if ToLower(c.tag) in page.registry then c.(children := Odds(c.children)) else placed;
              var loc := if ToLower(c.tag) in page.registry then Detached(target, []) else InTree(p + [i]);
              var w := SetRefs(target, loc, old(elementRefs));
              wired ==>
                Placed(c, placed, page.registry.Keys, InParent, true)
                && elementRefs == w.refs
                && (w.clash.Some? ==> err == Some("The element ref \"" + w.clash.value + "\" has already been used."))
                && (w.clash.None? && target.Element? && ScanEvents(target.attrs, cls, fieldsReady, this, Id(target)).error.Some? ==>
                      err == ScanEvents(target.attrs, cls, fieldsReady, this, Id(target)).error)
      ensures err.None? && ToLower(old(At(root, p).value.children[i]).tag) !in page.registry ==>
                Wired(At(root, p).value.children[i], placed)
    {
      AtChild(root, p, i);
      var x, placeholder, err1 := PlaceComponents(p + [i], InParent, fuel);
      placed := x;
      AtReplaceChild(old(root), p, i, x);
      ghost var e := old(At(root, p).value);
      ReplaceChild(old(root), p, i, x);
      wired := err1.None?;
      if err1.Some? {
        return err1, placed, wired;
      }
      err := Attach(p, i, x, placeholder);
      ReplaceTwice(old(root), p, e.(children := e.children[i := x]), At(root, p).value);
    }

    /**
     * The rest of that turn: refs and event handlers on the child `i` of
     * the element at `p`, `placed`, or on the placeholder it replaced.
     */
    method Attach(p: Path, i: nat, placed: Node<Component>, placeholder: Option<Node<Component>>) returns (err: Option<string>)
      requires At(root, p).Some? && At(root, p).value.Element? && i < |At(root, p).value.children|
      requires placeholder.None? ==> At(root, p).value.children[i] == placed
      modifies this`root, this`elementRefs
      ensures At(root, p).Some? && OnlyChildChanged(old(At(root, p).value), At(root, p).value, i)
      ensures forall k :: k in old(elementRefs) ==> k in elementRefs && elementRefs[k] == old(elementRefs[k])
      ensures var target := if placeholder.Some? then placeholder.value else placed;
              var loc := if placeholder.Some? then Detached(target, []) else InTree(p + [i]);
              elementRefs == SetRefs(target, loc, old(elementRefs)).refs
              && (SetRefs(target, loc, old(elementRefs)).clash.Some? ==>
                    err == Some("The element ref \"" + SetRefs(target, loc, old(elementRefs)).clash.value + "\" has already been used."))
      ensures placeholder.Some? ==> root == old(root)
      ensures placeholder.None? ==> At(old(root), p + [i]).Some? && At(root, p + [i]).Some?
                                    && root == Replace(old(root), p + [i], At(root, p + [i]).value)
      ensures root == Replace(old(root), p, At(root, p).value)
      ensures Skeleton(At(root, p).value.children[i]) == Skeleton(old(At(root, p).value.children[i]))
      ensures var target := if placeholder.Some? then placeholder.value else placed;
              var loc := if placeholder.Some? then Detached(target, []) else InTree(p + [i]);
              SetRefs(target, loc, old(elementRefs)).clash.None? && target.Element?
              && ScanEvents(target.attrs, cls, fieldsReady, this, Id(target)).error.Some? ==>
                err == ScanEvents(target.attrs, cls, fieldsReady, this, Id(target)).error
      ensures placeholder.None? && err.None? ==> Wired(At(root, p).value.children[i], placed)
    {
      var target, loc := placed, InTree(p + [i]);
      if placeholder.Some? {
        target, loc := placeholder.value, Detached(placeholder.value, []);
      }
      var d, refs;
      d, refs, err := Wire(target, loc, elementRefs);
      elementRefs := refs;
      if placeholder.None? {
        AtReplaceChild(root, p, i, d);
        ReplaceChild(root, p, i, d);
        root := Replace(root, p + [i], d);
      } else {
        ReplaceSame(root, p);
      }
    }

    /**
     * `__insertComponent(ComponentType, parentNode, beforeChild, params)`
     * with the parent at `parent` in this tree and `beforeChild` its child
     * `before` (none: append). The component is made and listed first, so a
     * failing insertion leaves it listed but not in the tree.
     */
    method InsertComponent(t: ComponentClass, parent: Path, before: Option<nat>, params: Params, fuel: nat)
      returns (r: Result<Component>)
      requires page.Valid() && this in page.all
      requires At(root, parent).Some? && !At(root, parent).value.Mount?
      modifies this`root, this`components, this`componentRefs, page, page.entries
      ensures page.Valid() && page.Grew()
      ensures Key(t) !in page.registry ==> r == Err("The component \"" + ClassName(t) + "\" has not been registered.")
      ensures r.Ok? ==> fresh(r.value) && r.value.cls == t
                        && r.value in components && r.value !in old(components)
                        && Inserted(old(root), parent, before, r.value, root)
                        && componentRefs == (if params.ref != "" then old(componentRefs)[params.ref := r.value] else old(componentRefs))
      ensures !old(At(root, parent).value).Element? ==> r.Err?
      ensures old(At(root, parent).value).Element? && before.Some? && before.value >= |old(At(root, parent).value).children| ==> r.Err?
    {
      var made, settled, obj := Create(page, t, params, fuel);
      if made.Err? {
        return made;
      }
      r := Insert(made.value, parent, before, params.ref);
    }

    /**
     * The rest of `__insertComponent`: `c` is listed, its root goes into
     * the parent (a DOM error when the parent is no element or `before` no
     * child of it), then its `ref` is recorded.
     */
    method Insert(c: Component, parent: Path, before: Option<nat>, ref: string) returns (r: Result<Component>)
      requires page.Valid() && this in page.all && c in page.all && serial < c.serial
      requires At(root, parent).Some?
      modifies this`root, this`components, this`componentRefs, page`kids
      ensures page.Valid() && page.Grew()
      ensures components == if c in old(components) then old(components) else old(components) + [c]
      ensures var e := old(At(root, parent).value);
              if !e.Element? then r == Err("HierarchyRequestError") && root == old(root) && componentRefs == old(componentRefs)
              else if before.Some? && before.value >= |e.children| then
                r == Err("NotFoundError") && root == old(root) && componentRefs == old(componentRefs)
              else
                r == Ok(c) && Inserted(old(root), parent, before, c, root)
                && componentRefs == (if ref != "" then old(componentRefs)[ref := c] else old(componentRefs))
    {
      Adopt(c);
      var e := At(root, parent).value;
      if !e.Element? {
        return Err("HierarchyRequestError");
      }
      if before.Some? && before.value >= |e.children| {
        return Err("NotFoundError");
      }
      root := Replace(root, parent, e.(children := InsertNode(e.children, before, Mount(c))));
      if ref != "" {
        componentRefs := componentRefs[ref := c];
      }
      r := Ok(c);
    }

    /**
     * `__deleteComponent(component)`: nothing unless it is one of this
     * component's; otherwise its `ref` entry goes, it leaves the list and
     * the tree, and it is destroyed.
     */
    method DeleteComponent(d: Component) returns (ghost gone: set<StyleElement>)
      requires page.Valid() && this in page.all
      modifies this`components, this`componentRefs, this`root, page`head, page`destroyed, page`kids, page.entries
      ensures page.Valid()
      ensures d !in old(components) ==>
                components == old(components) && componentRefs == old(componentRefs) && root == old(root)
                && page.destroyed == old(page.destroyed) && page.head == old(page.head)
      ensures d in old(components) ==>
                components == Without(old(components), d)
                && componentRefs == (if d.ref != "" then old(componentRefs) - {d.ref} else old(componentRefs))
                && root == Unmount(old(root), d)
                && d in page.all && page.destroyed == old(page.destroyed) + DestroyOrder(page.kids, page.counter, d)
                && Shed(Releases(DestroyOrder(page.kids, page.counter, d)), old(page.head), old(CountsOf(page.entries)),
                        old(ElemsOf(page.entries)), page.head, CountsOf(page.entries), ElemsOf(page.entries), gone)
      ensures forall e :: e in page.entries ==> e.styleCount <= old(e.styleCount)
    {
      gone := {};
      if d !in components {
        return;
      }
      gone := Remove(d);
    }

    /** `__deleteComponent` on one of this component's own. */
    method Remove(d: Component) returns (ghost gone: set<StyleElement>)
      requires page.Valid() && this in page.all && d in components
      modifies this`components, this`componentRefs, this`root, page`head, page`destroyed, page`kids, page.entries
      ensures page.Valid()
      ensures components == Without(old(components), d)
      ensures componentRefs == (if d.ref != "" then old(componentRefs) - {d.ref} else old(componentRefs))
      ensures root == Unmount(old(root), d)
      ensures d in page.all && page.destroyed == old(page.destroyed) + DestroyOrder(page.kids, page.counter, d)
      ensures Shed(Releases(DestroyOrder(page.kids, page.counter, d)), old(page.head), old(CountsOf(page.entries)),
                   old(ElemsOf(page.entries)), page.head, CountsOf(page.entries), ElemsOf(page.entries), gone)
      ensures forall e :: e in page.entries ==> e.styleCount <= old(e.styleCount)
    {
      Disown(d);
      SnapshotsKept(page.entries);
      gone := d.Destroy();
    }

    /** The bookkeeping half of `__deleteComponent`: `d` leaves the refs, the list and the tree. */
    method Disown(d: Component)
      requires page.Valid() && this in page.all && d in components
      modifies this`components, this`componentRefs, this`root, page`kids
      ensures page.Valid() && d in page.all
      ensures components == Without(old(components), d)
      ensures componentRefs == (if d.ref != "" then old(componentRefs) - {d.ref} else old(componentRefs))
      ensures root == Unmount(old(root), d)
    {
      if d.ref != "" {
        componentRefs := componentRefs - {d.ref};
      }
      components := Without(components, d);
      page.kids := page.kids[this := components];
      root := Unmount(root, d);
    }

    /**
     * `__destroy()`: every child component is destroyed, in order, then the
     * use count of each ancestor entry's style drops (see `ReleaseStyles`).
     * `page.destroyed` logs the components destroyed, in order.
     */
    method Destroy() returns (ghost gone: set<StyleElement>)
      requires page.Valid() && this in page.all
      modifies page`head, page`destroyed, page.entries
      ensures page.Valid()
      ensures page.destroyed == old(page.destroyed) + DestroyOrder(page.kids, page.counter, this)
      ensures forall e :: e in page.entries ==> e.styleCount <= old(e.styleCount)
      ensures Shed(Releases(DestroyOrder(page.kids, page.counter, this)), old(page.head), old(CountsOf(page.entries)), old(ElemsOf(page.entries)),
                   page.head, CountsOf(page.entries), ElemsOf(page.entries), gone)
      decreases page.counter - serial, 2
    {
      ghost var order := DestroyOrderAll(page.kids, page.counter, components, serial);
      ghost var h0, c0, e0 := page.head, CountsOf(page.entries), ElemsOf(page.entries);
      page.HeldNow();
      ghost var inner := DestroyChildren();
      assert DestroyOrder(page.kids, page.counter, this) == order + [this];
      AppendAssoc(old(page.destroyed), order, [this]);
      gone := ReleaseOwn(order, h0, c0, e0, inner);
      label released:
      Record();
      SnapshotsKept@released(page.entries);
      ReleasesAppend(order, [this]);
      assert Releases([this]) == multiset(entry.Ancestors()) by {
        assert [this][..0] == [];
      }
    }

    /** The style loop of `__destroy`, after the children's releases `order` made from `h0`, `c0`, `e0`. */
    method ReleaseOwn(ghost order: seq<Component>, ghost h0: seq<StyleElement>, ghost c0: map<RegistryEntry, int>,
                      ghost e0: map<RegistryEntry, Option<StyleElement>>, ghost inner: set<StyleElement>)
      returns (ghost gone: set<StyleElement>)
      requires page.Valid() && this in page.all && Held(c0, e0)
      requires Shed(Releases(order), h0, c0, e0, page.head, CountsOf(page.entries), ElemsOf(page.entries), inner)
      modifies page`head, page.entries
      ensures page.Valid()
      ensures forall e :: e in page.entries ==> e.styleCount <= old(e.styleCount)
      ensures Shed(Releases(order) + multiset(entry.Ancestors()), h0, c0, e0, page.head, CountsOf(page.entries), ElemsOf(page.entries), gone)
    {
      ghost var h1, c1, e1 := page.head, CountsOf(page.entries), ElemsOf(page.entries);
      page.HeldNow();
      ghost var own := page.ReleaseShed(entry.Ancestors());
      ShedTrans(Releases(order), multiset(entry.Ancestors()), h0, c0, e0, h1, c1, e1, page.head, CountsOf(page.entries), ElemsOf(page.entries), inner, own);
      gone := inner + own;
    }

    /** The log of destroyed components gains this one. */
    method Record()
      requires page.Valid()
      modifies page`destroyed
      ensures page.Valid() && page.destroyed == old(page.destroyed) + [this]
    {
      page.destroyed := page.destroyed + [this];
    }

    /** The loop of `__destroy` over the child components. */
    method DestroyChildren() returns (ghost gone: set<StyleElement>)
      requires page.Valid() && this in page.all
      modifies page`head, page`destroyed, page.entries
      ensures page.Valid()
      ensures page.destroyed == old(page.destroyed) + DestroyOrderAll(page.kids, page.counter, components, serial)
      ensures forall e :: e in page.entries ==> e.styleCount <= old(e.styleCount)
      ensures Shed(Releases(DestroyOrderAll(page.kids, page.counter, components, serial)), old(page.head), old(CountsOf(page.entries)),
                   old(ElemsOf(page.entries)), page.head, CountsOf(page.entries), ElemsOf(page.entries), gone)
      decreases page.counter - serial, 1
    {
      ghost var start := page.destroyed;
      ghost var h0, c0, e0 := page.head, CountsOf(page.entries), ElemsOf(page.entries);
      page.HeldNow();
      ShedNone(h0, c0, e0);
      gone := {};
      var i := 0;
      while i < |components|
        invariant 0 <= i <= |components|
        invariant page.Valid()
        invariant page.destroyed == start + DestroyOrderAll(page.kids, page.counter, components[..i], serial)
        invariant forall e :: e in page.entries ==> e.styleCount <= old(e.styleCount)
        invariant Shed(Releases(DestroyOrderAll(page.kids, page.counter, components[..i], serial)), h0, c0, e0,
                       page.head, CountsOf(page.entries), ElemsOf(page.entries), gone)
      {
        gone := DestroyChild(i, start, h0, c0, e0, gone);
        i := i + 1;
      }
      assert components[..i] == components;
    }

    /** One turn of that loop: the child at `i` is destroyed, and its subtree logged. */
    method DestroyChild(i: nat, ghost start: seq<Component>, ghost h0: seq<StyleElement>, ghost c0: map<RegistryEntry, int>,
                        ghost e0: map<RegistryEntry, Option<StyleElement>>, ghost gone: set<StyleElement>)
      returns (ghost gone': set<StyleElement>)
      requires page.Valid() && this in page.all && i < |components|
      requires page.destroyed == start + DestroyOrderAll(page.kids, page.counter, components[..i], serial)
      requires Held(c0, e0)
      requires Shed(Releases(DestroyOrderAll(page.kids, page.counter, components[..i], serial)), h0, c0, e0,
                    page.head, CountsOf(page.entries), ElemsOf(page.entries), gone)
      modifies page`head, page`destroyed, page.entries
      ensures page.Valid()
      ensures page.destroyed == start + DestroyOrderAll(page.kids, page.counter, components[..i + 1], serial)
      ensures forall e :: e in page.entries ==> e.styleCount <= old(e.styleCount)
      ensures Shed(Releases(DestroyOrderAll(page.kids, page.counter, components[..i + 1], serial)), h0, c0, e0,
                   page.head, CountsOf(page.entries), ElemsOf(page.entries), gone')
      decreases page.counter - serial, 0
    {
      DestroyOrderAllSnoc(page.kids, page.counter, components, serial, i);
      ghost var done := DestroyOrderAll(page.kids, page.counter, components[..i], serial);
      ghost var next := DestroyOrder(page.kids, page.counter, components[i]);
      ghost var h1, c1, e1 := page.head, CountsOf(page.entries), ElemsOf(page.entries);
      page.HeldNow();
      ghost var g := components[i].Destroy();
      AppendAssoc(start, done, next);
      ShedTrans(Releases(done), Releases(next), h0, c0, e0, h1, c1, e1, page.head, CountsOf(page.entries), ElemsOf(page.entries), gone, g);
      ReleasesAppend(done, next);
      gone' := gone + g;
    }

    /** `__hasElement(ref)`. */
    predicate HasElement(name: string)
      reads this
      ensures HasElement(name) <==> name in elementRefs
    {
      name in elementRefs
    }

    /** `__element(ref)`: the element, or a `ReferenceError` when the ref is not known. */
    function GetElement(name: string): (r: Result<ElemRef<Component>>)
      reads this
      ensures r.Ok? <==> HasElement(name)
      ensures r.Ok? ==> r.value == elementRefs[name]
      ensures r.Err? ==> r.msg == "ReferenceError"
    {
      if name in elementRefs then Ok(elementRefs[name]) else Err("ReferenceError")
    }

    /** `__hasComponent(ref)`. */
    predicate HasComponent(name: string)
      reads this
      ensures HasComponent(name) <==> name in componentRefs
    {
      name in componentRefs
    }

    /** `__component(ref)`: the component, or a `ReferenceError` when the ref is not known. */
    function GetComponent(name: string): (r: Result<Component>)
      reads this
      ensures r.Ok? <==> HasComponent(name)
      ensures r.Ok? ==> r.value == componentRefs[name]
      ensures r.Err? ==> r.msg == "ReferenceError"
    {
      if name in componentRefs then Ok(componentRefs[name]) else Err("ReferenceError")
    }
  }
}

=== FILE: cookies.dfy ===
/**
 * `Cookies` of `src/cookies.ts`. The `document.cookie` string is a
 * parameter of `Get` and the assignment string is the result of `Set`;
 * `encodeURIComponent` and `decodeURIComponent` are parameters too, the
 * latter failing (`None`) where the browser throws a `URIError`.
 *
 * To state the round trip, the browser's side is modelled minimally as a
 * jar of name/value pairs: reading `document.cookie` gives the pairs joined
 * by "; ", and assigning it stores the leading `name=value` pair.
 */
module CookiesModel {
  import opened Wrappers
  import opened Strings

  /** Whether a `document.cookie` entry is the one `get` looks for. */
  predicate Matches(entry: string, name: string) {
    StartsWith(Trim(entry), name + "=")
  }

  /** `Array.prototype.find` on the entries: the first match, or `|entries|` when none. */
  function FindEntry(entries: seq<string>, name: string): (k: nat)
    ensures k <= |entries|
    ensures k < |entries| ==> Matches(entries[k], name)
    ensures forall i :: 0 <= i < k ==> !Matches(entries[i], name)
  {
    if entries == [] then 0
    else if Matches(entries[0], name) then 0
    else 1 + FindEntry(entries[1..], name)
  }

  /**
   * `Cookies.get`: split the cookie string on ';', take the first entry whose
   * trimmed text starts with `name=`, and decode what lies between its first
   * and second '='.
   */
  function Get(cookie: string, name: string, decode: string -> Option<string>): (r: Result<Option<string>>)
    ensures r.Err? ==> r.msg == "URIError: malformed URI sequence"
    ensures r == Ok(None) ==> forall i :: 0 <= i < |Split(cookie, ';')| ==> !Matches(Split(cookie, ';')[i], name)
  {
    var entries := Split(cookie, ';');
    var k := FindEntry(entries, name);
    if k == |entries| then Ok(None)
    else
      var parts := Split(entries[k], '=');
      var raw := if |parts| >= 2 then parts[1] else "undefined";
      Decoded(decode(raw))
  }

  /** The outcome of `decodeURIComponent`: a found value, or the `URIError` it throws. */
  function Decoded(d: Option<string>): (r: Result<Option<string>>)
    ensures r.Ok? <==> d.Some?
    ensures d.Some? ==> r == Ok(Some(d.value))
  {
    match d
    case None => Err("URIError: malformed URI sequence")
    case Some(v) => Ok(Some(v))
  }

  /** `Cookies.set`: the string assigned to `document.cookie`. */
  function Set(name: string, content: string, maxAge: int, encode: string -> string): (r: string)
    ensures var pair := name + "=" + encode(content);
            |pair| < |r| && r[..|pair|] == pair && r[|pair|] == ';'
  {
    name + "=" + encode(content) + ";max-age=" + IntToString(maxAge) + ";path=/;secure"
  }

  /** A matching entry always holds a '=', so `split('=')[1]` is a real piece. */
  lemma MatchHasValuePiece(entry: string, name: string)
    requires Matches(entry, name)
    ensures |Split(entry, '=')| >= 2
  {
    var t := Trim(entry);
    var a := |entry| - |TrimStart(entry)|;
    TrimSlice(entry);
    assert t == entry[a..][..|t|];
    assert t[|name|] == '=';
    assert entry[a + |name|] == '=';
    assert IndexOf(entry, '=') <= a + |name|;
  }

  /** `get` finds nothing exactly when no entry matches. */
  lemma GetMissing(cookie: string, name: string, decode: string -> Option<string>)
    ensures Get(cookie, name, decode) == Ok(None) <==>
              forall i :: 0 <= i < |Split(cookie, ';')| ==> !Matches(Split(cookie, ';')[i], name)
  {
    var entries := Split(cookie, ';');
    var k := FindEntry(entries, name);
    if k < |entries| {
      MatchHasValuePiece(entries[k], name);
      var d := Decoded(decode(Split(entries[k], '=')[1]));
      assert Get(cookie, name, decode) == d;
      assert d != Ok(None);
      assert Matches(Split(cookie, ';')[k], name);
    } else {
      assert Get(cookie, name, decode) == Ok(None);
    }
  }

  /**
   * When entry `k` is the first to match, `get` decodes the text between that
   * entry's first and second '='.
   */
  lemma GetFirstMatch(cookie: string, name: string, decode: string -> Option<string>, k: nat)
    requires k < |Split(cookie, ';')| && Matches(Split(cookie, ';')[k], name)
    requires forall i :: 0 <= i < k ==> !Matches(Split(cookie, ';')[i], name)
    ensures |Split(Split(cookie, ';')[k], '=')| >= 2
    ensures var raw := Split(Split(cookie, ';')[k], '=')[1];
            Get(cookie, name, decode) == Decoded(decode(raw))
  {
    var entries := Split(cookie, ';');
    MatchHasValuePiece(entries[k], name);
    var f := FindEntry(entries, name);
    assert f == k;
    var parts := Split(entries[k], '=');
    assert Get(cookie, name, decode) == Decoded(decode(parts[1]));
  }

  // The browser side.

  datatype Cookie = Cookie(name: string, value: string)

  function Pair(c: Cookie): string {
    c.name + "=" + c.value
  }

  /** Reading `document.cookie`: the pairs joined by "; ". */
  function Header(jar: seq<Cookie>): string {
    if jar == [] then ""
    else if |jar| == 1 then Pair(jar[0])
    else Pair(jar[0]) + "; " + Header(jar[1..])
  }

  /** Assigning `document.cookie`: the pair before the first ';' replaces the cookie of that name, or is appended. */
  function Store(jar: seq<Cookie>, assignment: string): seq<Cookie> {
    var pair := assignment[..IndexOf(assignment, ';')];
    var k := IndexOf(pair, '=');
    if k == |pair| then jar else Put(jar, Cookie(pair[..k], pair[k + 1..]))
  }

  function Put(jar: seq<Cookie>, c: Cookie): (r: seq<Cookie>)
    ensures forall x :: x in r ==> x in jar || x == c
    ensures forall x :: x in jar && x.name != c.name ==> x in r
  {
    if jar == [] then [c]
    else if jar[0].name == c.name then [c] + jar[1..]
    else [jar[0]] + Put(jar[1..], c)
  }

  predicate NoChar(s: string, c: char) {
    forall i :: 0 <= i < |s| ==> s[i] != c
  }

  /** A cookie name `get` can find: non-empty, without '=', ';' or whitespace. */
  predicate GoodName(name: string) {
    name != [] && NoChar(name, '=') && NoChar(name, ';')
    && forall i :: 0 <= i < |name| ==> !IsWhitespace(name[i])
  }

  /** The jar the browser keeps: one cookie per name, no ';' inside a pair. */
  predicate GoodJar(jar: seq<Cookie>) {
    (forall i :: 0 <= i < |jar| ==> GoodName(jar[i].name) && NoChar(jar[i].value, ';'))
    && (forall i, j :: 0 <= i < j < |jar| ==> jar[i].name != jar[j].name)
  }

  lemma PutKeepsGood(jar: seq<Cookie>, c: Cookie) returns (i: nat)
    requires GoodJar(jar) && GoodName(c.name) && NoChar(c.value, ';')
    ensures GoodJar(Put(jar, c))
    ensures i < |Put(jar, c)| && Put(jar, c)[i] == c
    decreases |jar|
  {
    if jar == [] {
      i := 0;
    } else if jar[0].name == c.name {
      i := 0;
    } else {
      var j := PutKeepsGood(jar[1..], c);
      i := j + 1;
      var r := Put(jar, c);
      forall a, b | 0 <= a < b < |r| ensures r[a].name != r[b].name {
        if a == 0 {
          assert r[b] in Put(jar[1..], c);
          assert r[b] in jar[1..] || r[b] == c;
        }
      }
    }
  }

  lemma {:induction false} HeaderSplit(pre: string, jar: seq<Cookie>)
    requires |jar| >= 1 && NoChar(pre, ';')
    requires forall i :: 0 <= i < |jar| ==> NoChar(Pair(jar[i]), ';')
    ensures |Split(pre + Header(jar), ';')| == |jar|
    ensures Split(pre + Header(jar), ';')[0] == pre + Pair(jar[0])
    ensures forall i :: 1 <= i < |jar| ==> Split(pre + Header(jar), ';')[i] == " " + Pair(jar[i])
    decreases |jar|
  {
    var first := pre + Pair(jar[0]);
    assert NoChar(first, ';');
    if |jar| == 1 {
      IndexOfAbsent(first, ';');
    } else {
      var rest := " " + Header(jar[1..]);
      var s := pre + Header(jar);
      assert s == first + [';'] + rest;
      IndexOfAfterPrefix(first, ';', rest);
      assert s[..|first|] == first;
      assert s[|first| + 1..] == rest;
      var parts := Split(s, ';');
      assert parts[0] == first && parts[1..] == Split(rest, ';');
      HeaderSplit(" ", jar[1..]);
      forall i | 1 <= i < |jar|
        ensures parts[i] == " " + Pair(jar[i])
      {
        assert parts[i] == Split(rest, ';')[i - 1];
        assert jar[1..][i - 1] == jar[i];
      }
    }
  }

  lemma TrimStartAfterBlank(pre: string, s: string)
    requires pre == "" || pre == " "
    requires s != [] && !IsWhitespace(s[0])
    ensures TrimStart(pre + s) == s
  {
    if pre == " " {
      assert (pre + s)[1..] == s;
    } else {
      assert pre + s == s;
    }
  }

  lemma TrimEndKeepsPrefix(s: string, p: string)
    requires StartsWith(s, p) && p != [] && !IsWhitespace(p[|p| - 1])
    ensures StartsWith(TrimEnd(s), p)
  {
    assert !IsWhitespace(s[|p| - 1]);
  }

  lemma SameNameBeforeEquals(t: string, a: string, b: string)
    requires StartsWith(t, a + "=") && StartsWith(t, b + "=")
    requires NoChar(a, '=') && NoChar(b, '=')
    ensures a == b
  {
    assert t[|a|] == (a + "=")[|a|] == '=';
    assert t[|b|] == (b + "=")[|b|] == '=';
    assert forall i :: 0 <= i < |a| ==> t[i] == (a + "=")[i] == a[i];
    assert forall i :: 0 <= i < |b| ==> t[i] == (b + "=")[i] == b[i];
    assert a == t[..|a|] == b;
  }

  /** A jar entry matches `name` exactly when it is the cookie of that name. */
  lemma MatchIff(pre: string, c: Cookie, name: string)
    requires pre == "" || pre == " "
    requires GoodName(c.name) && GoodName(name)
    ensures Matches(pre + Pair(c), name) <==> c.name == name
  {
    var s := Pair(c);
    assert s[0] == c.name[0];
    TrimStartAfterBlank(pre, s);
    assert Trim(pre + s) == TrimEnd(s);
    assert StartsWith(s, c.name + "=");
    TrimEndKeepsPrefix(s, c.name + "=");
    if Matches(pre + s, name) {
      SameNameBeforeEquals(TrimEnd(s), c.name, name);
    }
  }

  /** The value piece of a jar entry is the cookie's value when that holds no '='. */
  lemma ValuePiece(pre: string, c: Cookie)
    requires pre == "" || pre == " "
    requires NoChar(c.name, '=') && NoChar(c.value, '=')
    ensures |Split(pre + Pair(c), '=')| == 2 && Split(pre + Pair(c), '=')[1] == c.value
  {
    assert NoChar(pre, '=');
    var p := pre + c.name;
    assert pre + Pair(c) == p + ['='] + c.value;
    IndexOfAfterPrefix(p, '=', c.value);
    assert (p + ['='] + c.value)[|p| + 1..] == c.value;
    IndexOfAbsent(c.value, '=');
  }

  /** The entries `get` sees in a jar's cookie string: the pairs, all but the first after a blank. */
  lemma JarEntries(jar: seq<Cookie>)
    requires GoodJar(jar) && |jar| >= 1
    ensures |Split(Header(jar), ';')| == |jar|
    ensures forall i :: 0 <= i < |jar| ==> Split(Header(jar), ';')[i] == (if i == 0 then "" else " ") + Pair(jar[i])
  {
    forall i | 0 <= i < |jar| ensures NoChar(Pair(jar[i]), ';') {
      assert Pair(jar[i]) == jar[i].name + "=" + jar[i].value;
    }
    assert "" + Header(jar) == Header(jar);
    HeaderSplit("", jar);
    assert "" + Pair(jar[0]) == Pair(jar[0]);
  }

  /** In a jar's cookie string only the entry of the cookie with that name matches. */
  lemma JarMatches(jar: seq<Cookie>, k: nat)
    requires GoodJar(jar) && k < |jar|
    ensures |Split(Header(jar), ';')| == |jar|
    ensures forall i :: 0 <= i < |jar| ==> (Matches(Split(Header(jar), ';')[i], jar[k].name) <==> i == k)
  {
    JarEntries(jar);
    var entries := Split(Header(jar), ';');
    forall i | 0 <= i < |jar| ensures Matches(entries[i], jar[k].name) <==> i == k {
      MatchIff(if i == 0 then "" else " ", jar[i], jar[k].name);
    }
  }

  /** Reading a jar finds the cookie of that name and decodes its value. */
  lemma GetFromJar(jar: seq<Cookie>, k: nat, decode: string -> Option<string>)
    requires GoodJar(jar) && k < |jar| && NoChar(jar[k].value, '=')
    ensures Get(Header(jar), jar[k].name, decode) == Decoded(decode(jar[k].value))
  {
    var cookie := Header(jar);
    var name := jar[k].name;
    var entries := Split(cookie, ';');
    var pre := if k == 0 then "" else " ";
    assert k < |entries| && entries[k] == pre + Pair(jar[k]) by {
      JarEntries(jar);
    }
    assert Matches(entries[k], name) && forall i :: 0 <= i < k ==> !Matches(entries[i], name) by {
      JarMatches(jar, k);
    }
    assert |Split(entries[k], '=')| == 2 && Split(entries[k], '=')[1] == jar[k].value by {
      assert GoodName(jar[k].name);
      ValuePiece(pre, jar[k]);
    }
    assert Get(cookie, name, decode) == Decoded(decode(Split(entries[k], '=')[1])) by {
      GetFirstMatch(cookie, name, decode, k);
    }
  }

  /** `set` stores exactly the cookie `name=encode(content)`. */
  lemma StoreSet(jar: seq<Cookie>, name: string, content: string, maxAge: int, encode: string -> string)
    requires NoChar(name, '=') && NoChar(name, ';')
    requires NoChar(encode(content), '=') && NoChar(encode(content), ';')
    ensures Store(jar, Set(name, content, maxAge, encode)) == Put(jar, Cookie(name, encode(content)))
  {
    var v := encode(content);
    var pair := name + "=" + v;
    var a := Set(name, content, maxAge, encode);
    assert |pair| < |a| && a[|pair|] == ';';
    assert a[..|pair|] == pair;
    assert forall i :: 0 <= i < |pair| ==> pair[i] == (if i < |name| then name[i] else if i == |name| then '=' else v[i - |name| - 1]);
    assert IndexOf(a, ';') == |pair|;
    assert pair[|name|] == '=';
    assert IndexOf(pair, '=') == |name|;
    assert pair[..|name|] == name && pair[|name| + 1..] == v;
  }

  /**
   * Round trip: after `set`, `get` of the same name gives the content back,
   * given that the encoder writes no '=' or ';' and that decoding undoes it.
   */
  lemma SetThenGet(jar: seq<Cookie>, name: string, content: string, maxAge: int,
                   encode: string -> string, decode: string -> Option<string>)
    requires GoodJar(jar) && GoodName(name)
    requires NoChar(encode(content), '=') && NoChar(encode(content), ';')
    requires decode(encode(content)) == Some(content)
    ensures Get(Header(Store(jar, Set(name, content, maxAge, encode))), name, decode) == Ok(Some(content))
  {
    StoreSet(jar, name, content, maxAge, encode);
    var c := Cookie(name, encode(content));
    var k := PutKeepsGood(jar, c);
    GetFromJar(Put(jar, c), k, decode);
  }
}

=== FILE: dom.dfy ===
/**
 * The element tree `src/component.ts` works on, as values: elements with a
 * tag, an ordered attribute list, a class set, child nodes and the event
 * listeners added to them. A nested component's root appears in its
 * parent's tree as a `Mount` of that component, whose own tree holds the
 * root. Elements are identified by their path of child indices.
 *
 * Also the reference table walks `setRefs` and `unsetRefs`
 * (`src/component.ts:235-265`), which only read the tree.
 */
module Dom {
  import opened Wrappers

  datatype Attr = Attr(name: string, value: string)

  /** A listener added by `addEventListener`: the event, the member it calls and the instance it is bound to. */
  datatype Listener<C> = Listener(event: string, handler: string, owner: C)

  datatype Node<C> =
    | Element(tag: string, attrs: seq<Attr>, classes: set<string>, children: seq<Node<C>>, listeners: seq<Listener<C>>)
    | Text(text: string)
    | Comment(text: string)
    | Mount(component: C)

  type Path = seq<nat>

  /** `attributes.getNamedItem(name)`: the first attribute of that name. */
  function GetAttr(attrs: seq<Attr>, name: string): (r: Option<string>)
    ensures r.None? <==> forall i :: 0 <= i < |attrs| ==> attrs[i].name != name
    ensures r.Some? ==> exists i :: 0 <= i < |attrs| && attrs[i] == Attr(name, r.value)
                                    && forall j :: 0 <= j < i ==> attrs[j].name != name
  {
    if attrs == [] then None
    else if attrs[0].name == name then Some(attrs[0].value)
    else GetAttr(attrs[1..], name)
  }

  /** `setAttribute(name, value)`: the first attribute of that name takes the value, or it is appended. */
  function SetAttr(attrs: seq<Attr>, name: string, value: string): (r: seq<Attr>)
    ensures GetAttr(r, name) == Some(value)
    ensures forall n :: n != name ==> GetAttr(r, n) == GetAttr(attrs, n)
  {
    if attrs == [] then [Attr(name, value)]
    else if attrs[0].name == name then [Attr(name, value)] + attrs[1..]
    else [attrs[0]] + SetAttr(attrs[1..], name, value)
  }

  /** `removeAttribute(name)`. */
  function RemoveAttr(attrs: seq<Attr>, name: string): (r: seq<Attr>)
    ensures GetAttr(r, name) == None
    ensures forall n :: n != name ==> GetAttr(r, n) == GetAttr(attrs, n)
    ensures forall a :: a in r <==> a in attrs && a.name != name
  {
    if attrs == [] then []
    else if attrs[0].name == name then RemoveAttr(attrs[1..], name)
    else [attrs[0]] + RemoveAttr(attrs[1..], name)
  }

  /** The node at a path of child indices, if there is one. */
  function At<C>(n: Node<C>, p: Path): Option<Node<C>>
    decreases |p|
  {
    if p == [] then Some(n)
    else if n.Element? && p[0] < |n.children| then At(n.children[p[0]], p[1..])
    else None
  }

  /** The tree with the node at path `p` replaced by `m`. */
  function Replace<C>(n: Node<C>, p: Path, m: Node<C>): (r: Node<C>)
    requires At(n, p).Some?
    ensures At(r, p) == Some(m)
    decreases |p|
  {
    if p == [] then m
    else n.(children := n.children[p[0] := Replace(n.children[p[0]], p[1..], m)])
  }

  /** A second replacement at the same path overrides the first. */
  lemma {:induction false} ReplaceTwice<C>(n: Node<C>, p: Path, a: Node<C>, b: Node<C>)
    requires At(n, p).Some?
    ensures Replace(Replace(n, p, a), p, b) == Replace(n, p, b)
    decreases |p|
  {
    if p != [] {
      ReplaceTwice(n.children[p[0]], p[1..], a, b);
    }
  }

  /** Putting back the node already at a path gives the same tree. */
  lemma {:induction false} ReplaceSame<C>(n: Node<C>, p: Path)
    requires At(n, p).Some?
    ensures Replace(n, p, At(n, p).value) == n
    decreases |p|
  {
    if p != [] {
      ReplaceSame(n.children[p[0]], p[1..]);
    }
  }

  /** Replacing child `i` of the element at `p` is replacing that element by its updated copy. */
  lemma {:induction false} ReplaceChild<C>(n: Node<C>, p: Path, i: nat, m: Node<C>)
    requires At(n, p).Some? && At(n, p).value.Element? && i < |At(n, p).value.children|
    ensures At(n, p + [i]).Some?
    ensures Replace(n, p + [i], m) == Replace(n, p, At(n, p).value.(children := At(n, p).value.children[i := m]))
    decreases |p|
  {
    AtChild(n, p, i);
    if p != [] {
      assert (p + [i])[1..] == p[1..] + [i];
      ReplaceChild(n.children[p[0]], p[1..], i, m);
    }
  }

  /** The components mounted in a tree (not looking inside them). */
  ghost function Mounts<C>(n: Node<C>): set<C> {
    match n
    case Element(_, _, _, children, _) => MountsAll(children)
    case Mount(c) => {c}
    case _ => {}
  }

  ghost function MountsAll<C>(cs: seq<Node<C>>): set<C> {
    if cs == [] then {} else Mounts(cs[0]) + MountsAll(cs[1..])
  }

  lemma {:induction false} MountsAllIndex<C>(cs: seq<Node<C>>, i: nat)
    requires i < |cs|
    ensures Mounts(cs[i]) <= MountsAll(cs)
  {
    if i > 0 {
      MountsAllIndex(cs[1..], i - 1);
    }
  }

  lemma {:induction false} MountsAllAppend<C>(xs: seq<Node<C>>, ys: seq<Node<C>>)
    ensures MountsAll(xs + ys) == MountsAll(xs) + MountsAll(ys)
    decreases |xs|
  {
    if xs != [] {
      assert (xs + ys)[1..] == xs[1..] + ys;
      MountsAllAppend(xs[1..], ys);
    } else {
      assert xs + ys == ys;
    }
  }

  lemma {:induction false} MountsAllUpdate<C>(cs: seq<Node<C>>, i: nat, x: Node<C>)
    requires i < |cs|
    ensures MountsAll(cs[i := x]) <= MountsAll(cs) + Mounts(x)
    decreases |cs|
  {
    if i > 0 {
      assert cs[i := x][1..] == cs[1..][i - 1 := x];
      MountsAllUpdate(cs[1..], i - 1, x);
    }
  }

  /** Replacing a node brings in only the replacement's mounts. */
  lemma {:induction false} MountsReplace<C>(n: Node<C>, p: Path, m: Node<C>)
    requires At(n, p).Some?
    ensures Mounts(Replace(n, p, m)) <= Mounts(n) + Mounts(m)
    decreases |p|
  {
    if p != [] {
      var c := n.children[p[0]];
      MountsReplace(c, p[1..], m);
      MountsAllUpdate(n.children, p[0], Replace(c, p[1..], m));
      MountsAllIndex(n.children, p[0]);
    }
  }

  /** The child at index `i` of the element at `p` is at `p + [i]`. */
  lemma {:induction false} AtChild<C>(n: Node<C>, p: Path, i: nat)
    requires At(n, p).Some? && At(n, p).value.Element? && i < |At(n, p).value.children|
    ensures At(n, p + [i]) == Some(At(n, p).value.children[i])
    decreases |p|
  {
    if p != [] {
      assert (p + [i])[1..] == p[1..] + [i];
      AtChild(n.children[p[0]], p[1..], i);
    }
  }

  /** Replacing a child of the element at `p` updates that element's child list in place. */
  lemma {:induction false} AtReplaceChild<C>(n: Node<C>, p: Path, i: nat, m: Node<C>)
    requires At(n, p).Some? && At(n, p).value.Element? && i < |At(n, p).value.children|
    ensures At(n, p + [i]).Some?
    ensures At(Replace(n, p + [i], m), p) == Some(At(n, p).value.(children := At(n, p).value.children[i := m]))
    decreases |p|
  {
    AtChild(n, p, i);
    if p != [] {
      assert (p + [i])[1..] == p[1..] + [i];
      AtReplaceChild(n.children[p[0]], p[1..], i, m);
    }
  }

  /**
   * A tree with attributes, classes and listeners erased: the shape that
   * binding event handlers and adding classes leave alone.
   */
  function Skeleton<C>(n: Node<C>): Node<C>
    decreases n
  {
    match n
    case Element(tag, _, _, children, _) => Element(tag, [], {}, Skeletons(children), [])
    case _ => n
  }

  function Skeletons<C>(cs: seq<Node<C>>): (r: seq<Node<C>>)
    ensures |r| == |cs| && forall i :: 0 <= i < |cs| ==> r[i] == Skeleton(cs[i])
    decreases cs
  {
    if cs == [] then [] else [Skeleton(cs[0])] + Skeletons(cs[1..])
  }

  /** Trees of the same shape have elements at the same paths. */
  lemma {:induction false} SkeletonAt<C>(a: Node<C>, b: Node<C>, p: Path)
    requires Skeleton(a) == Skeleton(b)
    ensures At(a, p).Some? <==> At(b, p).Some?
    ensures At(a, p).Some? ==> (At(a, p).value.Element? <==> At(b, p).value.Element?)
    decreases |p|
  {
    if p != [] && a.Element? && p[0] < |a.children| {
      assert Skeletons(a.children)[p[0]] == Skeletons(b.children)[p[0]];
      SkeletonAt(a.children[p[0]], b.children[p[0]], p[1..]);
    }
  }

  /** Trees of the same shape mount the same components. */
  lemma {:induction false} SkeletonMounts<C>(a: Node<C>, b: Node<C>)
    requires Skeleton(a) == Skeleton(b)
    ensures Mounts(a) == Mounts(b)
    decreases a
  {
    if a.Element? {
      SkeletonMountsAll(a.children, b.children);
    }
  }

  /** Changing one node of a sequence for one of the same shape keeps the sequence's shape. */
  lemma SkeletonsUpdate<C>(xs: seq<Node<C>>, i: nat, x: Node<C>)
    requires i < |xs| && Skeleton(x) == Skeleton(xs[i])
    ensures Skeletons(xs[i := x]) == Skeletons(xs)
  {
  }

  lemma {:induction false} SkeletonMountsAll<C>(xs: seq<Node<C>>, ys: seq<Node<C>>)
    requires Skeletons(xs) == Skeletons(ys)
    ensures MountsAll(xs) == MountsAll(ys)
    decreases xs
  {
    if xs != [] {
      assert Skeleton(xs[0]) == Skeletons(xs)[0];
      assert Skeletons(xs[1..]) == Skeletons(xs)[1..] == Skeletons(ys)[1..] == Skeletons(ys[1..]);
      SkeletonMounts(xs[0], ys[0]);
      SkeletonMountsAll(xs[1..], ys[1..]);
    }
  }

  /** What the HTML parser produces: elements, text and comments, nothing mounted or listened to. */
  datatype Html =
    | HElement(tag: string, attrs: seq<Attr>, classes: set<string>, children: seq<Html>)
    | HText(text: string)
    | HComment(text: string)

  function ToNode<C>(h: Html): (n: Node<C>)
    ensures Mounts(n) == {}
    ensures h.HElement? <==> n.Element?
    ensures h.HElement? ==> n.listeners == [] && n.tag == h.tag && n.attrs == h.attrs && n.classes == h.classes
  {
    match h
    case HElement(tag, attrs, classes, children) => Element(tag, attrs, classes, ToNodes(children), [])
    case HText(t) => Text(t)
    case HComment(t) => Comment(t)
  }

  function ToNodes<C>(hs: seq<Html>): (ns: seq<Node<C>>)
    ensures |ns| == |hs| && MountsAll(ns) == {}
    ensures forall i :: 0 <= i < |hs| ==> ns[i] == ToNode(hs[i])
  {
    if hs == [] then [] else [ToNode(hs[0])] + ToNodes(hs[1..])
  }

  // The reference walks.

  /**
   * Where a referenced element is: a path in the component's tree, or a
   * path inside a node that is no longer in it.
   */
  datatype ElemRef<C> = InTree(path: Path) | Detached(base: Node<C>, path: Path)

  function ChildLoc<C>(loc: ElemRef<C>, i: nat): ElemRef<C> {
    loc.(path := loc.path + [i])
  }

  /** The outcome of `setRefs`: the table, and the ref it threw on, if it threw. */
  datatype RefsWalk<C> = RefsWalk(refs: map<string, ElemRef<C>>, clash: Option<string>) {
    predicate Succeeded() {
      clash.None?
    }
  }

  /** Whether a walk stops at this node: it is not an element, or it has class `Component`. */
  predicate Skipped<C>(n: Node<C>) {
    !n.Element? || "Component" in n.classes
  }

  /**
   * `setRefs(element)`: unless the element has class `Component`, record its
   * `ref` (throwing when that ref is already in the table), then walk its
   * children in order. A mounted component is the root of a nested
   * component, which carries class `Component`.
   */
  function SetRefs<C>(n: Node<C>, loc: ElemRef<C>, refs: map<string, ElemRef<C>>): (r: RefsWalk<C>)
    ensures forall k :: k in refs ==> k in r.refs && r.refs[k] == refs[k]
    ensures r.clash.Some? ==> r.clash.value in r.refs
    decreases n
  {
    if Skipped(n) then RefsWalk(refs, None)
    else
      match GetAttr(n.attrs, "ref")
      case Some(r) =>
        if r in refs then RefsWalk(refs, Some(r))
        else SetRefsChildren(n.children, loc, 0, refs[r := loc])
      case None => SetRefsChildren(n.children, loc, 0, refs)
  }

  function SetRefsChildren<C>(cs: seq<Node<C>>, loc: ElemRef<C>, i: nat, refs: map<string, ElemRef<C>>): (r: RefsWalk<C>)
    ensures forall k :: k in refs ==> k in r.refs && r.refs[k] == refs[k]
    ensures r.clash.Some? ==> r.clash.value in r.refs
    decreases cs
  {
    if cs == [] then RefsWalk(refs, None)
    else
      var w := SetRefs(cs[0], ChildLoc(loc, i), refs);
      if !w.Succeeded() then w else SetRefsChildren(cs[1..], loc, i + 1, w.refs)
  }

  /** `unsetRefs(element)`: delete the `ref` of every element the same walk visits. */
  function UnsetRefs<C>(n: Node<C>, refs: map<string, ElemRef<C>>): (r: map<string, ElemRef<C>>)
    ensures forall k :: k in r ==> k in refs && r[k] == refs[k]
    decreases n
  {
    if Skipped(n) then refs
    else
      var refs' := if GetAttr(n.attrs, "ref").Some? then refs - {GetAttr(n.attrs, "ref").value} else refs;
      UnsetRefsChildren(n.children, refs')
  }

  function UnsetRefsChildren<C>(cs: seq<Node<C>>, refs: map<string, ElemRef<C>>): (r: map<string, ElemRef<C>>)
    ensures forall k :: k in r ==> k in refs && r[k] == refs[k]
    decreases cs
  {
    if cs == [] then refs else UnsetRefsChildren(cs[1..], UnsetRefs(cs[0], refs))
  }

  /**
   * The reference definition of both walks: the `ref` of each element they
   * visit, with its location, in document order.
   */
  function Targets<C>(n: Node<C>, loc: ElemRef<C>): seq<(string, ElemRef<C>)>
    decreases n
  {
    if Skipped(n) then []
    else
      var own := if GetAttr(n.attrs, "ref").Some? then [(GetAttr(n.attrs, "ref").value, loc)] else [];
      own + TargetsChildren(n.children, loc, 0)
  }

  function TargetsChildren<C>(cs: seq<Node<C>>, loc: ElemRef<C>, i: nat): seq<(string, ElemRef<C>)>
    decreases cs
  {
    if cs == [] then [] else Targets(cs[0], ChildLoc(loc, i)) + TargetsChildren(cs[1..], loc, i + 1)
  }

  /** Recording a list of targets one at a time, throwing at the first ref already present. */
  function Record<C>(ts: seq<(string, ElemRef<C>)>, refs: map<string, ElemRef<C>>): RefsWalk<C>
    decreases |ts|
  {
    if ts == [] then RefsWalk(refs, None)
    else if ts[0].0 in refs then RefsWalk(refs, Some(ts[0].0))
    else Record(ts[1..], refs[ts[0].0 := ts[0].1])
  }

  function Keys<C>(ts: seq<(string, ElemRef<C>)>): (ks: set<string>)
    ensures forall i :: 0 <= i < |ts| ==> ts[i].0 in ks
    ensures forall k :: k in ks ==> exists i :: 0 <= i < |ts| && ts[i].0 == k
  {
    set i | 0 <= i < |ts| :: ts[i].0
  }

  /** The refs are distinct and none is in `refs` yet. */
  predicate Fresh<C>(ts: seq<(string, ElemRef<C>)>, refs: map<string, ElemRef<C>>) {
    (forall i :: 0 <= i < |ts| ==> ts[i].0 !in refs)
    && (forall i, j :: 0 <= i < j < |ts| ==> ts[i].0 != ts[j].0)
  }

  lemma {:induction false} RecordAppend<C>(xs: seq<(string, ElemRef<C>)>, ys: seq<(string, ElemRef<C>)>, refs: map<string, ElemRef<C>>)
    ensures Record(xs + ys, refs) == if Record(xs, refs).Succeeded() then Record(ys, Record(xs, refs).refs) else Record(xs, refs)
    decreases |xs|
  {
    if xs == [] {
      assert xs + ys == ys;
    } else {
      assert (xs + ys)[1..] == xs[1..] + ys;
      if xs[0].0 !in refs {
        RecordAppend(xs[1..], ys, refs[xs[0].0 := xs[0].1]);
      }
    }
  }

  /** `setRefs` records exactly the walk's targets, in order. */
  lemma {:induction false} SetRefsIsRecord<C>(n: Node<C>, loc: ElemRef<C>, refs: map<string, ElemRef<C>>)
    ensures SetRefs(n, loc, refs) == Record(Targets(n, loc), refs)
    decreases n
  {
    if !Skipped(n) {
      var r := GetAttr(n.attrs, "ref");
      var kids := TargetsChildren(n.children, loc, 0);
      if r.Some? {
        RecordAppend([(r.value, loc)], kids, refs);
        if r.value !in refs {
          assert Record([(r.value, loc)], refs) == RefsWalk(refs[r.value := loc], None);
          SetRefsChildrenIsRecord(n.children, loc, 0, refs[r.value := loc]);
        }
      } else {
        assert [] + kids == kids;
        SetRefsChildrenIsRecord(n.children, loc, 0, refs);
      }
    }
  }

  lemma {:induction false} SetRefsChildrenIsRecord<C>(cs: seq<Node<C>>, loc: ElemRef<C>, i: nat, refs: map<string, ElemRef<C>>)
    ensures SetRefsChildren(cs, loc, i, refs) == Record(TargetsChildren(cs, loc, i), refs)
    decreases cs
  {
    if cs != [] {
      var l := ChildLoc(loc, i);
      SetRefsIsRecord(cs[0], l, refs);
      RecordAppend(Targets(cs[0], l), TargetsChildren(cs[1..], loc, i + 1), refs);
      var w := SetRefs(cs[0], l, refs);
      if w.Succeeded() {
        SetRefsChildrenIsRecord(cs[1..], loc, i + 1, w.refs);
      }
    }
  }

  /**
   * Recording succeeds exactly when the refs are fresh, and then adds each
   * ref with its location; succeeding or not, it never changes an entry
   * already in the table.
   */
  lemma {:induction false} RecordSpec<C>(ts: seq<(string, ElemRef<C>)>, refs: map<string, ElemRef<C>>)
    ensures Record(ts, refs).Succeeded() <==> Fresh(ts, refs)
    ensures forall k :: k in refs ==> k in Record(ts, refs).refs && Record(ts, refs).refs[k] == refs[k]
    ensures Record(ts, refs).Succeeded() ==> Record(ts, refs).refs.Keys == refs.Keys + Keys(ts)
    ensures Record(ts, refs).Succeeded() ==> forall i :: 0 <= i < |ts| ==> Record(ts, refs).refs[ts[i].0] == ts[i].1
    decreases |ts|
  {
    if ts != [] && ts[0].0 !in refs {
      var refs' := refs[ts[0].0 := ts[0].1];
      RecordSpec(ts[1..], refs');
      assert Keys(ts) == {ts[0].0} + Keys(ts[1..]) by {
        forall k | k in Keys(ts) ensures k in {ts[0].0} + Keys(ts[1..]) {
          var i :| 0 <= i < |ts| && ts[i].0 == k;
          if i > 0 {
            assert ts[1..][i - 1].0 == k;
          }
        }
      }
      if Record(ts[1..], refs').Succeeded() {
        assert Fresh(ts, refs) by {
          forall i, j | 0 <= i < j < |ts| ensures ts[i].0 != ts[j].0 {
            if i == 0 {
              assert ts[1..][j - 1].0 !in refs';
            } else {
              assert ts[1..][i - 1].0 != ts[1..][j - 1].0;
            }
          }
          forall i | 0 <= i < |ts| ensures ts[i].0 !in refs {
            if i > 0 {
              assert ts[1..][i - 1].0 !in refs';
            }
          }
        }
      } else {
        assert !Fresh(ts[1..], refs');
        RecordNotFresh(ts, refs);
      }
    }
  }

  lemma RecordNotFresh<C>(ts: seq<(string, ElemRef<C>)>, refs: map<string, ElemRef<C>>)
    requires ts != [] && ts[0].0 !in refs
    requires !Fresh(ts[1..], refs[ts[0].0 := ts[0].1])
    ensures !Fresh(ts, refs)
  {
    var refs' := refs[ts[0].0 := ts[0].1];
    if exists i :: 0 <= i < |ts[1..]| && ts[1..][i].0 in refs' {
      var i :| 0 <= i < |ts[1..]| && ts[1..][i].0 in refs';
      if ts[1..][i].0 == ts[0].0 {
        assert ts[0].0 == ts[i + 1].0;
      } else {
        assert ts[i + 1].0 in refs;
      }
    } else {
      var i, j :| 0 <= i < j < |ts[1..]| && ts[1..][i].0 == ts[1..][j].0;
      assert ts[i + 1].0 == ts[j + 1].0;
    }
  }

  /** `unsetRefs` deletes exactly the refs of the walk's targets. */
  lemma {:induction false} UnsetRefsSpec<C>(n: Node<C>, loc: ElemRef<C>, refs: map<string, ElemRef<C>>)
    ensures UnsetRefs(n, refs) == refs - Keys(Targets(n, loc))
    decreases n
  {
    if !Skipped(n) {
      var r := GetAttr(n.attrs, "ref");
      var own := if r.Some? then [(r.value, loc)] else [];
      var kids := TargetsChildren(n.children, loc, 0);
      var refs' := if r.Some? then refs - {r.value} else refs;
      UnsetRefsChildrenSpec(n.children, loc, 0, refs');
      KeysAppend(own, kids);
      if r.Some? {
        assert own[0].0 == r.value;
        assert Keys(own) == {r.value};
      } else {
        assert Keys(own) == {};
      }
    }
  }

  lemma {:induction false} UnsetRefsChildrenSpec<C>(cs: seq<Node<C>>, loc: ElemRef<C>, i: nat, refs: map<string, ElemRef<C>>)
    ensures UnsetRefsChildren(cs, refs) == refs - Keys(TargetsChildren(cs, loc, i))
    decreases cs
  {
    if cs != [] {
      var l := ChildLoc(loc, i);
      UnsetRefsSpec(cs[0], l, refs);
      UnsetRefsChildrenSpec(cs[1..], loc, i + 1, UnsetRefs(cs[0], refs));
      KeysAppend(Targets(cs[0], l), TargetsChildren(cs[1..], loc, i + 1));
    }
  }

  /** Unsetting the refs of one more child, after a list of children, is unsetting them for the longer list. */
  lemma {:induction false} UnsetRefsChildrenSnoc<C>(cs: seq<Node<C>>, x: Node<C>, refs: map<string, ElemRef<C>>)
    ensures UnsetRefsChildren(cs + [x], refs) == UnsetRefs(x, UnsetRefsChildren(cs, refs))
    decreases cs
  {
    if cs == [] {
      assert [] + [x] == [x] && [x][1..] == [];
    } else {
      assert (cs + [x])[1..] == cs[1..] + [x];
      UnsetRefsChildrenSnoc(cs[1..], x, UnsetRefs(cs[0], refs));
    }
  }

  lemma KeysAppend<C>(xs: seq<(string, ElemRef<C>)>, ys: seq<(string, ElemRef<C>)>)
    ensures Keys(xs + ys) == Keys(xs) + Keys(ys)
  {
    forall k | k in Keys(xs + ys) ensures k in Keys(xs) + Keys(ys) {
      var i :| 0 <= i < |xs + ys| && (xs + ys)[i].0 == k;
      if i >= |xs| {
        assert ys[i - |xs|].0 == k;
      }
    }
    forall k | k in Keys(xs) + Keys(ys) ensures k in Keys(xs + ys) {
      if k in Keys(xs) {
        var i :| 0 <= i < |xs| && xs[i].0 == k;
        assert (xs + ys)[i].0 == k;
      } else {
        var i :| 0 <= i < |ys| && ys[i].0 == k;
        assert (xs + ys)[|xs| + i].0 == k;
      }
    }
  }

  /** A `setRefs` that did not throw is undone by `unsetRefs` of the same element. */
  lemma UnsetUndoesSet<C>(n: Node<C>, loc: ElemRef<C>, refs: map<string, ElemRef<C>>)
    requires SetRefs(n, loc, refs).Succeeded()
    ensures UnsetRefs(n, SetRefs(n, loc, refs).refs) == refs
  {
    var ts := Targets(n, loc);
    SetRefsIsRecord(n, loc, refs);
    RecordSpec(ts, refs);
    UnsetRefsSpec(n, loc, SetRefs(n, loc, refs).refs);
    var after := SetRefs(n, loc, refs).refs;
    assert (after - Keys(ts)).Keys == refs.Keys;
  }

  /** A reference to an element of `root`'s own tree. */
  predicate PointsInto<C>(root: Node<C>, l: ElemRef<C>) {
    l.InTree? && At(root, l.path).Some? && At(root, l.path).value.Element?
  }

  /** Every reference in the table points into `root`. */
  predicate AllPointInto<C>(root: Node<C>, refs: map<string, ElemRef<C>>) {
    forall k :: k in refs ==> PointsInto(root, refs[k])
  }

  /** Walking the node at `q` of `root` finds only elements of `root`. */
  lemma {:induction false} TargetsInto<C>(root: Node<C>, q: Path, n: Node<C>)
    requires At(root, q) == Some(n)
    ensures forall i :: 0 <= i < |Targets(n, InTree(q))| ==> PointsInto(root, Targets(n, InTree(q))[i].1)
    decreases n, 1
  {
    if !Skipped(n) {
      TargetsChildrenInto(root, q, n, 0);
      assert n.children[0..] == n.children;
    }
  }

  lemma {:induction false} TargetsChildrenInto<C>(root: Node<C>, q: Path, e: Node<C>, i: nat)
    requires At(root, q) == Some(e) && e.Element? && i <= |e.children|
    ensures forall j :: 0 <= j < |TargetsChildren(e.children[i..], InTree(q), i)| ==>
              PointsInto(root, TargetsChildren(e.children[i..], InTree(q), i)[j].1)
    decreases e, 0, |e.children| - i
  {
    if i < |e.children| {
      var cs := e.children[i..];
      assert cs[0] == e.children[i] && cs[1..] == e.children[i + 1..];
      AtChild(root, q, i);
      TargetsInto(root, q + [i], e.children[i]);
      TargetsChildrenInto(root, q, e, i + 1);
    }
  }

  /** Recording keeps any property that the table's and the targets' locations all have. */
  lemma {:induction false} RecordKeeps<C>(ts: seq<(string, ElemRef<C>)>, refs: map<string, ElemRef<C>>, P: ElemRef<C> -> bool)
    requires forall k :: k in refs ==> P(refs[k])
    requires forall i :: 0 <= i < |ts| ==> P(ts[i].1)
    ensures forall k :: k in Record(ts, refs).refs ==> P(Record(ts, refs).refs[k])
    decreases |ts|
  {
    if ts != [] && ts[0].0 !in refs {
      assert forall i :: 0 <= i < |ts[1..]| ==> P(ts[1..][i].1) by {
        forall i | 0 <= i < |ts[1..]| ensures P(ts[1..][i].1) {
          assert ts[1..][i] == ts[i + 1];
        }
      }
      RecordKeeps(ts[1..], refs[ts[0].0 := ts[0].1], P);
    }
  }

  /** `setRefs` on an element of `root` records only elements of `root`. */
  lemma SetRefsInto<C>(root: Node<C>, q: Path, refs: map<string, ElemRef<C>>)
    requires At(root, q).Some? && AllPointInto(root, refs)
    ensures AllPointInto(root, SetRefs(At(root, q).value, InTree(q), refs).refs)
  {
    var n := At(root, q).value;
    SetRefsIsRecord(n, InTree(q), refs);
    TargetsInto(root, q, n);
    RecordKeeps(Targets(n, InTree(q)), refs, l => PointsInto(root, l));
  }

  /** Trees of the same shape have the same element paths, so the same references point into both. */
  lemma SkeletonPointsInto<C>(a: Node<C>, b: Node<C>, refs: map<string, ElemRef<C>>)
    requires Skeleton(a) == Skeleton(b) && AllPointInto(a, refs)
    ensures AllPointInto(b, refs)
  {
    forall k | k in refs ensures PointsInto(b, refs[k]) {
      SkeletonAt(a, b, refs[k].path);
    }
  }
}

=== FILE: form.dfy ===
/**
 * Collecting named form-control values from an element tree: the
 * last-write-wins fold shared by `Form.getInputs` (`src/form.ts`),
 * `Component.getFormInputs` (`src/component.ts`) and `FormHelper.getValues`
 * (`src/form-helper.ts`), and `Form.getInputs` itself.
 */
module Forms {
  import opened Wrappers

  /** The element classes the collectors tell apart. */
  datatype ElemKind = Input | Select | TextArea | OtherElem

  /**
   * An element: its class, its `name` and `type` attributes (absent is
   * `None`), its live `checked` and `value`, and its element children.
   */
  datatype FormNode = FormNode(kind: ElemKind, name: Option<string>, typeAttr: Option<string>,
                               checked: bool, value: string, children: seq<FormNode>)

  /** A collected value: a control's `value` string or a checkbox's `checked` flag. */
  datatype FormValue = Text(s: string) | Flag(b: bool)

  /** What one element writes into the result, if anything. */
  type Contribution = Option<(string, FormValue)>

  /** Writes one contribution: the later write replaces an earlier one for the same name. */
  function Apply(m: map<string, FormValue>, c: Contribution): (r: map<string, FormValue>)
    ensures c.None? ==> r == m
    ensures c.Some? ==> r == m[c.value.0 := c.value.1]
  {
    match c
    case None => m
    case Some((k, v)) => m[k := v]
  }

  /** Writes the contributions in order. */
  function Fold(m: map<string, FormValue>, cs: seq<Contribution>): map<string, FormValue>
    decreases |cs|
  {
    if cs == [] then m else Fold(Apply(m, cs[0]), cs[1..])
  }

  /** `cs[i]` writes `key`. */
  predicate WritesAt(cs: seq<Contribution>, key: string, i: int) {
    0 <= i < |cs| && cs[i].Some? && cs[i].value.0 == key
  }

  /** `cs[i]` is the last write of `key`. */
  predicate LastWriteAt(cs: seq<Contribution>, key: string, i: int) {
    WritesAt(cs, key, i) && forall j :: i < j < |cs| ==> !WritesAt(cs, key, j)
  }

  /** The value of the last contribution for `key`, if any. */
  function LastFor(cs: seq<Contribution>, key: string): Option<FormValue>
    decreases |cs|
  {
    if cs == [] then None
    else if WritesAt(cs, key, |cs| - 1) then Some(cs[|cs| - 1].value.1)
    else LastFor(cs[..|cs| - 1], key)
  }

  /** `LastFor` finds a value exactly when some contribution writes `key`, and then it is the last one's. */
  lemma {:induction false} LastForSpec(cs: seq<Contribution>, key: string)
    ensures LastFor(cs, key).Some? <==> exists i :: WritesAt(cs, key, i)
    ensures LastFor(cs, key).Some? ==> exists i :: LastWriteAt(cs, key, i) && cs[i].value.1 == LastFor(cs, key).value
    decreases |cs|
  {
    if cs != [] && !WritesAt(cs, key, |cs| - 1) {
      var init := cs[..|cs| - 1];
      LastForSpec(init, key);
      assert forall i :: WritesAt(init, key, i) <==> WritesAt(cs, key, i) && i < |cs| - 1;
      if LastFor(init, key).Some? {
        var i :| LastWriteAt(init, key, i) && init[i].value.1 == LastFor(init, key).value;
        assert LastWriteAt(cs, key, i);
      }
    } else if cs != [] {
      assert LastWriteAt(cs, key, |cs| - 1);
    }
  }

  /**
   * Last write wins: after the fold a name is present exactly when some
   * contribution wrote it or it was already present, and it holds the last
   * value written for it.
   */
  lemma {:induction false} FoldLastWins(m: map<string, FormValue>, cs: seq<Contribution>, key: string)
    ensures key in Fold(m, cs) <==> LastFor(cs, key).Some? || key in m
    ensures key in Fold(m, cs) ==> Fold(m, cs)[key] == if LastFor(cs, key).Some? then LastFor(cs, key).value else m[key]
    decreases |cs|
  {
    if cs != [] {
      FoldSnoc(m, cs[..|cs| - 1], cs[|cs| - 1]);
      assert cs[..|cs| - 1] + [cs[|cs| - 1]] == cs;
      FoldLastWins(m, cs[..|cs| - 1], key);
    }
  }

  lemma {:induction false} FoldSnoc(m: map<string, FormValue>, cs: seq<Contribution>, c: Contribution)
    ensures Fold(m, cs + [c]) == Apply(Fold(m, cs), c)
    decreases |cs|
  {
    if cs != [] {
      assert (cs + [c])[1..] == cs[1..] + [c];
      FoldSnoc(Apply(m, cs[0]), cs[1..], c);
    }
  }

  lemma {:induction false} FoldAppend(m: map<string, FormValue>, xs: seq<Contribution>, ys: seq<Contribution>)
    ensures Fold(m, xs + ys) == Fold(Fold(m, xs), ys)
    decreases |xs|
  {
    if xs != [] {
      assert (xs + ys)[0] == xs[0];
      assert (xs + ys)[1..] == xs[1..] + ys;
      FoldAppend(Apply(m, xs[0]), xs[1..], ys);
    } else {
      assert xs + ys == ys;
    }
  }

  /** Folding onto `m` is `m` overridden by the fold onto the empty map (`Object.assign`). */
  lemma {:induction false} FoldShift(m: map<string, FormValue>, cs: seq<Contribution>)
    ensures Fold(m, cs) == m + Fold(map[], cs)
    decreases |cs|
  {
    if cs != [] {
      FoldShift(Apply(m, cs[0]), cs[1..]);
      FoldShift(Apply(map[], cs[0]), cs[1..]);
      match cs[0]
      case None =>
      case Some((k, v)) =>
        assert m[k := v] + Fold(map[], cs[1..]) == m + (map[k := v] + Fold(map[], cs[1..]));
    }
  }

  /** The descendants of the nodes `cs`, in document (pre-)order. */
  function Descendants(cs: seq<FormNode>): seq<FormNode>
    decreases cs
  {
    if cs == [] then [] else [cs[0]] + Descendants(cs[0].children) + Descendants(cs[1..])
  }

  /** The contributions of `nodes`, in order. */
  function Contributions(nodes: seq<FormNode>, contrib: FormNode -> Contribution): (r: seq<Contribution>)
    ensures |r| == |nodes| && forall i :: 0 <= i < |nodes| ==> r[i] == contrib(nodes[i])
  {
    seq(|nodes|, i requires 0 <= i < |nodes| => contrib(nodes[i]))
  }

  /**
   * The recursive collector of both `getInputs` and `getFormInputs`: for
   * each child in turn, write the child's own contribution, then merge in
   * the collection of the child's subtree (`Object.assign`).
   */
  function CollectChildren(acc: map<string, FormValue>, cs: seq<FormNode>, contrib: FormNode -> Contribution): map<string, FormValue>
    decreases cs
  {
    if cs == [] then acc
    else
      var own := Apply(acc, contrib(cs[0]));
      CollectChildren(own + CollectChildren(map[], cs[0].children, contrib), cs[1..], contrib)
  }

  /** The collection of one element: the element itself is not inspected, only its descendants. */
  function Collect(e: FormNode, contrib: FormNode -> Contribution): map<string, FormValue> {
    CollectChildren(map[], e.children, contrib)
  }

  /** The collector equals a last-write-wins fold over the descendants in document order. */
  lemma {:induction false} CollectChildrenIsFold(acc: map<string, FormValue>, cs: seq<FormNode>, contrib: FormNode -> Contribution)
    ensures CollectChildren(acc, cs, contrib) == Fold(acc, Contributions(Descendants(cs), contrib))
    decreases cs
  {
    if cs != [] {
      var c := cs[0];
      var own := Apply(acc, contrib(c));
      var inner := Contributions(Descendants(c.children), contrib);
      var rest := Contributions(Descendants(cs[1..]), contrib);
      CollectChildrenIsFold(map[], c.children, contrib);
      FoldShift(own, inner);
      CollectChildrenIsFold(own + Fold(map[], inner), cs[1..], contrib);
      assert Contributions(Descendants(cs), contrib) == [contrib(c)] + inner + rest;
      FoldAppend(acc, [contrib(c)] + inner, rest);
      FoldAppend(acc, [contrib(c)], inner);
      assert Fold(acc, [contrib(c)]) == own by {
        assert [contrib(c)][1..] == [];
      }
    }
  }

  /**
   * The collection of an element, stated on its own: a name is present
   * exactly when some descendant contributes it, with the value of the last
   * such descendant in document order.
   */
  lemma CollectLastWins(e: FormNode, contrib: FormNode -> Contribution, key: string)
    ensures key in Collect(e, contrib) <==> LastFor(Contributions(Descendants(e.children), contrib), key).Some?
    ensures key in Collect(e, contrib) ==>
              Collect(e, contrib)[key] == LastFor(Contributions(Descendants(e.children), contrib), key).value
  {
    CollectChildrenIsFold(map[], e.children, contrib);
    FoldLastWins(map[], Contributions(Descendants(e.children), contrib), key);
  }

  /**
   * What one element contributes to `Form.getInputs`: nothing unless it is an
   * input, select or textarea with a `name`; a checkbox its `checked` flag; a
   * radio its `value` when checked and nothing otherwise; any other control
   * its `value`.
   */
  function FormContribution(n: FormNode): (c: Contribution)
    ensures c.Some? ==> n.kind != OtherElem && n.name.Some? && c.value.0 == n.name.value
    ensures n.kind != OtherElem && n.name.Some? && !(n.kind == Input && n.typeAttr == Some("radio")) ==> c.Some?
    ensures n.kind == Input && n.typeAttr == Some("checkbox") && n.name.Some? ==> c == Some((n.name.value, Flag(n.checked)))
    ensures n.kind == Input && n.typeAttr == Some("radio") && n.name.Some? ==>
              c == if n.checked then Some((n.name.value, Text(n.value))) else None
    ensures n.name.Some? && (n.kind == Select || n.kind == TextArea
                             || (n.kind == Input && n.typeAttr != Some("checkbox") && n.typeAttr != Some("radio"))) ==>
              c == Some((n.name.value, Text(n.value)))
  {
    if n.kind == OtherElem || n.name.None? then None
    else if n.kind == Input then
      if n.typeAttr == Some("checkbox") then Some((n.name.value, Flag(n.checked)))
      else if n.typeAttr == Some("radio") then (if n.checked then Some((n.name.value, Text(n.value))) else None)
      else Some((n.name.value, Text(n.value)))
    else Some((n.name.value, Text(n.value)))
  }

  /** `CollectLastWins` for every name at once. */
  lemma CollectLastWinsAll(e: FormNode, contrib: FormNode -> Contribution)
    ensures forall key :: key in Collect(e, contrib) <==> LastFor(Contributions(Descendants(e.children), contrib), key).Some?
    ensures forall key :: key in Collect(e, contrib) ==>
              Collect(e, contrib)[key] == LastFor(Contributions(Descendants(e.children), contrib), key).value
  {
    forall key {
      CollectLastWins(e, contrib, key);
    }
  }

  /** `Form.getInputs`: each named control below `e` writes its value, the last one in document order winning. */
  function GetInputs(e: FormNode): (r: map<string, FormValue>)
    ensures forall key :: key in r <==> LastFor(Contributions(Descendants(e.children), FormContribution), key).Some?
    ensures forall key :: key in r ==> r[key] == LastFor(Contributions(Descendants(e.children), FormContribution), key).value
  {
    CollectLastWinsAll(e, FormContribution);
    Collect(e, FormContribution)
  }

  /**
   * An unchecked radio writes nothing, so an earlier value for its name
   * survives it.
   */
  lemma UncheckedRadioKeepsEarlier(m: map<string, FormValue>, n: FormNode)
    requires n.kind == Input && n.typeAttr == Some("radio") && !n.checked
    ensures Apply(m, FormContribution(n)) == m
  {
  }
}

=== FILE: form_helper.dfy ===
/**
 * `FormHelper` of `src/form-helper.ts`. `elem.querySelectorAll('input')` and
 * `elem.querySelectorAll('select')` are the sequences of controls, in
 * document order, that the methods receive.
 */
module FormHelperModel {
  import opened Wrappers
  import opened Forms

  /** What `getValues` reads of an `<input>`: its `name`, `type`, `value` and `checked` properties. */
  datatype InputView = InputView(name: string, inputType: string, value: string, checked: bool)

  /** What `getValues` reads of a `<select>`: its `name` and `value`. */
  datatype SelectView = SelectView(name: string, value: string)

  /**
   * What one input writes: a checkbox its `checked` flag, a radio `true` when
   * checked (its value is not recorded) and nothing otherwise, any other
   * input its `value`.
   */
  function InputContribution(i: InputView): (c: Contribution)
    ensures i.inputType == "checkbox" ==> c == Some((i.name, Flag(i.checked)))
    ensures i.inputType == "radio" ==> c == if i.checked then Some((i.name, Flag(true))) else None
    ensures i.inputType != "checkbox" && i.inputType != "radio" ==> c == Some((i.name, Text(i.value)))
  {
    if i.inputType == "checkbox" then Some((i.name, Flag(i.checked)))
    else if i.inputType == "radio" then (if i.checked then Some((i.name, Flag(true))) else None)
    else Some((i.name, Text(i.value)))
  }

  function SelectContribution(s: SelectView): (c: Contribution)
    ensures c == Some((s.name, Text(s.value)))
  {
    Some((s.name, Text(s.value)))
  }

  function InputContributions(inputs: seq<InputView>): (r: seq<Contribution>)
    ensures |r| == |inputs| && forall k :: 0 <= k < |inputs| ==> r[k] == InputContribution(inputs[k])
  {
    seq(|inputs|, k requires 0 <= k < |inputs| => InputContribution(inputs[k]))
  }

  function SelectContributions(selects: seq<SelectView>): (r: seq<Contribution>)
    ensures |r| == |selects| && forall k :: 0 <= k < |selects| ==> r[k] == SelectContribution(selects[k])
  {
    seq(|selects|, k requires 0 <= k < |selects| => SelectContribution(selects[k]))
  }

  /** The map `getValues` returns: all inputs are written first, then all selects. */
  function Values(inputs: seq<InputView>, selects: seq<SelectView>): map<string, FormValue> {
    Fold(map[], InputContributions(inputs) + SelectContributions(selects))
  }

  /** `FormHelper.getValues`. */
  method GetValues(inputs: seq<InputView>, selects: seq<SelectView>) returns (values: map<string, FormValue>)
    ensures values == Values(inputs, selects)
  {
    values := map[];
    for k := 0 to |inputs|
      invariant values == Fold(map[], InputContributions(inputs[..k]))
    {
      FoldSnoc(map[], InputContributions(inputs[..k]), InputContribution(inputs[k]));
      assert InputContributions(inputs[..k + 1]) == InputContributions(inputs[..k]) + [InputContribution(inputs[k])];
      var inputElem := inputs[k];
      if inputElem.inputType == "checkbox" {
        values := values[inputElem.name := Flag(inputElem.checked)];
      } else if inputElem.inputType == "radio" {
        if inputElem.checked {
          values := values[inputElem.name := Flag(true)];
        }
      } else {
        values := values[inputElem.name := Text(inputElem.value)];
      }
    }
    assert inputs[..|inputs|] == inputs;
    assert InputContributions(inputs) + SelectContributions(selects[..0]) == InputContributions(inputs);
    for k := 0 to |selects|
      invariant values == Fold(map[], InputContributions(inputs) + SelectContributions(selects[..k]))
    {
      var prefix := InputContributions(inputs) + SelectContributions(selects[..k]);
      FoldSnoc(map[], prefix, SelectContribution(selects[k]));
      assert SelectContributions(selects[..k + 1]) == SelectContributions(selects[..k]) + [SelectContribution(selects[k])];
      assert prefix + [SelectContribution(selects[k])] == InputContributions(inputs) + SelectContributions(selects[..k + 1]);
      values := values[selects[k].name := Text(selects[k].value)];
    }
    assert selects[..|selects|] == selects;
  }

  /**
   * A select overrides every input of the same name, and among selects the
   * last one of that name wins.
   */
  lemma SelectWins(inputs: seq<InputView>, selects: seq<SelectView>, k: nat)
    requires k < |selects|
    requires forall j :: k < j < |selects| ==> selects[j].name != selects[k].name
    ensures selects[k].name in Values(inputs, selects)
    ensures Values(inputs, selects)[selects[k].name] == Text(selects[k].value)
  {
    var ins, sels := InputContributions(inputs), SelectContributions(selects);
    var cs := ins + sels;
    var key := selects[k].name;
    assert cs[|inputs| + k] == sels[k];
    assert WritesAt(cs, key, |inputs| + k);
    assert forall j :: |inputs| + k < j < |cs| ==> cs[j] == sels[j - |inputs|];
    FoldLastWins(map[], cs, key);
    LastForSpec(cs, key);
    var i :| LastWriteAt(cs, key, i) && cs[i].value.1 == LastFor(cs, key).value;
    assert i == |inputs| + k;
  }

  /**
   * With no select of that name, a name is present exactly when some input
   * writes it (a checkbox, a checked radio, or a text-like input), and holds
   * the last such input's contribution.
   */
  lemma InputsWithoutSelect(inputs: seq<InputView>, selects: seq<SelectView>, key: string)
    requires forall j :: 0 <= j < |selects| ==> selects[j].name != key
    ensures key in Values(inputs, selects) <==> exists k :: WritesAt(InputContributions(inputs), key, k)
    ensures key in Values(inputs, selects) ==>
              exists k :: LastWriteAt(InputContributions(inputs), key, k)
                          && Some((key, Values(inputs, selects)[key])) == InputContribution(inputs[k])
  {
    var ins := InputContributions(inputs);
    var cs := ins + SelectContributions(selects);
    FoldLastWins(map[], cs, key);
    LastForSpec(cs, key);
    assert forall i :: WritesAt(cs, key, i) <==> WritesAt(ins, key, i);
    if key in Values(inputs, selects) {
      var i :| LastWriteAt(cs, key, i) && cs[i].value.1 == LastFor(cs, key).value;
      assert LastWriteAt(ins, key, i);
    }
  }

  /** A live `<input>`: `setValues` assigns its `checked` and `value`. */
  class InputElement {
    const name: string
    const inputType: string
    var value: string
    var checked: bool

    constructor (name: string, inputType: string, value: string, checked: bool)
      ensures this.name == name && this.inputType == inputType && this.value == value && this.checked == checked
    {
      this.name, this.inputType, this.value, this.checked := name, inputType, value, checked;
    }
  }

  /** A live `<select>`: `setValues` assigns its `value`. */
  class SelectElement {
    const name: string
    var value: string

    constructor (name: string, value: string)
      ensures this.name == name && this.value == value
    {
      this.name, this.value := name, value;
    }
  }

  /**
   * The new `checked` of an input given the map entry for its name: a
   * checkbox takes a boolean entry; a radio becomes checked when the entry
   * equals its own value and unchecked for any other string; every other case
   * leaves it.
   */
  function NewChecked(inputType: string, ownValue: string, checked: bool, entry: Option<FormValue>): (r: bool)
    ensures entry.None? ==> r == checked
    ensures inputType == "checkbox" ==> r == if entry.Some? && entry.value.Flag? then entry.value.b else checked
    ensures inputType == "radio" ==> r == if entry.Some? && entry.value.Text? then entry.value.s == ownValue else checked
    ensures inputType != "checkbox" && inputType != "radio" ==> r == checked
  {
    match entry
    case None => checked
    case Some(v) =>
      if inputType == "checkbox" then (if v.Flag? then v.b else checked)
      else if inputType == "radio" then (if v == Text(ownValue) then true else if v.Text? then false else checked)
      else checked
  }

  /** The new `value` of an input: only a text-like input takes a string entry. */
  function NewInputValue(inputType: string, value: string, entry: Option<FormValue>): (r: string)
    ensures r != value ==> inputType != "checkbox" && inputType != "radio" && entry.Some? && entry.value == Text(r)
    ensures inputType != "checkbox" && inputType != "radio" && entry.Some? && entry.value.Text? ==> r == entry.value.s
  {
    match entry
    case Some(Text(s)) => if inputType != "checkbox" && inputType != "radio" then s else value
    case _ => value
  }

  /** The new `value` of a select: it takes a string entry. */
  function NewSelectValue(value: string, entry: Option<FormValue>): (r: string)
    ensures r != value ==> entry == Some(Text(r))
    ensures entry.Some? && entry.value.Text? ==> r == entry.value.s
  {
    match entry
    case Some(Text(s)) => s
    case _ => value
  }

  function Get(values: map<string, FormValue>, key: string): (r: Option<FormValue>)
    ensures r.Some? <==> key in values
    ensures r.Some? ==> r.value == values[key]
  {
    if key in values then Some(values[key]) else None
  }

  /**
   * `FormHelper.setValues`: every input and select is updated from the entry
   * for its name, as `NewChecked`, `NewInputValue` and `NewSelectValue` say;
   * one without an entry is left untouched.
   */
  method SetValues(inputs: seq<InputElement>, selects: seq<SelectElement>, values: map<string, FormValue>)
    requires forall i, j :: 0 <= i < j < |inputs| ==> inputs[i] != inputs[j]
    requires forall i, j :: 0 <= i < j < |selects| ==> selects[i] != selects[j]
    modifies set e | e in inputs
    modifies set e | e in selects
    ensures forall e :: e in inputs ==>
              e.checked == NewChecked(e.inputType, old(e.value), old(e.checked), Get(values, e.name))
              && e.value == NewInputValue(e.inputType, old(e.value), Get(values, e.name))
    ensures forall e :: e in selects ==> e.value == NewSelectValue(old(e.value), Get(values, e.name))
  {
    for k := 0 to |inputs|
      invariant forall j :: 0 <= j < k ==>
                  inputs[j].checked == NewChecked(inputs[j].inputType, old(inputs[j].value), old(inputs[j].checked), Get(values, inputs[j].name))
                  && inputs[j].value == NewInputValue(inputs[j].inputType, old(inputs[j].value), Get(values, inputs[j].name))
      invariant forall j :: k <= j < |inputs| ==> inputs[j].checked == old(inputs[j].checked) && inputs[j].value == old(inputs[j].value)
      invariant forall e :: e in selects ==> e.value == old(e.value)
    {
      var inputElem := inputs[k];
      var value := Get(values, inputElem.name);
      if value.None? {
        continue;
      }
      if inputElem.inputType == "checkbox" {
        if value.value.Flag? {
          inputElem.checked := value.value.b;
        }
      } else if inputElem.inputType == "radio" {
        if value.value == Text(inputElem.value) {
          inputElem.checked := true;
        } else if value.value.Text? {
          inputElem.checked := false;
        }
      } else {
        if value.value.Text? {
          inputElem.value := value.value.s;
        }
      }
    }
    for k := 0 to |selects|
      invariant forall j :: 0 <= j < k ==> selects[j].value == NewSelectValue(old(selects[j].value), Get(values, selects[j].name))
      invariant forall j :: k <= j < |selects| ==> selects[j].value == old(selects[j].value)
      invariant forall e :: e in inputs ==>
                  e.checked == NewChecked(e.inputType, old(e.value), old(e.checked), Get(values, e.name))
                  && e.value == NewInputValue(e.inputType, old(e.value), Get(values, e.name))
    {
      var selectElem := selects[k];
      var value := Get(values, selectElem.name);
      if value.None? {
        continue;
      }
      if value.value.Text? {
        selectElem.value := value.value.s;
      }
    }
  }

  /**
   * Writing back what `getValues` read leaves an input whose name no other
   * input or select shares exactly as it was.
   */
  lemma SetAfterGetKeepsInput(inputs: seq<InputView>, selects: seq<SelectView>, k: nat)
    requires k < |inputs|
    requires forall j :: 0 <= j < |inputs| && j != k ==> inputs[j].name != inputs[k].name
    requires forall j :: 0 <= j < |selects| ==> selects[j].name != inputs[k].name
    ensures var entry := Get(Values(inputs, selects), inputs[k].name);
            NewChecked(inputs[k].inputType, inputs[k].value, inputs[k].checked, entry) == inputs[k].checked
            && NewInputValue(inputs[k].inputType, inputs[k].value, entry) == inputs[k].value
  {
    var key := inputs[k].name;
    var ins := InputContributions(inputs);
    InputsWithoutSelect(inputs, selects, key);
    assert forall j :: WritesAt(ins, key, j) ==> j == k;
    if key in Values(inputs, selects) {
      var j :| LastWriteAt(ins, key, j) && Some((key, Values(inputs, selects)[key])) == InputContribution(inputs[j]);
      assert j == k;
    }
  }
}

=== FILE: random_string.dfy ===
/**
 * `RandomString.generate` of `src/random_string.ts`. The bytes
 * `crypto.getRandomValues` fills in are a parameter; the model states what
 * the hex encoding makes of any bytes at all.
 */
module RandomStringModel {

  type Byte = b: int | 0 <= b < 256

  /** `Math.ceil(length / 2)`: the size of the byte buffer. */
  function ByteCount(length: nat): (n: nat)
    ensures 2 * n == length || 2 * n == length + 1
  {
    (length + 1) / 2
  }

  predicate IsHexDigit(c: char) {
    '0' <= c <= '9' || 'a' <= c <= 'f'
  }

  function HexDigit(d: nat): (c: char)
    requires d < 16
    ensures IsHexDigit(c)
    ensures DigitValue(c) == d
  {
    if d < 10 then '0' + d as char else 'a' + (d - 10) as char
  }

  function DigitValue(c: char): nat
    requires IsHexDigit(c)
  {
    if c <= '9' then (c - '0') as nat else (c - 'a') as nat + 10
  }

  /** `Number.prototype.toString(16)` on a non-negative integer: lower-case digits, no leading zeros. */
  function ToHex(n: nat): (r: string)
    ensures |r| >= 1 && (|r| == 1 <==> n < 16)
    ensures n < 256 ==> |r| <= 2
    ensures forall i :: 0 <= i < |r| ==> IsHexDigit(r[i])
  {
    if n < 16 then [HexDigit(n)] else ToHex(n / 16) + [HexDigit(n % 16)]
  }

  /** `str.slice(-2)`: the last two characters, or all of a shorter string. */
  function LastTwo(s: string): string {
    if |s| <= 2 then s else s[|s| - 2..]
  }

  /** `('0' + byte.toString(16)).slice(-2)`: exactly two hex digits, high nibble first. */
  function HexPair(b: Byte): (r: string)
    ensures r == [HexDigit(b / 16), HexDigit(b % 16)]
  {
    if b < 16 then
      assert "0" + ToHex(b) == [HexDigit(0), HexDigit(b)];
      LastTwo("0" + ToHex(b))
    else
      assert ToHex(b) == [HexDigit(b / 16), HexDigit(b % 16)];
      LastTwo("0" + ToHex(b))
  }

  /** `Array.from(bytes, HexPair).join('')`. */
  function HexOf(bytes: seq<Byte>): (r: string)
    ensures |r| == 2 * |bytes|
    ensures forall i :: 0 <= i < |bytes| ==> r[2 * i..2 * i + 2] == HexPair(bytes[i])
  {
    if bytes == [] then []
    else
      var rest := HexOf(bytes[1..]);
      assert forall i :: 1 <= i < |bytes| ==> (HexPair(bytes[0]) + rest)[2 * i..2 * i + 2] == rest[2 * (i - 1)..2 * (i - 1) + 2];
      HexPair(bytes[0]) + rest
  }

  lemma HexOfDigits(bytes: seq<Byte>)
    ensures forall i :: 0 <= i < |HexOf(bytes)| ==> IsHexDigit(HexOf(bytes)[i])
  {
    var hex := HexOf(bytes);
    forall i | 0 <= i < |hex| ensures IsHexDigit(hex[i]) {
      var j := i / 2;
      assert 2 * j <= i < 2 * j + 2 && j < |bytes|;
      var pair := HexPair(bytes[j]);
      assert hex[2 * j..2 * j + 2] == pair;
      assert hex[i] == pair[i - 2 * j];
    }
  }

  /** `RandomString.generate`: the hex text of `ceil(length / 2)` bytes, cut to `length`. */
  function Generate(length: nat, bytes: seq<Byte>): (r: string)
    requires |bytes| == ByteCount(length)
    ensures |r| == length
    ensures forall i :: 0 <= i < |r| ==> IsHexDigit(r[i])
  {
    HexOfDigits(bytes);
    HexOf(bytes)[..length]
  }

  /** Reading two hex digits per byte back. */
  function ParseHex(s: string): (bytes: seq<Byte>)
    requires |s| % 2 == 0 && forall i :: 0 <= i < |s| ==> IsHexDigit(s[i])
    ensures 2 * |bytes| == |s|
  {
    if s == [] then []
    else [16 * DigitValue(s[0]) + DigitValue(s[1])] + ParseHex(s[2..])
  }

  /** Character `i` of the result is the high or low nibble of byte `i / 2`. */
  lemma GenerateDigits(length: nat, bytes: seq<Byte>, i: nat)
    requires |bytes| == ByteCount(length) && i < length
    ensures Generate(length, bytes)[i] == HexDigit(if i % 2 == 0 then bytes[i / 2] / 16 else bytes[i / 2] % 16)
  {
    var hex := HexOf(bytes);
    var j := i / 2;
    assert hex[2 * j..2 * j + 2] == HexPair(bytes[j]);
    assert hex[i] == hex[2 * j..2 * j + 2][i - 2 * j];
  }

  /** For an even length no byte is cut: parsing the text gives the bytes back. */
  lemma {:induction false} ParseHexOf(bytes: seq<Byte>)
    ensures forall i :: 0 <= i < |HexOf(bytes)| ==> IsHexDigit(HexOf(bytes)[i])
    ensures ParseHex(HexOf(bytes)) == bytes
  {
    var hex := HexOf(bytes);
    HexOfDigits(bytes);
    if bytes != [] {
      ParseHexOf(bytes[1..]);
      var b := bytes[0];
      assert hex == HexPair(b) + HexOf(bytes[1..]);
      assert hex[2..] == HexOf(bytes[1..]);
      assert 16 * (b / 16) + b % 16 == b;
    }
  }

  lemma GenerateEvenRoundTrip(length: nat, bytes: seq<Byte>)
    requires |bytes| == ByteCount(length) && length % 2 == 0
    ensures ParseHex(Generate(length, bytes)) == bytes
  {
    ParseHexOf(bytes);
    assert Generate(length, bytes) == HexOf(bytes);
  }
}

=== FILE: router.dfy ===
/**
 * `Router` of `src/router.ts`: the stored query, the set of change callbacks,
 * and the query strings written to the browser history. The history API and
 * the callbacks' own effects are recorded as logs; `encodeURIComponent` is a
 * parameter.
 */
module RouterModel {
  import opened Wrappers
  import opened Strings

  /** One key/value pair of a query object. */
  datatype Entry = Entry(key: string, value: string)

  predicate KeysDistinct(q: seq<Entry>) {
    forall i, j :: 0 <= i < j < |q| ==> q[i].key != q[j].key
  }

  /** A `Router.Query` object: its pairs in the order `for ... in` enumerates them. */
  type Query = q: seq<Entry> | KeysDistinct(q) witness []

  /** `query[key]`: the value stored under `key`, or `None` for JavaScript's `undefined`. */
  function Lookup(q: Query, key: string): (r: Option<string>)
    ensures forall v :: r == Some(v) <==> Entry(key, v) in q
  {
    if q == [] then None
    else if q[0].key == key then Some(q[0].value)
    else Lookup(q[1..], key)
  }

  /** A registered change callback, known only by its identity. */
  datatype Callback = Callback(id: nat)

  /** A call made on the history API. */
  datatype HistoryCall = PushState(url: string) | ReplaceState(url: string)

  /** One pair as it appears in the query string. */
  function Piece(e: Entry, encode: string -> string): string {
    encode(e.key) + "=" + encode(e.value)
  }

  /** The pieces of the query string: one per pair whose value is not empty, in order. */
  function Pieces(q: seq<Entry>, encode: string -> string): (ps: seq<string>)
    ensures |ps| <= |q|
    ensures forall j :: 0 <= j < |ps| ==> '=' in ps[j]
  {
    if q == [] then []
    else
      var rest := Pieces(q[..|q| - 1], encode);
      var e := q[|q| - 1];
      if e.value == "" then rest else rest + [Piece(e, encode)]
  }

  /** The string `createQueryString` builds. */
  function QueryString(q: seq<Entry>, encode: string -> string): (r: string)
    ensures r == "" <==> Pieces(q, encode) == []
  {
    JoinEmptyIff(Pieces(q, encode));
    Join(Pieces(q, encode), "&")
  }

  /** A join of pieces that each hold '=' is empty only when there are no pieces. */
  lemma {:induction false} JoinEmptyIff(ps: seq<string>)
    requires forall j :: 0 <= j < |ps| ==> '=' in ps[j]
    ensures Join(ps, "&") == "" <==> ps == []
  {
    if |ps| > 1 {
      assert Join(ps, "&") == ps[0] + "&" + Join(ps[1..], "&");
    } else if |ps| == 1 {
      assert '=' in ps[0];
    }
  }

  /** Appending a piece to a non-empty list of pieces adds '&' and the piece. */
  lemma {:induction false} JoinSnoc(ps: seq<string>, x: string)
    ensures Join(ps + [x], "&") == if ps == [] then x else Join(ps, "&") + "&" + x
  {
    if |ps| > 1 {
      assert (ps + [x])[1..] == ps[1..] + [x];
      JoinSnoc(ps[1..], x);
    } else if |ps| == 1 {
      assert (ps + [x])[1..] == [x];
    }
  }

  /**
   * `createQueryString`: skips every pair whose value is '' and joins the
   * others as `encode(key)=encode(value)` with single '&' separators.
   */
  method CreateQueryString(query: Query, encode: string -> string) returns (queryString: string)
    ensures queryString == QueryString(query, encode)
  {
    queryString := "";
    for i := 0 to |query|
      invariant queryString == QueryString(query[..i], encode)
    {
      assert query[..i + 1][..i] == query[..i];
      if query[i].value == "" {
        continue;
      }
      JoinEmptyIff(Pieces(query[..i], encode));
      JoinSnoc(Pieces(query[..i], encode), Piece(query[i], encode));
      if queryString != "" {
        queryString := queryString + "&";
      }
      queryString := queryString + encode(query[i].key) + "=" + encode(query[i].value);
    }
    assert query[..|query|] == query;
  }

  /** The query string is empty exactly when every value is empty (an empty query included). */
  lemma QueryStringEmptyIff(q: seq<Entry>, encode: string -> string)
    ensures QueryString(q, encode) == "" <==> forall i :: 0 <= i < |q| ==> q[i].value == ""
  {
    JoinEmptyIff(Pieces(q, encode));
    PiecesEmptyIff(q, encode);
  }

  lemma {:induction false} PiecesEmptyIff(q: seq<Entry>, encode: string -> string)
    ensures Pieces(q, encode) == [] <==> forall i :: 0 <= i < |q| ==> q[i].value == ""
  {
    if q != [] {
      PiecesEmptyIff(q[..|q| - 1], encode);
      assert forall i :: 0 <= i < |q| - 1 ==> q[..|q| - 1][i] == q[i];
    }
  }

  /**
   * With an encoder that never writes '&' (as `encodeURIComponent` escapes it),
   * splitting the query string on '&' gives back exactly the pieces: no empty
   * piece, no leading or trailing separator.
   */
  lemma QueryStringSplits(q: seq<Entry>, encode: string -> string)
    requires forall s :: '&' !in encode(s)
    requires exists i :: 0 <= i < |q| && q[i].value != ""
    ensures Split(QueryString(q, encode), '&') == Pieces(q, encode)
  {
    var ps := Pieces(q, encode);
    PiecesEmptyIff(q, encode);
    PiecesAvoid(q, encode);
    SplitJoin(ps, '&');
  }

  lemma {:induction false} PiecesAvoid(q: seq<Entry>, encode: string -> string)
    requires forall s :: '&' !in encode(s)
    ensures forall j, i :: 0 <= j < |Pieces(q, encode)| && 0 <= i < |Pieces(q, encode)[j]| ==> Pieces(q, encode)[j][i] != '&'
  {
    if q != [] {
      PiecesAvoid(q[..|q| - 1], encode);
      var e := q[|q| - 1];
      assert '&' !in encode(e.key) && '&' !in encode(e.value);
    }
  }

  class Router {
    /** The current query. */
    var query: Query
    /** The registered callbacks, in insertion order (a JavaScript `Set`). */
    var callbacks: seq<Callback>
    /** The calls made on the history API, oldest first. */
    var history: seq<HistoryCall>
    /** The callback invocations made, oldest first, with the query each one received. */
    var calls: seq<(Callback, Query)>

    ghost predicate Valid()
      reads this
    {
      forall i, j :: 0 <= i < j < |callbacks| ==> callbacks[i] != callbacks[j]
    }

    constructor ()
      ensures Valid()
      ensures query == [] && callbacks == [] && history == [] && calls == []
    {
      query := [];
      callbacks := [];
      history := [];
      calls := [];
    }

    /** `getValue`: the stored value for `key`, empty strings included. */
    function GetValue(key: string): (r: Option<string>)
      reads this
      ensures forall v :: r == Some(v) <==> Entry(key, v) in query
    {
      Lookup(query, key)
    }

    /** `addCallback`: set insertion, so adding twice keeps one copy. */
    method AddCallback(callback: Callback)
      requires Valid()
      modifies this`callbacks
      ensures Valid()
      ensures callback in callbacks
      ensures callbacks == if callback in old(callbacks) then old(callbacks) else old(callbacks) + [callback]
    {
      if callback !in callbacks {
        callbacks := callbacks + [callback];
      }
    }

    /** `removeCallback`: set deletion; the other callbacks keep their order. */
    method RemoveCallback(callback: Callback)
      requires Valid()
      modifies this`callbacks
      ensures Valid()
      ensures callback !in callbacks
      ensures forall c :: c in callbacks <==> c in old(callbacks) && c != callback
      ensures callback !in old(callbacks) ==> callbacks == old(callbacks)
      ensures callback in old(callbacks) ==>
                exists i :: 0 <= i < |old(callbacks)| && old(callbacks)[i] == callback
                            && callbacks == old(callbacks)[..i] + old(callbacks)[i + 1..]
    {
      var i := 0;
      while i < |callbacks| && callbacks[i] != callback
        invariant 0 <= i <= |callbacks|
        invariant callback !in callbacks[..i]
      {
        i := i + 1;
      }
      if i < |callbacks| {
        ghost var before := callbacks;
        callbacks := callbacks[..i] + callbacks[i + 1..];
        assert forall k :: 0 <= k < |callbacks| ==> callbacks[k] == if k < i then before[k] else before[k + 1];
        assert forall c :: c in before && c != callback ==> c in callbacks by {
          forall c | c in before && c != callback ensures c in callbacks {
            var k :| 0 <= k < |before| && before[k] == c;
            assert callbacks[if k < i then k else k - 1] == c;
          }
        }
        assert before[i] == callback;
      } else {
        assert callbacks[..i] == callbacks;
      }
    }

    /** The stored query becomes a pair-by-pair copy of `q`. */
    method CopyQuery(q: Query)
      modifies this`query
      ensures query == q
    {
      var copy: seq<Entry> := [];
      for i := 0 to |q|
        invariant copy == q[..i]
      {
        copy := copy + [q[i]];
      }
      assert copy == q;
      query := copy;
    }

    /** `callCallbacks`: every registered callback, in order, once, with the stored query. */
    method CallCallbacks()
      modifies this`calls
      ensures calls == old(calls) + Invocations(callbacks, query)
    {
      for i := 0 to |callbacks|
        invariant calls == old(calls) + Invocations(callbacks[..i], query)
      {
        assert callbacks[..i + 1] == callbacks[..i] + [callbacks[i]];
        InvocationsSnoc(callbacks[..i], callbacks[i], query);
        calls := calls + [(callbacks[i], query)];
      }
      assert callbacks[..|callbacks|] == callbacks;
    }

    /**
     * `pushQuery`: replaces the stored query by a copy of `q`, pushes
     * '?' + the query string on the history, then calls every callback.
     */
    method PushQuery(q: Query, encode: string -> string)
      requires Valid()
      modifies this`query, this`history, this`calls
      ensures Valid()
      ensures query == q
      ensures forall k :: GetValue(k) == Lookup(q, k)
      ensures history == old(history) + [PushState("?" + QueryString(q, encode))]
      ensures calls == old(calls) + Invocations(callbacks, q)
    {
      CopyQuery(q);
      var queryString := CreateQueryString(q, encode);
      history := history + [PushState("?" + queryString)];
      CallCallbacks();
    }

    /**
     * `replaceQuery`: replaces the stored query by a copy of `q` and replaces
     * the top history entry with '?' + the query string; calls no callback.
     */
    method ReplaceQuery(q: Query, encode: string -> string)
      requires Valid()
      modifies this`query, this`history
      ensures Valid()
      ensures query == q
      ensures forall k :: GetValue(k) == Lookup(q, k)
      ensures history == old(history) + [ReplaceState("?" + QueryString(q, encode))]
    {
      CopyQuery(q);
      var queryString := CreateQueryString(q, encode);
      history := history + [ReplaceState("?" + queryString)];
    }
  }

  /** One invocation per callback, in order, each receiving `q`. */
  function Invocations(cbs: seq<Callback>, q: Query): (r: seq<(Callback, Query)>)
    ensures |r| == |cbs|
    ensures forall i :: 0 <= i < |cbs| ==> r[i] == (cbs[i], q)
  {
    seq(|cbs|, i requires 0 <= i < |cbs| => (cbs[i], q))
  }

  lemma InvocationsSnoc(cbs: seq<Callback>, c: Callback, q: Query)
    ensures Invocations(cbs + [c], q) == Invocations(cbs, q) + [(c, q)]
  {
  }

  /** Every callback registered once is invoked exactly once by `pushQuery`. */
  lemma InvokedOnce(cbs: seq<Callback>, q: Query, c: Callback)
    requires forall i, j :: 0 <= i < j < |cbs| ==> cbs[i] != cbs[j]
    requires c in cbs
    ensures exists i :: (0 <= i < |cbs| && Invocations(cbs, q)[i] == (c, q)
                         && forall j :: 0 <= j < |cbs| && j != i ==> Invocations(cbs, q)[j].0 != c)
  {
    var i :| 0 <= i < |cbs| && cbs[i] == c;
    assert Invocations(cbs, q)[i] == (c, q);
  }
}

=== FILE: sort.dfy ===
/**
 * Sorted-array helpers of `src/sort.ts`. The comparison callbacks are total
 * functions supplied by the caller. `getIndex` and `has` only read the array;
 * `add`, `addIfUnique` and `remove` splice it, which changes its length, so
 * the array they change is a `JsArray` whose contents are a sequence; `sort`
 * swaps cells of a fixed-length `array` in place.
 */
module Sort {

  /** A JavaScript array that `splice` may grow or shrink. */
  class JsArray<T> {
    var elems: seq<T>

    constructor (init: seq<T>)
      ensures elems == init
    {
      elems := init;
    }
  }

  /** `lt` is a strict weak order: irreflexive, asymmetric and with a transitive complement. */
  ghost predicate StrictWeakOrder<T(!new)>(lt: (T, T) -> bool) {
    && (forall a :: !lt(a, a))
    && (forall a, b :: lt(a, b) ==> !lt(b, a))
    && (forall a, b, c :: !lt(a, b) && !lt(b, c) ==> !lt(a, c))
  }

  /** Non-decreasing with respect to `lt`: no element is less than an earlier one. */
  ghost predicate Sorted<T>(s: seq<T>, lt: (T, T) -> bool) {
    forall i, j :: 0 <= i < j < |s| ==> !lt(s[j], s[i])
  }

  /** Strictly increasing: every element is less than every later one. */
  ghost predicate StrictlySorted<T>(s: seq<T>, lt: (T, T) -> bool) {
    forall i, j :: 0 <= i < j < |s| ==> lt(s[i], s[j])
  }

  /** The elements less than `key` form a prefix of `s`. */
  ghost predicate Partitioned<T, K>(s: seq<T>, key: K, lt: (T, K) -> bool) {
    forall i, j :: 0 <= i < j < |s| && lt(s[j], key) ==> lt(s[i], key)
  }

  /** The length of the longest prefix of `s` whose elements are all less than `key`. */
  function LessPrefix<T, K>(s: seq<T>, key: K, lt: (T, K) -> bool): (p: nat)
    ensures p <= |s|
    ensures forall i :: 0 <= i < p ==> lt(s[i], key)
    ensures p < |s| ==> !lt(s[p], key)
  {
    if s == [] || !lt(s[0], key) then 0 else 1 + LessPrefix(s[1..], key, lt)
  }

  /** The binary search of `getIndex` on the window [low, high). */
  function Search<T, K>(s: seq<T>, key: K, lt: (T, K) -> bool, low: nat, high: nat): (r: nat)
    requires low <= high <= |s|
    ensures low <= r <= high
    ensures r > low ==> lt(s[r - 1], key)
    ensures r < high ==> !lt(s[r], key)
    decreases high - low
  {
    if low < high then
      var mid := (low + high) / 2;
      if lt(s[mid], key) then Search(s, key, lt, mid + 1, high) else Search(s, key, lt, low, mid)
    else low
  }

  /** The index `getIndex` returns. */
  function LowerBound<T, K>(s: seq<T>, key: K, lt: (T, K) -> bool): (r: nat)
    ensures r <= |s|
    ensures r > 0 ==> lt(s[r - 1], key)
    ensures r < |s| ==> !lt(s[r], key)
  {
    Search(s, key, lt, 0, |s|)
  }

  /**
   * When the elements less than `key` form a prefix, `getIndex` returns that
   * prefix's length; in particular `|s|` when every element is less.
   */
  lemma LowerBoundIsPrefixLength<T, K>(s: seq<T>, key: K, lt: (T, K) -> bool)
    requires Partitioned(s, key, lt)
    ensures LowerBound(s, key, lt) == LessPrefix(s, key, lt)
    ensures (forall i :: 0 <= i < |s| ==> lt(s[i], key)) ==> LowerBound(s, key, lt) == |s|
  {
    BoundaryUnique(s, key, lt, LowerBound(s, key, lt), LessPrefix(s, key, lt));
  }

  /** In a partitioned array only one index separates the elements less than `key` from the rest. */
  lemma BoundaryUnique<T, K>(s: seq<T>, key: K, lt: (T, K) -> bool, q: nat, p: nat)
    requires Partitioned(s, key, lt)
    requires q <= |s| && (q > 0 ==> lt(s[q - 1], key)) && (q < |s| ==> !lt(s[q], key))
    requires p <= |s| && (forall i :: 0 <= i < p ==> lt(s[i], key)) && (p < |s| ==> !lt(s[p], key))
    ensures q == p
  {
  }

  /** A sorted array is partitioned by any key under a strict weak order. */
  lemma SortedIsPartitioned<T(!new)>(s: seq<T>, key: T, lt: (T, T) -> bool)
    requires StrictWeakOrder(lt) && Sorted(s, lt)
    ensures Partitioned(s, key, lt)
  {
    forall i, j | 0 <= i < j < |s| && lt(s[j], key)
      ensures lt(s[i], key)
    {
      assert !lt(s[j], s[i]);
    }
  }

  /** `Sort.getIndex`: binary search for the first index whose element is not less than `key`. */
  method GetIndex<T, K>(key: K, s: seq<T>, lt: (T, K) -> bool) returns (low: nat)
    ensures low == LowerBound(s, key, lt)
    ensures low <= |s|
    ensures low > 0 ==> lt(s[low - 1], key)
    ensures low < |s| ==> !lt(s[low], key)
  {
    low := 0;
    var high := |s|;
    while low < high
      invariant low <= high <= |s|
      invariant Search(s, key, lt, low, high) == Search(s, key, lt, 0, |s|)
    {
      var mid := (low + high) / 2;
      if lt(s[mid], key) {
        low := mid + 1;
      } else {
        high := mid;
      }
    }
  }

  /** `Sort.has`: the element at the lower-bound index exists and equals `key`. */
  method Has<T, K>(key: K, s: seq<T>, lt: (T, K) -> bool, eq: (T, K) -> bool) returns (found: bool)
    ensures found == Found(s, key, lt, eq)
  {
    var index := GetIndex(key, s, lt);
    found := index < |s| && eq(s[index], key);
  }

  /** What `has` answers, as a function of the array. */
  function Found<T, K>(s: seq<T>, key: K, lt: (T, K) -> bool, eq: (T, K) -> bool): bool {
    var i := LowerBound(s, key, lt);
    i < |s| && eq(s[i], key)
  }

  /** Equivalence under a strict weak order: neither element is less than the other. */
  ghost predicate Equivalent<T>(lt: (T, T) -> bool, a: T, b: T) {
    !lt(a, b) && !lt(b, a)
  }

  /**
   * On a sorted array, with `isEqual` the equivalence of `isLess`, `has`
   * is true exactly when some element is equivalent to the key.
   */
  lemma FoundIffPresent<T(!new)>(s: seq<T>, key: T, lt: (T, T) -> bool, eq: (T, T) -> bool)
    requires StrictWeakOrder(lt) && Sorted(s, lt)
    requires forall a, b :: eq(a, b) == Equivalent(lt, a, b)
    ensures Found(s, key, lt, eq) <==> exists i :: 0 <= i < |s| && Equivalent(lt, s[i], key)
  {
    var r := LowerBound(s, key, lt);
    if i :| 0 <= i < |s| && Equivalent(lt, s[i], key) {
      SortedIsPartitioned(s, key, lt);
      LowerBoundIsPrefixLength(s, key, lt);
      assert r <= i;
      assert !lt(key, s[i]) && !lt(s[i], s[r]);
      assert eq(s[r], key);
    }
  }

  /** A strict weak order is transitive. */
  lemma LessTransitive<T(!new)>(lt: (T, T) -> bool, a: T, b: T, c: T)
    requires StrictWeakOrder(lt) && lt(a, b) && lt(b, c)
    ensures lt(a, c)
  {
    assert !lt(c, b);
  }

  /** `s` with `v` inserted at index `i`, as `splice(i, 0, v)` does. */
  function InsertAt<T>(s: seq<T>, i: nat, v: T): (r: seq<T>)
    requires i <= |s|
    ensures |r| == |s| + 1 && r[i] == v
    ensures forall k :: 0 <= k < i ==> r[k] == s[k]
    ensures forall k :: i < k < |r| ==> r[k] == s[k - 1]
    ensures multiset(r) == multiset(s) + multiset{v}
  {
    assert s == s[..i] + s[i..];
    s[..i] + [v] + s[i..]
  }

  /** `s` without its element at index `i`, as `splice(i, 1)` does. */
  function RemoveAt<T>(s: seq<T>, i: nat): (r: seq<T>)
    requires i < |s|
    ensures |r| == |s| - 1
    ensures forall k :: 0 <= k < i ==> r[k] == s[k]
    ensures forall k :: i <= k < |r| ==> r[k] == s[k + 1]
    ensures multiset(r) + multiset{s[i]} == multiset(s)
  {
    assert s == s[..i] + [s[i]] + s[i + 1..];
    s[..i] + s[i + 1..]
  }

  /** `Sort.add`: splice `value` in at `getIndex(value)`. */
  method Add<T>(value: T, arr: JsArray<T>, lt: (T, T) -> bool)
    modifies arr
    ensures arr.elems == InsertAt(old(arr.elems), LowerBound(old(arr.elems), value, lt), value)
  {
    var index := GetIndex(value, arr.elems, lt);
    arr.elems := arr.elems[..index] + [value] + arr.elems[index..];
  }

  /** Inserting at the lower bound keeps a sorted array sorted. */
  lemma InsertKeepsSorted<T(!new)>(s: seq<T>, v: T, lt: (T, T) -> bool)
    requires StrictWeakOrder(lt) && Sorted(s, lt)
    ensures Sorted(InsertAt(s, LowerBound(s, v, lt), v), lt)
  {
    var i := LowerBound(s, v, lt);
    var r := InsertAt(s, i, v);
    forall k | 0 <= k < i ensures !lt(v, s[k]) {
      assert !lt(v, s[i - 1]);
      if k < i - 1 {
        assert !lt(s[i - 1], s[k]);
      }
    }
    forall k | i <= k < |s| ensures !lt(s[k], v) {
      assert !lt(s[i], v);
      assert !lt(s[k], s[i]);
    }
    forall a, b | 0 <= a < b < |r| ensures !lt(r[b], r[a]) {
      if b < i {
      } else if b == i {
        assert r[a] == s[a];
      } else if a == i {
        assert r[b] == s[b - 1];
      } else if a < i {
        assert r[a] == s[a] && r[b] == s[b - 1];
      } else {
        assert r[a] == s[a - 1] && r[b] == s[b - 1];
      }
    }
  }

  /**
   * `Sort.addIfUnique`: when the element at `getIndex(value)` equals `value`
   * nothing changes and the answer is false; otherwise `value` is inserted there.
   */
  method AddIfUnique<T>(value: T, arr: JsArray<T>, lt: (T, T) -> bool, eq: (T, T) -> bool) returns (added: bool)
    modifies arr
    ensures added == !Found(old(arr.elems), value, lt, eq)
    ensures arr.elems == if added then InsertAt(old(arr.elems), LowerBound(old(arr.elems), value, lt), value)
                         else old(arr.elems)
  {
    var index := GetIndex(value, arr.elems, lt);
    if index < |arr.elems| && eq(arr.elems[index], value) {
      return false;
    }
    arr.elems := arr.elems[..index] + [value] + arr.elems[index..];
    return true;
  }

  /**
   * On a strictly increasing array, with `isEqual` the equivalence of
   * `isLess`, `addIfUnique` keeps the array strictly increasing.
   */
  lemma AddIfUniqueKeepsStrict<T(!new)>(s: seq<T>, v: T, lt: (T, T) -> bool, eq: (T, T) -> bool)
    requires StrictWeakOrder(lt) && StrictlySorted(s, lt)
    requires forall a, b :: eq(a, b) == Equivalent(lt, a, b)
    requires !Found(s, v, lt, eq)
    ensures StrictlySorted(InsertAt(s, LowerBound(s, v, lt), v), lt)
  {
    var i := LowerBound(s, v, lt);
    var r := InsertAt(s, i, v);
    if i < |s| {
      assert !eq(s[i], v);
      assert lt(v, s[i]);
    }
    forall k | 0 <= k < i ensures lt(s[k], v) {
      if k < i - 1 {
        LessTransitive(lt, s[k], s[i - 1], v);
      }
    }
    forall k | i <= k < |s| ensures lt(v, s[k]) {
      if k > i {
        LessTransitive(lt, v, s[i], s[k]);
      }
    }
    forall a, b | 0 <= a < b < |r| ensures lt(r[a], r[b]) {
      if b < i {
      } else if b == i {
        assert r[a] == s[a];
      } else if a == i {
        assert r[b] == s[b - 1];
      } else if a < i {
        assert r[a] == s[a] && r[b] == s[b - 1];
      } else {
        assert r[a] == s[a - 1] && r[b] == s[b - 1];
      }
    }
  }

  /**
   * `Sort.remove`: when the element at `getIndex(key)` equals `key` it alone is
   * spliced out and the answer is true; otherwise nothing changes.
   */
  method Remove<T, K>(key: K, arr: JsArray<T>, lt: (T, K) -> bool, eq: (T, K) -> bool) returns (removed: bool)
    modifies arr
    ensures removed == Found(old(arr.elems), key, lt, eq)
    ensures arr.elems == if removed then RemoveAt(old(arr.elems), LowerBound(old(arr.elems), key, lt))
                         else old(arr.elems)
  {
    var index := GetIndex(key, arr.elems, lt);
    if index < |arr.elems| && eq(arr.elems[index], key) {
      arr.elems := arr.elems[..index] + arr.elems[index + 1..];
      return true;
    }
    return false;
  }

  /** Removing one element keeps a sorted array sorted. */
  lemma RemoveKeepsSorted<T>(s: seq<T>, i: nat, lt: (T, T) -> bool)
    requires i < |s| && Sorted(s, lt)
    ensures Sorted(RemoveAt(s, i), lt)
  {
    var r := RemoveAt(s, i);
    forall a, b | 0 <= a < b < |r| ensures !lt(r[b], r[a]) {
      var a', b' := if a < i then a else a + 1, if b < i then b else b + 1;
      assert r[a] == s[a'] && r[b] == s[b'];
    }
  }

  /** `s` with the elements at `i` and `j` exchanged. */
  function Swap<T>(s: seq<T>, i: nat, j: nat): (r: seq<T>)
    requires i < |s| && j < |s|
    ensures |r| == |s| && r[i] == s[j] && r[j] == s[i]
    ensures forall k :: 0 <= k < |s| && k != i && k != j ==> r[k] == s[k]
    ensures multiset(r) == multiset(s)
  {
    s[i := s[j]][j := s[i]]
  }

  /**
   * One pass of the inner loop of `Sort.sort` as written: while `m >= 0` and
   * the element now at `n` is less than the one at `m`, swap positions `m` and
   * `m + 1` and step `m` down. The comparison reads index `n` on every step,
   * not the element being moved.
   */
  function InnerPass<T>(s: seq<T>, n: nat, m: int, lt: (T, T) -> bool): (r: seq<T>)
    requires -1 <= m < n < |s|
    ensures |r| == |s| && multiset(r) == multiset(s)
    decreases m + 1
  {
    if m < 0 || !lt(s[n], s[m]) then s else InnerPass(Swap(s, m, m + 1), n, m - 1, lt)
  }

  /** The outer loop of `Sort.sort` from index `n` on. */
  function OuterPass<T>(s: seq<T>, n: nat, lt: (T, T) -> bool): (r: seq<T>)
    requires 1 <= n <= |s|
    ensures |r| == |s| && multiset(r) == multiset(s)
    decreases |s| - n
  {
    if n == |s| then s else OuterPass(InnerPass(s, n, n - 1, lt), n + 1, lt)
  }

  /** What `Sort.sort` leaves in the array. */
  function SortAsWritten<T>(s: seq<T>, lt: (T, T) -> bool): (r: seq<T>)
    ensures |r| == |s| && multiset(r) == multiset(s)
    ensures s == [] ==> r == []
  {
    if |s| == 0 then s else OuterPass(s, 1, lt)
  }

  /**
   * `Sort.sort` as written: the result is a permutation of the input (every
   * step is a swap) and equals `SortAsWritten` of the input.
   */
  method SortInPlace<T>(a: array<T>, lt: (T, T) -> bool)
    modifies a
    ensures a[..] == SortAsWritten(old(a[..]), lt)
    ensures multiset(a[..]) == multiset(old(a[..]))
  {
    if a.Length == 0 {
      return;
    }
    var n := 1;
    while n < a.Length
      invariant 1 <= n <= a.Length
      invariant OuterPass(a[..], n, lt) == SortAsWritten(old(a[..]), lt)
    {
      var m := n - 1;
      ghost var start := a[..];
      while m >= 0 && lt(a[n], a[m])
        invariant -1 <= m < n
        invariant InnerPass(a[..], n, m, lt) == InnerPass(start, n, n - 1, lt)
      {
        ghost var before := a[..];
        var t := a[m];
        a[m] := a[m + 1];
        a[m + 1] := t;
        assert a[..] == Swap(before, m, m + 1);
        m := m - 1;
      }
      n := n + 1;
    }
  }

  /** The integers under `<`. */
  function IntLess(x: int, y: int): bool {
    x < y
  }

  /** Counterexample: `Sort.sort` leaves [3, 2, 1] as [2, 1, 3], which is not sorted. */
  lemma SortAsWrittenDoesNotSort()
    ensures SortAsWritten([3, 2, 1], IntLess) == [2, 1, 3]
    ensures !Sorted(SortAsWritten([3, 2, 1], IntLess), IntLess)
  {
    var s0: seq<int> := [3, 2, 1];
    var s1 := InnerPass(s0, 1, 0, IntLess);
    assert s1 == [2, 3, 1] by {
      assert InnerPass(s0, 1, 0, IntLess) == InnerPass([2, 3, 1], 1, -1, IntLess);
    }
    assert InnerPass(s1, 2, 1, IntLess) == [2, 1, 3] by {
      assert InnerPass(s1, 2, 1, IntLess) == InnerPass([2, 1, 3], 2, 0, IntLess);
    }
    assert OuterPass(s0, 1, IntLess) == OuterPass(s1, 2, IntLess);
    var r := SortAsWritten(s0, IntLess);
    assert IntLess(r[1], r[0]);
  }

  /**
   * Insertion sort as `Sort.sort` evidently intends it: the inner loop
   * compares the element being moved, `a[m + 1]`, with `a[m]`. The result is
   * sorted and a permutation of the input.
   */
  method InsertionSort<T(!new)>(a: array<T>, lt: (T, T) -> bool)
    requires StrictWeakOrder(lt)
    modifies a
    ensures Sorted(a[..], lt)
    ensures multiset(a[..]) == multiset(old(a[..]))
  {
    if a.Length == 0 {
      return;
    }
    var n := 1;
    while n < a.Length
      invariant 1 <= n <= a.Length
      invariant Sorted(a[..n], lt)
      invariant multiset(a[..]) == multiset(old(a[..]))
    {
      SinkInto(a, n, lt);
      n := n + 1;
    }
    assert a[..] == a[..a.Length];
  }

  /** One pass of the corrected inner loop: moves `a[n]` left into the sorted prefix `a[..n]`. */
  method SinkInto<T(!new)>(a: array<T>, n: nat, lt: (T, T) -> bool)
    requires StrictWeakOrder(lt) && n < a.Length
    requires Sorted(a[..n], lt)
    modifies a
    ensures Sorted(a[..n + 1], lt)
    ensures multiset(a[..]) == multiset(old(a[..]))
  {
    var m: int := n - 1;
    assert a[..n + 1][..n] == a[..n];
    SortedPrefixAround(a[..n + 1], lt);
    while m >= 0 && lt(a[m + 1], a[m])
      invariant -1 <= m < n
      invariant multiset(a[..]) == multiset(old(a[..]))
      invariant SortedAround(a[..n + 1], m + 1, lt)
      invariant LessThanAfter(a[..n + 1], m + 1, lt)
    {
      ghost var before := a[..];
      SwapStep(a[..n + 1], m + 1, lt);
      a[m], a[m + 1] := a[m + 1], a[m];
      assert a[..] == Swap(before, m, m + 1);
      assert a[..n + 1] == Swap(before[..n + 1], m, m + 1);
      m := m - 1;
    }
    SortedAroundDone(a[..n + 1], m + 1, lt);
  }

  /** Every element after index `p` is greater than the one at `p`. */
  ghost predicate LessThanAfter<T>(s: seq<T>, p: nat, lt: (T, T) -> bool) {
    forall k :: p < k < |s| ==> lt(s[p], s[k])
  }

  /** `s` is sorted once the element at `p` is left out. */
  ghost predicate SortedAround<T>(s: seq<T>, p: nat, lt: (T, T) -> bool) {
    forall i, j :: 0 <= i < j < |s| && i != p && j != p ==> !lt(s[j], s[i])
  }

  /** Swapping the moving element with a greater left neighbour keeps the loop's invariants. */
  lemma SwapStep<T(!new)>(s: seq<T>, p: nat, lt: (T, T) -> bool)
    requires StrictWeakOrder(lt) && 0 < p < |s|
    requires SortedAround(s, p, lt)
    requires LessThanAfter(s, p, lt)
    requires lt(s[p], s[p - 1])
    ensures SortedAround(Swap(s, p - 1, p), p - 1, lt)
    ensures LessThanAfter(Swap(s, p - 1, p), p - 1, lt)
  {
    var t := Swap(s, p - 1, p);
    forall i, j | 0 <= i < j < |t| && i != p - 1 && j != p - 1 ensures !lt(t[j], t[i]) {
      var i', j' := if i == p then p - 1 else i, if j == p then p - 1 else j;
      assert t[i] == s[i'] && t[j] == s[j'];
    }
  }

  /** A sorted prefix followed by one new element is sorted around that element. */
  lemma SortedPrefixAround<T>(s: seq<T>, lt: (T, T) -> bool)
    requires |s| > 0 && Sorted(s[..|s| - 1], lt)
    ensures SortedAround(s, |s| - 1, lt)
  {
    var q := s[..|s| - 1];
    forall i, j | 0 <= i < j < |s| && i != |s| - 1 && j != |s| - 1 ensures !lt(s[j], s[i]) {
      assert s[i] == q[i] && s[j] == q[j];
    }
  }

  /** The moving element has stopped: it is not less than its left neighbour. */
  lemma SortedAroundDone<T(!new)>(s: seq<T>, p: nat, lt: (T, T) -> bool)
    requires StrictWeakOrder(lt) && p < |s|
    requires SortedAround(s, p, lt)
    requires LessThanAfter(s, p, lt)
    requires p > 0 ==> !lt(s[p], s[p - 1])
    ensures Sorted(s, lt)
  {
    forall i, j | 0 <= i < j < |s| ensures !lt(s[j], s[i]) {
      if j == p && i < p - 1 {
        assert !lt(s[p - 1], s[i]);
      } else if i == p {
        assert lt(s[p], s[j]);
      }
    }
  }
}

=== FILE: strings.dfy ===
/**
 * The handful of JavaScript string operations the modelled files rely on:
 * `trim`, `startsWith`/`endsWith`, `split` on one character, `join`,
 * removing a set of characters (a global regex replace by ''), ASCII
 * `toLowerCase` and decimal formatting of integers.
 */
module Strings {

  /** ECMAScript WhiteSpace and LineTerminator code points, the set `trim` removes. */
  predicate IsWhitespace(c: char) {
    c == '\t' || c == '\n' || c == '\U{B}' || c == '\U{C}' || c == '\r' || c == ' '
    || c == '\U{A0}' || c == '\U{1680}' || ('\U{2000}' <= c <= '\U{200A}')
    || c == '\U{2028}' || c == '\U{2029}' || c == '\U{202F}' || c == '\U{205F}'
    || c == '\U{3000}' || c == '\U{FEFF}'
  }

  function TrimStart(s: string): (r: string)
    ensures |r| <= |s|
    ensures r == [] || !IsWhitespace(r[0])
    ensures forall i :: 0 <= i < |s| - |r| ==> IsWhitespace(s[i])
  {
    if s == [] || !IsWhitespace(s[0]) then s else TrimStart(s[1..])
  }

  function TrimEnd(s: string): (r: string)
    ensures |r| <= |s| && r == s[..|r|]
    ensures r == [] || !IsWhitespace(r[|r| - 1])
    ensures forall i :: |r| <= i < |s| ==> IsWhitespace(s[i])
  {
    if s == [] || !IsWhitespace(s[|s| - 1]) then s else TrimEnd(s[..|s| - 1])
  }

  /** `String.prototype.trim`. */
  function Trim(s: string): (r: string)
    ensures r == [] || (!IsWhitespace(r[0]) && !IsWhitespace(r[|r| - 1]))
    ensures |r| <= |s|
    ensures (s == [] || (!IsWhitespace(s[0]) && !IsWhitespace(s[|s| - 1]))) ==> r == s
  {
    TrimEnd(TrimStart(s))
  }

  /** What `trim` keeps is a slice of its input: whitespace is cut from the ends only. */
  lemma {:induction false} TrimSlice(s: string)
    ensures TrimStart(s) == s[|s| - |TrimStart(s)|..]
    ensures |Trim(s)| <= |TrimStart(s)| && Trim(s) == TrimStart(s)[..|Trim(s)|]
  {
    if s != [] && IsWhitespace(s[0]) {
      TrimSlice(s[1..]);
    }
  }

  predicate StartsWith(s: string, prefix: string) {
    |prefix| <= |s| && s[..|prefix|] == prefix
  }

  predicate EndsWith(s: string, suffix: string) {
    |suffix| <= |s| && s[|s| - |suffix|..] == suffix
  }

  /** `s.replace(/[...]+/g, '')`: every character in `drop` is removed, the rest keep their order. */
  function RemoveAll(s: string, drop: set<char>): (r: string)
    ensures forall i :: 0 <= i < |r| ==> r[i] !in drop
    ensures |r| <= |s|
    ensures (forall i :: 0 <= i < |s| ==> s[i] !in drop) ==> r == s
  {
    if s == [] then []
    else if s[0] in drop then RemoveAll(s[1..], drop)
    else [s[0]] + RemoveAll(s[1..], drop)
  }

  /** Index of the first occurrence of `c` in `s`, or `|s|` when there is none. */
  function IndexOf(s: string, c: char): (k: nat)
    ensures k <= |s|
    ensures k < |s| ==> s[k] == c
    ensures forall i :: 0 <= i < k ==> s[i] != c
  {
    if s == [] then 0 else if s[0] == c then 0 else 1 + IndexOf(s[1..], c)
  }

  /** `s.split(c)` for a one-character separator: always at least one piece. */
  function Split(s: string, c: char): (parts: seq<string>)
    ensures |parts| >= 1
    ensures parts[0] == s[..IndexOf(s, c)]
    ensures IndexOf(s, c) < |s| ==> |parts| >= 2 && parts[1..] == Split(s[IndexOf(s, c) + 1..], c)
    ensures IndexOf(s, c) == |s| ==> parts == [s]
    ensures forall j, i :: 0 <= j < |parts| && 0 <= i < |parts[j]| ==> parts[j][i] != c
    decreases |s|
  {
    var k := IndexOf(s, c);
    if k == |s| then [s] else [s[..k]] + Split(s[k + 1..], c)
  }

  /** `parts.join(sep)`. */
  function Join(parts: seq<string>, sep: string): (r: string)
  {
    if parts == [] then ""
    else if |parts| == 1 then parts[0]
    else parts[0] + sep + Join(parts[1..], sep)
  }

  /** Splitting a join on a separator that occurs in no part gives the parts back. */
  lemma {:induction false} SplitJoin(parts: seq<string>, c: char)
    requires |parts| >= 1
    requires forall j, i :: 0 <= j < |parts| && 0 <= i < |parts[j]| ==> parts[j][i] != c
    ensures Split(Join(parts, [c]), c) == parts
  {
    var s := Join(parts, [c]);
    if |parts| == 1 {
      IndexOfAbsent(parts[0], c);
    } else {
      var rest := Join(parts[1..], [c]);
      assert s == parts[0] + [c] + rest;
      IndexOfAfterPrefix(parts[0], c, rest);
      assert s[|parts[0]| + 1..] == rest;
      assert s[..|parts[0]|] == parts[0];
      SplitJoin(parts[1..], c);
      assert Split(s, c)[1..] == parts[1..];
    }
  }

  lemma IndexOfAbsent(s: string, c: char)
    requires forall i :: 0 <= i < |s| ==> s[i] != c
    ensures IndexOf(s, c) == |s|
  {
  }

  lemma IndexOfAfterPrefix(p: string, c: char, rest: string)
    requires forall i :: 0 <= i < |p| ==> p[i] != c
    ensures IndexOf(p + [c] + rest, c) == |p|
  {
    var s := p + [c] + rest;
    var k := IndexOf(s, c);
    assert s[|p|] == c;
  }

  /** ASCII case folding as done by `toLowerCase` on the names used here. */
  function ToLower(s: string): (r: string)
    ensures |r| == |s|
  {
    if s == [] then [] else [LowerChar(s[0])] + ToLower(s[1..])
  }

  /** `ToLower` folds each character on its own. */
  lemma {:induction false} ToLowerChars(s: string)
    ensures forall i :: 0 <= i < |s| ==> ToLower(s)[i] == LowerChar(s[i])
  {
    if s != [] {
      ToLowerChars(s[1..]);
      assert forall i :: 1 <= i < |s| ==> ToLower(s)[i] == ToLower(s[1..])[i - 1];
    }
  }

  function LowerChar(c: char): char {
    if 'A' <= c <= 'Z' then (c as int + 32) as char else c
  }

  function DigitChar(d: nat): char
    requires d < 10
  {
    "0123456789"[d]
  }

  /** Decimal text of a natural number, as `String(n)` writes it. */
  function NatToString(n: nat): (r: string)
    ensures |r| >= 1
    ensures forall i :: 0 <= i < |r| ==> '0' <= r[i] <= '9'
    decreases n
  {
    if n < 10 then [DigitChar(n)] else NatToString(n / 10) + [DigitChar(n % 10)]
  }

  /** Decimal text of an integer, with a leading '-' when negative. */
  function IntToString(n: int): (r: string)
    ensures |r| >= 1
    ensures (r[0] == '-') == (n < 0)
    ensures forall i :: 0 <= i < |r| ==> r[i] != ';' && r[i] != '='
  {
    if n < 0 then "-" + NatToString(-n) else NatToString(n)
  }
}

=== FILE: unique_ids.dfy ===
/**
 * `UniqueIds` of `src/unique_ids.ts`: a generator of ids unique per instance.
 * Released ids go on a stack of free ids; `get` pops that stack, or hands out
 * the count of used ids when the stack is empty.
 */
module UniqueIdsModel {

  class UniqueIds {
    /** The released ids, most recently released last. */
    var freeIds: seq<int>
    /** The number of ids handed out and not yet released. */
    var numUsed: int
    /** The ids handed out and not yet released. */
    ghost var outstanding: set<int>

    ghost function FreeSet(): set<int>
      reads this
    {
      set x | x in freeIds
    }

    /**
     * `numUsed` counts the outstanding ids; the outstanding ids and the free
     * ids are disjoint, the free ids are distinct, and together they are
     * exactly 0 .. numUsed + |freeIds| - 1.
     */
    ghost predicate Valid()
      reads this
    {
      && numUsed == |outstanding|
      && outstanding !! FreeSet()
      && (forall x :: x in outstanding || x in FreeSet() <==> 0 <= x < numUsed + |freeIds|)
      && (forall i, j :: 0 <= i < j < |freeIds| ==> freeIds[i] != freeIds[j])
    }

    constructor ()
      ensures Valid() && freeIds == [] && numUsed == 0 && outstanding == {}
    {
      freeIds := [];
      numUsed := 0;
      outstanding := {};
    }

    /**
     * `get`: the most recently released id when there is one, otherwise the
     * current `numUsed`. The id was not outstanding, and now is.
     */
    method Get() returns (id: int)
      requires Valid()
      modifies this
      ensures Valid()
      ensures id == if old(freeIds) != [] then old(freeIds)[|old(freeIds)| - 1] else old(numUsed)
      ensures freeIds == if old(freeIds) != [] then old(freeIds)[..|old(freeIds)| - 1] else []
      ensures numUsed == old(numUsed) + 1
      ensures id !in old(outstanding) && outstanding == old(outstanding) + {id}
    {
      if |freeIds| > 0 {
        id := freeIds[|freeIds| - 1];
        ghost var oldFree := FreeSet();
        assert id in oldFree;
        freeIds := freeIds[..|freeIds| - 1];
        assert FreeSet() == oldFree - {id} by {
          forall x | x in oldFree - {id} ensures x in FreeSet() {
            var k :| 0 <= k < |old(freeIds)| && old(freeIds)[k] == x;
            assert k < |freeIds| && freeIds[k] == x;
          }
        }
      } else {
        id := numUsed;
      }
      numUsed := numUsed + 1;
      outstanding := outstanding + {id};
    }

    /**
     * `release`: pushes `id` on the free stack. The source checks nothing;
     * here the caller must hand back an outstanding id.
     */
    method Release(id: int)
      requires Valid() && id in outstanding
      modifies this
      ensures Valid()
      ensures freeIds == old(freeIds) + [id]
      ensures numUsed == old(numUsed) - 1
      ensures outstanding == old(outstanding) - {id}
    {
      ghost var oldFree := FreeSet();
      freeIds := freeIds + [id];
      assert FreeSet() == oldFree + {id} by {
        forall x | x in oldFree ensures x in FreeSet() {
          var k :| 0 <= k < |old(freeIds)| && old(freeIds)[k] == x;
          assert freeIds[k] == x;
        }
        forall x | x in FreeSet() ensures x in oldFree + {id} {
          var k :| 0 <= k < |freeIds| && freeIds[k] == x;
          if k < |old(freeIds)| { assert old(freeIds)[k] == x; }
        }
        assert freeIds[|freeIds| - 1] == id;
      }
      numUsed := numUsed - 1;
      outstanding := outstanding - {id};
    }
  }

  /** Ids handed out by two `get` calls in a row are different. */
  method TwoGetsDiffer(u: UniqueIds) returns (a: int, b: int)
    requires u.Valid()
    modifies u
    ensures a != b
  {
    a := u.Get();
    b := u.Get();
  }
}

=== FILE: wrappers.dfy ===
/** Option and Result values used in place of JavaScript's `undefined` and thrown errors. */
module Wrappers {

  datatype Option<+T> = None | Some(value: T)

  /** `Err` carries the message (or error class) of the exception the source throws. */
  datatype Result<+T> = Ok(value: T) | Err(msg: string)
}
